=== FILE: README.md ===
# Focus timer and break-charge ledger, in Dafny

This project models the core of TaskBookly, a desktop Pomodoro-style focus timer, and proves properties of that model. The core has these parts:

- **`ChargeLedger`** (`ledger.dfy`) models the break-charge ledger (`SecretDataManager`). Its record holds the current charges, the accumulated work seconds, the time left until the next charge, the breaks since the last spend and a version. Each mutator is a pure function from the old record to the new one:
  - `addWorkTime`;
  - the `while` loop of `updateChargeProgress`, both as a recursive function and as the source's loop;
  - `useCharge`, gated by a cooldown;
  - `incrementBreakSessionsSinceLastUse`;
  - `initializeChargeProgress`;
  - `resetData`.
- **`LedgerStore`** (`ledger_store.dfy`) models how the ledger is stored at rest:
  - the `IV(16) ‖ tag(32) ‖ ciphertext` blob layout;
  - the fixed order of the three integrity tags (new keyed, unkeyed, legacy keyed);
  - `isValidSecretData`, `migrateDataIfNeeded`, and `loadData`'s fall-back to the defaults on every failure.

  SHA-256, AES-256-CBC, scrypt and the JSON text codec are function-valued parameters. `Digest` only promises 32-byte output.
- **`FocusTimer`** (`focus_timer.dfy`) models the `FocusTimer` state machine:
  - the controls `start`, `pause`, `resume`, `stop`, `addTime` and `useBreakCharge`;
  - `tick`, `nextSession`, the `timeLeft` setter, the notification request of `onSessionComplete`, and the snapshot arithmetic of `emitTimerUpdate`.

  `Date.now()` becomes an explicit millisecond parameter `now`. The ledger travels with the timer in `Engine`, so every control is a pure step function.
- **`TimerConfig`** (`timer_config.dfy`) models how the timer reads the settings map: `settings.key || fallback`, then `parseInt` or `parseFloat`. The two reads of `breakChargeCooldown` use different fallbacks, and the model keeps them apart.
- **`FocusPresets`** (`focus_presets.dfy`) holds the built-in preset table and `getBuiltInPresetById`.
- **`PresetStore`** (`preset_store.dfy`) models `FocusPresetStore`:
  - `clampDuration` and `sanitizeName`;
  - selection, and create/update/delete;
  - `findPresetById`, `getPresets`, and the sort by name;
  - `sanitizeStoredPreset`, and the file's `load` and `save`.
- **`Format`** (`format.dfy`) models `formatAsTime` and `formatAsClockTime`. Each has a reader that recovers what was formatted.
- **`PackageArgs`** (`package_args.dfy`) models the packaging script's `parseArgs`, `isPublishing`, the dev-channel publish rejection and `inferredReleaseType`.
- **`ElectronSettings`** and **`CommonSettings`** (`settings.dfy`) hold the two default-settings tables and their `getDefaultSettings`.
- Two helper modules support the rest. **`Common`** provides `Option`, `Result`, and `Math.max`/`min`/`trunc`/`abs` on `real`. **`Decimal`** provides `toString`, `padStart(2, "0")`, and `parseInt`/`parseFloat` on sign-digits-fraction text.

JavaScript numbers are `real` (exact; rounding is not modelled). Clock values are integer milliseconds. `NaN` appears only where the source tests for it (`clampDuration`).

Behaviour of the source that the model keeps:

- **Session lengths come from the settings.** The timer reads `workPeriodDuration`, `breakPeriodDuration` and `transitionPeriodDuration` from the settings map, not from the selected preset (src/electron/focus.ts:121-127).
- **Settings reach a running session late.** The lengths are latched only by `start` and the change of session. `updateSettings` refreshes only the ledger's countdown, so a settings change reaches a running session only at its next session boundary.
- **Only a legacy-keyed blob is deciphered with the legacy key.** A blob that carries the unkeyed (oldest) tag is still deciphered with the current key. When deciphering a legacy-keyed blob fails, the error is reported as an integrity failure. `LedgerStore.Decrypt` states both, and `LedgerStore.UnkeyedBlobDecrypts` shows an unkeyed blob loading.
- **The two cooldown reads disagree.** The snapshot reads the cooldown with the fallback `"1"` (src/electron/focus.ts:94). `useBreakCharge` reads it with `"0"` (src/electron/focus.ts:213). So when no cooldown is stored, the snapshot says "on cooldown" while a spend succeeds. `FocusTimer.CooldownDisplayDisagreesWithSpend` exhibits this. The shipped default tables always store `"0"`, so `TimerConfig.DefaultConfig` shows that the two reads agree out of the box.

## Model

| member | source | states |
|---|---|---|
| ChargeLedger.DefaultData | src/electron/bChargingManager.ts:55-62 | the record used when nothing loads: 0 charges, 3600 s to the next charge, 0 breaks, 0 accumulated, version 1, stamped with `now` |
| ChargeLedger.AddWorkTime | src/electron/bChargingManager.ts:214-226 | a non-positive amount changes nothing; otherwise the accumulator grows by exactly the amount (from a non-negative start), never goes below 0, the timestamp becomes `now`, and no other field changes |
| ChargeLedger.Convert | src/electron/bChargingManager.ts:233-237 | the award loop leaves a remainder in [0, T), never lowers the charge count, and conserves `charges·T + accumulated` |
| ChargeLedger.UpdateChargeProgress | src/electron/bChargingManager.ts:228-247 | a non-positive rate is a no-op; otherwise the remainder lies in [0, T), the countdown is `max(0, T − remainder)`, charges lie in [0, 999] and never drop, `charges·T + accumulated` is conserved unless the 999 cap bit, and the other fields are unchanged |
| ChargeLedger.UpdateChargeProgressLoop | src/electron/bChargingManager.ts:228-247 | the source's imperative `while` loop and clamps reach the same record as the functional definition |
| ChargeLedger.EffectiveCooldown | src/electron/bChargingManager.ts:250 | a negative cooldown counts as 0 and any other is kept |
| ChargeLedger.UseCharge | src/electron/bChargingManager.ts:249-263 | succeeds iff charges > 0 and breaks-since-use ≥ the effective cooldown; on success charges drop by one (never below 0), the break counter resets to 0, and nothing else changes; on failure the record is untouched |
| ChargeLedger.IncrementBreakSessions | src/electron/bChargingManager.ts:265-273 | the break counter goes up by one, stays within [0, 999], and no other field changes |
| ChargeLedger.InitializeChargeProgress | src/electron/bChargingManager.ts:279-286 | with a positive rate only the countdown changes, to `max(0, w·60 − accumulated)`; otherwise the record is unchanged |
| ChargeLedger.ResetData | src/electron/bChargingManager.ts:293-303 | the reset record has no charges, no breaks since the last use, nothing accumulated, the full hour (3600 s) left, version 1 and `now` as its last work time |
| ChargeLedger.MutatorsPreserveValid | src/electron/bChargingManager.ts:214-286 | every mutator keeps both counters in [0, 999] and the accumulator and countdown non-negative |
| ChargeLedger.AddWorkTimeAdditive | src/electron/bChargingManager.ts:214-226 | two `addWorkTime` calls equal one call with the sum |
| ChargeLedger.ConvertSplit | src/electron/bChargingManager.ts:233-237 | running the award loop on `a`, then on the rest plus `b`, ends where one run on `a + b` ends |
| ChargeLedger.ConversionIndependentOfBatching | src/electron/bChargingManager.ts:214-247 | flushing and converting after each batch gives the same record as one flush of the sum, below the 999 cap |
| ChargeLedger.CooldownGate | src/electron/bChargingManager.ts:249-273 | a spend is refused while fewer breaks than the cooldown have completed, and succeeds after exactly the missing number of breaks |
| ChargeLedger.CompleteBreaksCount | src/electron/bChargingManager.ts:265-273 | `n` completed breaks below the cap raise the counter by exactly `n` |
| ChargeLedger.ThreeFlushesEarnOneCharge | src/electron/bChargingManager.ts:228-247 | at 60 min per charge, two 1500 s flushes earn nothing and a third earns exactly one charge, leaving 900 s accumulated and 2700 s to go |
| LedgerStore.JoinWithBar | src/electron/bChargingManager.ts:34-40 | `join("\|")`: the text starts with the first part and a bar and ends with the last part |
| LedgerStore.StableKeyMaterial | src/electron/bChargingManager.ts:34-40 | the current key material starts with the user-data path and ends with the fixed app identifier |
| LedgerStore.StableKeyIgnoresInstall | src/electron/bChargingManager.ts:31-42 | the current key does not depend on the executable path or the app version, so it survives reinstalls and updates |
| LedgerStore.LegacyKeyMaterial | src/electron/bChargingManager.ts:168 | the legacy key material starts with the executable path and the app version |
| LedgerStore.LegacyMaterialTracksVersion | src/electron/bChargingManager.ts:168-169 | changing the app version changes the legacy key material (for bar-free version texts) |
| LedgerStore.FieldBeforeBar | src/electron/bChargingManager.ts:168 | two bar-free fields each followed by a bar start equal texts only when they are equal, so the joined material determines its leading field |
| LedgerStore.Split | src/electron/bChargingManager.ts:141-149 | a blob shorter than 48 bytes is rejected; otherwise it is cut into a 16-byte IV, a 32-byte tag and the rest, which concatenate back to the blob |
| LedgerStore.SplitFrame | src/electron/bChargingManager.ts:138-149 | splitting `iv ‖ tag ‖ ciphertext` recovers the three parts |
| LedgerStore.Encrypt | src/electron/bChargingManager.ts:127-139 | the output starts with the IV, followed by SHA-256 over key and ciphertext, then the ciphertext |
| LedgerStore.MatchTag | src/electron/bChargingManager.ts:151-176 | the tag is checked first against the new keyed hash, then the unkeyed hash, then the legacy keyed hash, and each outcome holds exactly when the earlier ones fail |
| LedgerStore.Decrypt | src/electron/bChargingManager.ts:141-200 | short blobs are an invalid format; a tag matching none of the three is an integrity failure; a matching tag whose decipher (legacy key for a legacy tag, current key otherwise) succeeds always loads, with the text that decipher gives; a failed decipher is `DecipherFailed` under the current key and an integrity failure under the legacy key; only the legacy tag schedules a re-save |
| LedgerStore.UnkeyedBlobDecrypts | src/electron/bChargingManager.ts:159-199 | a blob with the oldest, unkeyed tag is deciphered with the current key and loads without a re-save |
| LedgerStore.EncryptDecryptRoundTrip | src/electron/bChargingManager.ts:127-200 | whatever `encrypt` writes, `decrypt` reads back without a re-save, given a cipher that round-trips |
| LedgerStore.TamperedTagRejected | src/electron/bChargingManager.ts:157-195 | a blob whose tag matches none of the accepted tags is refused as an integrity failure |
| LedgerStore.MigrateDataIfNeeded | src/electron/bChargingManager.ts:99-104 | the migrated version is never 0 and a stored non-zero version is kept; the other five fields are copied unchanged |
| LedgerStore.IsValidSecretDataByFields | src/electron/bChargingManager.ts:84-97 | a value passes `isValidSecretData` iff it is an object holding the five ledger fields as numbers, with a version that is absent or a number |
| LedgerStore.ToJson | src/electron/bChargingManager.ts:117-120 | the saved object always passes `isValidSecretData` |
| LedgerStore.MigrateToJson | src/electron/bChargingManager.ts:84-104 | a record written as JSON validates and migrates back to itself, except that version 0 becomes 1 |
| LedgerStore.LoadData | src/electron/bChargingManager.ts:54-82 | a missing file, a failed decryption, unparsable text or an invalid shape all yield the defaults; a valid record is migrated; the version is never 0 |
| LedgerStore.SaveData | src/electron/bChargingManager.ts:117-125 | the saved blob is framed with the given IV |
| LedgerStore.SaveLoadRoundTrip | src/electron/bChargingManager.ts:54-139 | saving and loading again gives back the record (non-zero version) without a re-save, given a cipher and JSON codec that round-trip |
| LedgerStore.LegacyBlobMigrates | src/electron/bChargingManager.ts:166-186 | a blob written under the legacy key loads and asks for a re-save under the current key |
| TimerConfig.Lookup | src/electron/focus.ts:57 | `settings[key] \|\| fallback`: a stored non-empty value is used, while a missing or empty one gives the fallback |
| TimerConfig.ConfigFromSettings | src/electron/focus.ts:93-94 | the configuration exists iff every numeric read parses; each number is the `parseInt`/`parseFloat` of the stored text or its fallback, as read at lines 57, 93-94, 123-125 and 213-214; each switch is on iff its text is exactly "true" |
| TimerConfig.MissingOptionsUseFallbacks | src/electron/focus.ts:57 | options never stored read as 60 minutes per charge, a 5-minute extension, switches off and an empty notification level |
| TimerConfig.CooldownFallbacksDisagree | src/electron/focus.ts:213 | with no cooldown stored, spending reads it as 0 while reporting reads it as 1 |
| TimerConfig.CooldownReadsAgreeWhenStored | src/electron/focus.ts:94 | with a cooldown stored, both reads agree |
| TimerConfig.ThresholdReadsAgree | src/electron/focus.ts:93 | when the stored threshold is plain sign-digits-fraction text, the threshold read with `parseInt` is the truncation of the one read with `parseFloat` |
| TimerConfig.DefaultConfig | src/electron/settings.ts:1-13 | on every platform the default settings give work 25, break 10, transition 3, charging on, transitions off, 60 min per charge, cooldown 0 (both reads), extension 10 |
| TimerConfig.TimerDefaultsAgree | src/common/settingsDefaults.ts:1-14 | the main-process table and the shared table agree on every option the timer reads |
| FocusTimer.TimeLeftValue | src/electron/focus.ts:366-372 | the setter stores 0 for non-positive values and the whole part of positive ones, so `timeLeft` is never negative or fractional |
| FocusTimer.ElapsedSeconds | src/electron/focus.ts:229 | the elapsed whole seconds are the floor of the un-paused milliseconds over 1000 |
| FocusTimer.RefreshCountdown | src/electron/focus.ts:56-59 | with charging off the ledger is untouched; with it on only the countdown is recomputed |
| FocusTimer.NewEngine | src/electron/focus.ts:47-72 | a new timer is stopped with no time left, latches the configured lengths and refreshes the ledger's countdown |
| FocusTimer.ApplySettings | src/electron/focus.ts:74-83 | `updateSettings` leaves the timer and its latched lengths as they are and only refreshes the ledger's countdown |
| FocusTimer.Start | src/electron/focus.ts:129-147 | acts only when stopped: a counting work session with `work·60` seconds, both anchors at `now`, paused and added totals zeroed, and the ledger untouched; otherwise a no-op |
| FocusTimer.Pause | src/electron/focus.ts:160-177 | acts only on a counting work session: status paused at `now`, every other timer field and the latched lengths unchanged; with charging on the work since the last flush is credited and converted |
| FocusTimer.Resume | src/electron/focus.ts:149-158 | acts only on a paused work session: counting again, the pause window added to the paused total, the flush anchor at `now`; the session, its countdown, pause stamp, charge flag, remembered session, start, added time, latched lengths and ledger are all unchanged |
| FocusTimer.Stop | src/electron/focus.ts:179-192 | from any state: no session, stopped, no time left, anchors and totals zeroed; the charge flag, the remembered session, the flush anchor, the latched lengths and the ledger are untouched |
| FocusTimer.StopIdempotent | src/electron/focus.ts:179-192 | stopping twice equals stopping once |
| FocusTimer.AddedIncrement | src/electron/focus.ts:196-200 | adds the amount when it is above 1, and exactly 1 otherwise |
| FocusTimer.AddTime | src/electron/focus.ts:194-210 | acts only on a running or paused work session: the added total grows by the increment, and while paused `timeLeft` is recomputed from the frozen pause instant |
| FocusTimer.UseBreakCharge | src/electron/focus.ts:212-224 | succeeds iff the session is a break, no charge was used this session and the ledger spends; on success it sets the flag and adds `extension·60` seconds, and on failure nothing changes |
| FocusTimer.Successor | src/electron/focus.ts:300-320 | with transitions on, work and break are followed by a transition; with them off, work is followed by break and break by work; a transition is followed by the session other than the one it interrupted, whatever the setting; work and break remember themselves as `previousSession` |
| FocusTimer.NextSession | src/electron/focus.ts:289-330 | clears the per-session charge flag, moves to the successor, re-latches lengths, resets anchors to `now`, and increments the ledger's break counter exactly when leaving a break |
| FocusTimer.CompletionNotice | src/electron/focus.ts:264-285 | requests a notification iff supported and `notifsFocus` is `notifsOnly` or `all`, and a sound iff `soundOnly` or `all`, with the transition cue exactly for transitions |
| FocusTimer.Tick | src/electron/focus.ts:226-262 | acts only while counting; a positive remaining time is stored through the `timeLeft` setter and, apart from the work-flush anchor, nothing else in the timer changes; the ledger is flushed (and the anchor moved to `now`) exactly when five seconds of a work session with charging on have passed; otherwise the session completes with a notice, after the work since the last flush has been credited once, and the successor starts at `now` |
| FocusTimer.Snapshot | src/electron/focus.ts:91-119 | progress lies in [0, 100] and is 0 when the threshold is not positive; `isOnCooldown` iff breaks-since-use < cooldown; breaks left = `max(0, cooldown − since)`; the session, status, time left, charges, countdown and the used-this-session flag are copied |
| FocusTimer.SnapshotProgressValue | src/electron/focus.ts:96-101 | with a positive threshold, progress × threshold = 100 × accumulated between the bounds; progress is 100 exactly when a full threshold is held and 0 exactly when nothing is |
| FocusTimer.FlushWork | src/electron/focus.ts:238-241 | a non-positive span leaves the ledger alone; a positive one stamps the flush time, keeps the break count and the version, and never lowers an in-range charge count |
| FocusTimer.FlushAddsCredit | src/electron/focus.ts:233-244 | one flush (`addWorkTime` then `updateChargeProgress`) adds exactly its seconds to charges × threshold + accumulated, unless the 999 cap is reached, and keeps the ledger valid |
| FocusTimer.WorkTickConservesCredit | src/electron/focus.ts:226-262 | on a counting work session with charging on, a tick keeps charges × threshold + accumulated + unflushed seconds unchanged, whether it waits, flushes or ends the session (unless the 999 cap is reached) |
| FocusTimer.ControlsPreserveConsistent | src/electron/focus.ts:129-262 | every control and tick keeps "no session iff stopped" and "only work can be paused" |
| FocusTimer.StoppedIsInert | src/electron/focus.ts:149-262 | a stopped timer ignores pause, resume, addTime, useBreakCharge and tick |
| FocusTimer.PausedTimeExcluded | src/electron/focus.ts:149-177 | after start, pause and resume, the remaining time counts only the un-paused milliseconds |
| FocusTimer.TickDependsOnlyOnAnchors | src/electron/focus.ts:226-262 | a tick that does not end the session leaves what a later tick computes unchanged, so the result depends only on `now` |
| FocusTimer.PausedDisplayMatchesResume | src/electron/focus.ts:194-210 | time added while paused shows at once and equals what the first tick after resuming computes |
| FocusTimer.ChargeOncePerBreak | src/electron/focus.ts:212-224 | after a successful spend a second one in the same break fails, and the next session clears the flag |
| FocusTimer.CycleWithoutTransitions | src/electron/focus.ts:305-313 | without transitions, work and break alternate |
| FocusTimer.CycleWithTransitions | src/electron/focus.ts:300-320 | with transitions: work → transition → break → transition → work, remembering the interrupted session |
| FocusTimer.SnapshotMatchesGate | src/electron/focus.ts:91-105 | when both cooldown reads agree, the snapshot's cooldown flag is exactly the ledger's cooldown refusal |
| FocusTimer.CooldownDisplayDisagreesWithSpend | src/electron/focus.ts:94-105 | with no cooldown stored, the snapshot reports a cooldown while the spend succeeds |
| FocusTimer.WorkSessionEndsInBreak | src/electron/focus.ts:226-262 | a 25-minute work session ends at second 1500 into a 300 s break with 1500 s accumulated, no charge and 2100 s to go |
| FocusPresets.FindById | src/common/focusPresets.ts:146-148 | finds a preset iff one has the id, and then the first such |
| FocusPresets.GetBuiltInPresetById | src/common/focusPresets.ts:146-148 | a found preset has the id, comes from the table and is built in |
| FocusPresets.BuiltInTable | src/common/focusPresets.ts:17-144 | fourteen presets with distinct ids, each built in, in range (work in [1, 180], break in [1, 60]) and in a section; the default is first |
| FocusPresets.DefaultIsFirst | src/common/focusPresets.ts:15-26 | "classic" resolves to element 0 of the table |
| FocusPresets.BuiltInLookup | src/common/focusPresets.ts:146-148 | every built-in is found by its own id, and an id outside the table finds nothing |
| PresetStore.ClampDuration | src/electron/focusPresetStore.ts:20-23 | NaN gives `min`; otherwise the truncated value clamped into [min, max], always within bounds when min ≤ max |
| PresetStore.Trim | src/electron/focusPresetStore.ts:26 | everything before the kept part and everything after it is white space, and the result neither starts nor ends with white space |
| PresetStore.TrimIsSlice | src/electron/focusPresetStore.ts:26 | the kept part is the input's contiguous slice between the white space dropped at either end |
| PresetStore.TrimIdempotent | src/electron/focusPresetStore.ts:26 | trimming twice is trimming once |
| PresetStore.SanitizeName | src/electron/focusPresetStore.ts:25-28 | "Custom Preset" when the trimmed name is empty, otherwise a prefix of the trimmed name of length `min(len, 80)` |
| PresetStore.SanitizeStableName | src/electron/focusPresetStore.ts:25-28 | a trimmed, non-empty name of at most 80 characters is kept as it is |
| PresetStore.LongNameDriftsOnResanitize | src/electron/focusPresetStore.ts:25-28 | an 81-character name whose 80th character is a space is stored ending in that space, and sanitizing the stored name again drops it: sanitizing is not idempotent |
| PresetStore.CleanDescription | src/electron/focusPresetStore.ts:70 | a description survives iff something is left after trimming, and then it is the trimmed text |
| PresetStore.SortByName | src/electron/focusPresetStore.ts:196-198 | the sort yields a permutation of its input, ordered by the name collation |
| PresetStore.SortSortedIsIdentity | src/electron/focusPresetStore.ts:196-198 | sorting an already sorted list leaves it unchanged (the sort is stable) |
| PresetStore.FindPresetById | src/electron/focusPresetStore.ts:157-159 | a custom preset with the id shadows a built-in one; otherwise the built-in lookup decides |
| PresetStore.GetPresets | src/electron/focusPresetStore.ts:44-47 | all built-ins first, then every custom preset in order with `builtIn = false` |
| PresetStore.GetSelectedPreset | src/electron/focusPresetStore.ts:53-55 | the selected id's preset, or the first built-in when it does not resolve |
| PresetStore.SetSelectedPreset | src/electron/focusPresetStore.ts:57-62 | selects the id when it resolves and the default otherwise; the stored id is that of the preset returned |
| PresetStore.CreatePreset | src/electron/focusPresetStore.ts:64-77 | adds exactly one preset with the new id, sanitized name, work in [1, 180], break in [1, 60] and `builtIn = false`; the list stays sorted |
| PresetStore.UpdatePreset | src/electron/focusPresetStore.ts:79-95 | an unknown id gives null and no change; otherwise the preset is replaced in place, with its id kept and the same clamping, and the list is re-sorted |
| PresetStore.DeletePreset | src/electron/focusPresetStore.ts:97-108 | an unknown id gives false and no change; otherwise exactly that preset is removed, and a deleted selection becomes "classic" |
| PresetStore.DeleteKeepsOrder | src/electron/focusPresetStore.ts:97-108 | removing a preset keeps the rest sorted |
| PresetStore.SanitizeStoredPreset | src/electron/focusPresetStore.ts:161-187 | a non-object gives null; otherwise an in-range custom preset that keeps a non-blank stored id and gets a fresh id otherwise |
| PresetStore.SanitizeEntries | src/electron/focusPresetStore.ts:121-122 | the loaded presets are all in range and custom, one per object entry |
| PresetStore.SanitizeEntriesKeepsObjects | src/electron/focusPresetStore.ts:121-122 | no object entry is dropped and order is kept: object entry `i` becomes the preset at the position given by the number of objects before it, sanitized with the id offered at `i` |
| Common.FilterMapSources | src/electron/focusPresetStore.ts:121-122 | every preset kept by `map(...).filter(p => p !== null)` is the sanitized form of some stored entry |
| Common.FilterMapKeepsAll | src/electron/focusPresetStore.ts:121-122 | nothing is dropped exactly when every entry sanitizes to a preset |
| PresetStore.SanitizeEntriesIsFilterMap | src/electron/focusPresetStore.ts:121-122 | the recursive sanitizing equals the source's `map(sanitizeStoredPreset)` followed by `filter(p => p !== null)` |
| PresetStore.Load | src/electron/focusPresetStore.ts:110-139 | a missing or corrupt file gives the empty store; the loaded selection always resolves, is the stored id whenever that id resolves, and is otherwise the default (also when no id is stored); the presets are exactly the sanitized entries (same multiset), sorted and in range |
| PresetStore.LoadPresets | src/electron/focusPresetStore.ts:126-131 | the stored presets are a sorted permutation of the sanitized ones; the selection resolves, and is the stored id whenever that id resolves and the default otherwise |
| PresetStore.SelectionAfterLoad | src/electron/focusPresetStore.ts:126-130 | the stored id is kept iff it resolves against the loaded presets |
| PresetStore.Save | src/electron/focusPresetStore.ts:141-155 | the file holds the selection and one entry per custom preset |
| PresetStore.SaveLoadRoundTrip | src/electron/focusPresetStore.ts:110-155 | loading what was saved gives back the same store |
| PresetStore.EmptyStoreIsValid | src/electron/focusPresetStore.ts:110-116 | the empty store satisfies the invariant and selects the first built-in |
| PresetStore.OperationsPreserveInvariant | src/electron/focusPresetStore.ts:53-108 | select, create, update and delete keep the selection resolving and the custom presets in range and sorted |
| PresetStore.SelectThenGet | src/electron/focusPresetStore.ts:53-62 | reading the selection back gives the preset that `setSelectedPreset` returned |
| PresetStore.CreateThenDelete | src/electron/focusPresetStore.ts:64-108 | deleting a freshly created preset restores the custom presets and the selection |
| Format.FormatAsTime | src/ui/utils/format.ts:1-11 | reading the text back as `m:ss` or `h:mm:ss` gives the whole seconds of the magnitude, `trunc(abs(x))` |
| Format.FormatAsTimeShape | src/ui/utils/format.ts:10 | below one hour the text has two colon-separated fields and from one hour three; `x` and `−x` format alike |
| Format.FormatAsTimeDistinguishes | src/ui/utils/format.ts:2 | two inputs format alike iff their truncated magnitudes are equal |
| Format.Decompose | src/ui/utils/format.ts:4-6 | minutes and seconds are below 60 and the fields add back up to the total |
| Decimal.Pad2 | src/ui/utils/format.ts:8 | the padded text has at least two digits, exactly two below 100, and reads back as the number |
| Format.Hours12 | src/ui/utils/format.ts:25 | the 12-hour dial reads 1 to 12, and is the hour, the hour minus 12, or 12 at midnight |
| Format.Meridiem | src/ui/utils/format.ts:26 | "AM" iff the hour is below 12, "PM" otherwise |
| Format.TwelveHourInverse | src/ui/utils/format.ts:25-26 | the dial position and the meridiem together give back the hour |
| Format.FormatAsClockTime | src/ui/utils/format.ts:13-29 | the 24-hour text has 5 or 8 characters (`:ss` only with seconds shown); the 12-hour text ends with " AM" or " PM" |
| Format.ClockRoundTrip | src/ui/utils/format.ts:13-29 | reading the clock text back gives the reading, with seconds 0 when they are not shown |
| PackageArgs.Classify | scripts/package.mjs:50-88 | a shortcut is recognised case-insensitively and names an allowed channel |
| PackageArgs.SecondField | scripts/package.mjs:69 | `split("=")[1]` is absent iff there is no "=", and never contains "=" |
| PackageArgs.SecondFieldOf | scripts/package.mjs:69 | the value is the text between the first and second "=" |
| PackageArgs.ReadNext | scripts/package.mjs:39-46 | the value is the next argument iff it exists, is non-empty and does not start with "-" |
| PackageArgs.Scan | scripts/package.mjs:48-91 | forwarded arguments are kept in order, each taken from argv and unrecognised; a missing value names a value option |
| PackageArgs.ParseArgs | scripts/package.mjs:34-108 | a successful parse has an allowed channel, a build number, and only unrecognised arguments forwarded; an invalid channel is reported as not allowed |
| PackageArgs.LastShortcutWins | scripts/package.mjs:57-60 | a shortcut at the end overrides the channel set before |
| PackageArgs.LastValueOptionWins | scripts/package.mjs:62-80 | `--channel v` or `--build v` at the end overrides what came before, with the value's case kept |
| PackageArgs.MissingValueNamesFlag | scripts/package.mjs:39-46 | a value option with no argument, or one starting with "-", fails and names the option |
| PackageArgs.AssignFormWins | scripts/package.mjs:68-88 | `--flag=v` sets the value when `v` is non-empty and leaves it unchanged when empty |
| PackageArgs.ClassifyAssign | scripts/package.mjs:68-88 | `--channel=`/`-c=` and `--build=`/`--build-number=`/`-b=` are recognised whatever value follows |
| PackageArgs.PassThroughAppends | scripts/package.mjs:90 | an unrecognised argument is forwarded after those already forwarded |
| PackageArgs.PlainArgumentsForwarded | scripts/package.mjs:48-91 | arguments none of which is an option are forwarded unchanged and in order |
| PackageArgs.HelpStops | scripts/package.mjs:52-55 | `--help` stops parsing wherever it appears |
| PackageArgs.PublishOptionPassesThrough | scripts/package.mjs:90 | every `--publish…` argument is forwarded to the builder |
| PackageArgs.ChannelFromEnvironment | scripts/package.mjs:35-98 | without options the channel is the environment's (default "stable"), lower-cased, and is rejected unless allowed |
| PackageArgs.IsPublishing | scripts/package.mjs:153-162 | publishing iff some forwarded argument is a publish request |
| PackageArgs.PublishArgForms | scripts/package.mjs:153-162 | `--publish`, and `--publish=v` with `v ≠ "never"`, request publishing; the match is case-sensitive |
| PackageArgs.PlanPackage | scripts/package.mjs:164-169 | publishing on dev is refused, and only that; otherwise channel, build number and builder arguments pass through, with a release type iff publishing, "prerelease" exactly on beta |
| PackageArgs.Package | scripts/package.mjs:150-169 | a successful run has an allowed channel and forwards only arguments it was given; a parse failure is reported as such |
| PackageArgs.PublishRules | scripts/package.mjs:164-169 | dev is never published; there is a release type iff publishing, and it is "prerelease" exactly on beta |
| PackageArgs.DevShortcutPublishRefused | scripts/package.mjs:164-167 | `--dev --publish` is refused |
| PackageArgs.DevValuePublishRefused | scripts/package.mjs:164-167 | a channel option whose value lower-cases to "dev", followed by a publish request, is refused |
| PackageArgs.DevWithoutPublishAllowed | scripts/package.mjs:153-169 | `--dev --publish=never` builds without a release type |
| ElectronSettings.GetDefaultSettings | src/electron/settings.ts:22-33 | every base key keeps its base value; "darwin" adds `touchBar = "true"`; every other platform gets the base map exactly |
| ElectronSettings.ChargeDefaults | src/electron/settings.ts:1-13 | the defaults enable charging with cooldown "0", 60 min per charge and a 10 min extension |
| CommonSettings.GetDefaultSettings | src/common/settingsDefaults.ts:21-31 | every platform, win32 and darwin included, gets exactly the base map |
| CommonSettings.RendererDefaults | src/common/settingsDefaults.ts:1-14 | the shared defaults include `discordRichPresence` "true", `autoSoundMode` "false" and `workTimePerCharge` "60" |

## Left out

- Timers and events: the 100 ms `setInterval` tick loop, the debounced save, the delayed re-save after a legacy decrypt, and the `EventEmitter` events. A tick is a step function called with `now`. The re-save is a flag on the load result. The choice between an immediate and a debounced save is not modelled.
- Notifications and sound: `onSessionComplete` returns a notification request value (`Notice`). Electron's `Notification`, its click handler and `webContents.send` are not modelled.
- Crypto, file system and environment: AES-256-CBC, SHA-256, scrypt, `randomBytes`, `crypto.randomUUID`, `app.getPath`, `hostname`/`platform`/`arch`, and file existence and reads. These are parameters. A `saveData` write failure is not modelled.
- JSON: `JSON.parse` and `JSON.stringify` are parameters (`JsonCodec`). The preset file is modelled at the level of parsed values (`FileState`).
- Shared state between timers: `FocusTimer.settings` and `FocusTimer.sessions` are static and shared by every timer, and the ledger is a process-wide singleton. The model has one timer per `Engine`, carrying its own latched lengths and ledger.
- Unparsable settings: a setting that `parseFloat`/`parseInt` reads as NaN makes `TimerConfig.ConfigFromSettings` return `None`. The timer's behaviour on NaN lengths is not modelled.
- Number text: exponents, a `0x` prefix, leading white space and "Infinity" in setting strings are not parsed. On such text the source's two threshold reads disagree: for "1e2" `parseInt` gives 1 and `parseFloat` 100, and for "0x3C" `parseInt` gives 60 and `parseFloat` 0 (src/electron/focus.ts:93 against src/electron/focus.ts:240 and 252).
- TimerConfig.ThresholdReadsAgree: holds only for plain sign-digits-fraction text, because of the exponent and hex cases above.
- Floating point: `real` is exact, so the rounding of work-time seconds and percentages is not modelled.
- Trivial ledger members: `forceUpdate`, `cleanup` and the getters only save or read a field.
- Trivial timer members: `forceDataUpdate` and the `isOnCooldown` getter. The getter is the same comparison as `Snapshot.isOnCooldown`.
- Dates: `formatAsClockTime` takes hours, minutes and seconds rather than a `Date`. Time zones are not modelled.
- String handling in the presets: JavaScript strings are UTF-16 code units and Dafny strings are sequences of characters, so `slice(0, 80)` on astral characters is not modelled. `localeCompare` is replaced by a collation key on names (`PresetStore.Collation`).
- The preset id generator's `randomBytes` fallback is not modelled; ids are passed in.
- `PackageArgs.Lower`: models `toLowerCase` on ASCII letters only, because option names and channel names are ASCII.
- Packaging side effects: `showUsage`/`process.exit` become the error values `Help`, `MissingValue` and `InvalidChannel`. The default build number derived from the current date is a parameter. Everything after the publish check (`spawnSync`, the build metadata file) is not modelled.
- `ChargeLedger.UpdateChargeProgress`: states conservation of `charges·T + accumulated` only for a non-negative starting charge count, and only below the 999 cap. Records loaded from disk with negative counts are clamped by the source but are not reachable through the mutators.

=== FILE: common.dfy ===
/** Small shared vocabulary: optional values, results, and the handful of
    JavaScript numeric helpers (Math.max, Math.min, Math.trunc, Math.abs)
    the application leans on. JavaScript numbers are modelled as `real`;
    floating-point rounding is not modelled. */
module Common {

  /** An optional value: `undefined`/`null` in the source becomes `None`. */
  datatype Option<+T> = None | Some(value: T) {

    /** `x ?? d` in the source. */
    function GetOr(default: T): T {
      match this
      case Some(v) => v
      case None => default
    }
  }

  /** An outcome that either carries a value or says why there is none. */
  datatype Result<+T, +E> = Ok(value: T) | Err(error: E)

  /** `Math.max(a, b)` on non-NaN numbers. */
  function Max(a: real, b: real): real {
    if a >= b then a else b
  }

  /** `Math.min(a, b)` on non-NaN numbers. */
  function Min(a: real, b: real): real {
    if a <= b then a else b
  }

  /** `Math.abs(x)`. */
  function Abs(x: real): real {
    if x < 0.0 then -x else x
  }

  /** `Math.trunc(x)`: rounds toward zero (Dafny's `Floor` rounds down). */
  function Trunc(x: real): (r: int)
    ensures x >= 0.0 ==> 0 <= r && r as real <= x < r as real + 1.0
    ensures x < 0.0 ==> r <= 0 && r as real - 1.0 < x <= r as real
  {
    if x >= 0.0 then x.Floor else -((-x).Floor)
  }

  /** `Math.min(Math.max(x, lo), hi)` on integers. */
  function ClampInt(x: int, lo: int, hi: int): int {
    if x < lo then (if lo <= hi then lo else hi)
    else if x > hi then hi
    else x
  }

  /** The list without its `k`-th element. */
  function RemoveAt<T>(s: seq<T>, k: nat): (r: seq<T>)
    requires k < |s|
    ensures |r| == |s| - 1
    ensures multiset(r) == multiset(s) - multiset{s[k]}
    ensures forall i :: 0 <= i < |r| ==> r[i] == s[if i < k then i else i + 1]
  {
    var r := s[..k] + s[k + 1..];
    assert s == s[..k] + [s[k]] + s[k + 1..];
    assert multiset(s) == multiset(s[..k]) + multiset{s[k]} + multiset(s[k + 1..]);
    assert multiset(r) == multiset(s[..k]) + multiset(s[k + 1..]);
    r
  }

  /** `xs.map(f).filter(v => v !== null)`, where element `i` is mapped
      together with its position `k + i`. */
  function FilterMap<A, B>(xs: seq<A>, f: (A, nat) -> Option<B>, k: nat): (r: seq<B>)
    ensures |r| <= |xs|
    decreases |xs|
  {
    if |xs| == 0 then []
    else
      var tail := FilterMap(xs[1..], f, k + 1);
      if f(xs[0], k).Some? then [f(xs[0], k).value] + tail else tail
  }

  /** Mapping and filtering two parts gives the two results one after the
      other, the second part numbered on from the first. */
  lemma {:induction false} FilterMapAppend<A, B>(a: seq<A>, b: seq<A>, f: (A, nat) -> Option<B>, k: nat)
    ensures FilterMap(a + b, f, k) == FilterMap(a, f, k) + FilterMap(b, f, k + |a|)
    decreases |a|
  {
    if |a| == 0 {
      assert a + b == b;
    } else {
      FilterMapAppend(a[1..], b, f, k + 1);
      assert (a + b)[1..] == a[1..] + b;
      assert (a + b)[0] == a[0];
    }
  }

  /** Every value kept is the image of some element at its position. */
  lemma {:induction false} FilterMapSources<A, B>(xs: seq<A>, f: (A, nat) -> Option<B>, k: nat)
    ensures forall y :: y in FilterMap(xs, f, k) ==> exists j :: 0 <= j < |xs| && f(xs[j], k + j) == Some(y)
    decreases |xs|
  {
    if |xs| > 0 {
      FilterMapSources(xs[1..], f, k + 1);
      forall y | y in FilterMap(xs[1..], f, k + 1)
        ensures exists j :: 0 <= j < |xs| && f(xs[j], k + j) == Some(y)
      {
        var j :| 0 <= j < |xs[1..]| && f(xs[1..][j], k + 1 + j) == Some(y);
        assert xs[1..][j] == xs[j + 1] && k + 1 + j == k + (j + 1);
      }
    }
  }

  /** Nothing is dropped exactly when `f` keeps every element. */
  lemma {:induction false} FilterMapKeepsAll<A, B>(xs: seq<A>, f: (A, nat) -> Option<B>, k: nat)
    ensures |FilterMap(xs, f, k)| == |xs| <==> forall j :: 0 <= j < |xs| ==> f(xs[j], k + j).Some?
    decreases |xs|
  {
    if |xs| > 0 {
      FilterMapKeepsAll(xs[1..], f, k + 1);
      assert forall j :: 0 <= j < |xs| - 1 ==> xs[1..][j] == xs[j + 1] && k + 1 + j == k + (j + 1);
    }
  }

  /** An element `f` keeps lands right after what the elements before it
      produced. */
  lemma FilterMapKeeps<A, B>(xs: seq<A>, f: (A, nat) -> Option<B>, k: nat, i: nat)
    requires i < |xs| && f(xs[i], k + i).Some?
    ensures |FilterMap(xs[..i], f, k)| < |FilterMap(xs, f, k)|
    ensures FilterMap(xs, f, k)[|FilterMap(xs[..i], f, k)|] == f(xs[i], k + i).value
  {
    assert xs == xs[..i] + xs[i..];
    FilterMapAppend(xs[..i], xs[i..], f, k);
    assert xs[i..][0] == xs[i];
  }
}

=== FILE: decimal.dfy ===
/** Decimal text: `Number.prototype.toString` on naturals, `padStart(2, "0")`,
    and the two settings parsers `parseInt` and `parseFloat`, restricted to
    the grammar the application's settings use (an optional sign, digits,
    and for `parseFloat` an optional fraction). Both parsers read the
    longest prefix that fits and give `None` (JavaScript's NaN) when no
    digit is found. */
module Decimal {
  import opened Common

  predicate IsDigit(c: char) {
    '0' <= c <= '9'
  }

  predicate AllDigits(s: string) {
    forall i :: 0 <= i < |s| ==> IsDigit(s[i])
  }

  function DigitValue(c: char): nat
    requires IsDigit(c)
  {
    c as int - '0' as int
  }

  function DigitChar(d: nat): (c: char)
    requires d < 10
    ensures IsDigit(c) && DigitValue(c) == d
  {
    ('0' as int + d) as char
  }

  function Pow10(k: nat): (r: nat)
    ensures r >= 1
  {
    if k == 0 then 1 else 10 * Pow10(k - 1)
  }

  /** `n.toString()` for a natural number: digits, most significant first,
      with no leading zero. */
  function NatToString(n: nat): (s: string)
    ensures 1 <= |s| && AllDigits(s)
    ensures |s| > 1 ==> s[0] != '0'
    ensures n < 10 <==> |s| == 1
    decreases n
  {
    if n < 10 then [DigitChar(n)] else NatToString(n / 10) + [DigitChar(n % 10)]
  }

  /** The value of a string of decimal digits (the empty string is 0). */
  function ParseNat(s: string): nat
    requires AllDigits(s)
    decreases |s|
  {
    if |s| == 0 then 0 else 10 * ParseNat(s[..|s| - 1]) + DigitValue(s[|s| - 1])
  }

  /** Printing then reading a natural gives it back. */
  lemma {:induction false} ParseNatToString(n: nat)
    ensures ParseNat(NatToString(n)) == n
    decreases n
  {
    if n >= 10 {
      var s := NatToString(n);
      assert s[..|s| - 1] == NatToString(n / 10);
      ParseNatToString(n / 10);
    }
  }

  /** A leading zero does not change the value of a digit string. */
  lemma {:induction false} ParseNatLeadingZero(s: string)
    requires AllDigits(s)
    ensures AllDigits("0" + s) && ParseNat("0" + s) == ParseNat(s)
    decreases |s|
  {
    if |s| > 0 {
      var t := "0" + s;
      assert t[..|t| - 1] == "0" + s[..|s| - 1];
      ParseNatLeadingZero(s[..|s| - 1]);
    }
  }

  /** A string of k digits denotes a value below 10^k. */
  lemma {:induction false} ParseNatBound(s: string)
    requires AllDigits(s)
    ensures ParseNat(s) < Pow10(|s|)
    decreases |s|
  {
    if |s| > 0 {
      ParseNatBound(s[..|s| - 1]);
    }
  }

  /** `num.toString().padStart(2, "0")`. */
  function Pad2(n: nat): (s: string)
    ensures AllDigits(s) && 2 <= |s|
    ensures n < 100 ==> |s| == 2
    ensures ParseNat(s) == n
  {
    var t := NatToString(n);
    ParseNatToString(n);
    if |t| < 2 then
      ParseNatLeadingZero(t);
      "0" + t
    else t
  }

  /** The number of leading decimal digits of `s`. */
  function DigitRun(s: string): (k: nat)
    ensures k <= |s| && AllDigits(s[..k])
    ensures k < |s| ==> !IsDigit(s[k])
    decreases |s|
  {
    if |s| > 0 && IsDigit(s[0]) then
      var k := 1 + DigitRun(s[1..]);
      assert s[..k] == [s[0]] + s[1..][..k - 1];
      k
    else 0
  }

  lemma DigitRunAll(s: string)
    requires AllDigits(s)
    ensures DigitRun(s) == |s|
  {
    if |s| > 0 {
      DigitRunAll(s[1..]);
    }
  }

  /** Splits an optional leading sign from the rest: (negative?, rest). */
  function SplitSign(s: string): (bool, string) {
    if |s| > 0 && (s[0] == '-' || s[0] == '+') then (s[0] == '-', s[1..]) else (false, s)
  }

  /** `parseInt(s)` in base ten; `None` stands for NaN. */
  function ParseInt(s: string): Option<int> {
    var (negative, rest) := SplitSign(s);
    var k := DigitRun(rest);
    if k == 0 then None
    else
      var magnitude: int := ParseNat(rest[..k]);
      Some(if negative then -magnitude else magnitude)
  }

  /** The digits right after a leading '.', if there is one. */
  function Fraction(s: string): (f: string)
    ensures AllDigits(f)
  {
    if |s| > 0 && s[0] == '.' then s[1..][..DigitRun(s[1..])] else ""
  }

  /** The whole of `s` is sign-digits-fraction text: nothing follows the
      fraction. On such text the model's parsers read what JavaScript's do;
      on an exponent or a `0x` prefix they would not. */
  predicate PlainNumber(s: string) {
    var rest := SplitSign(s).1;
    var k := DigitRun(rest);
    k < |rest| ==> rest[k] == '.' && AllDigits(rest[k + 1..])
  }

  /** `parseFloat(s)` for sign-digits-fraction text; `None` stands for NaN. */
  function ParseFloat(s: string): Option<real> {
    var (negative, rest) := SplitSign(s);
    var k := DigitRun(rest);
    var frac := Fraction(rest[k..]);
    if k == 0 && |frac| == 0 then None
    else
      var magnitude := ParseNat(rest[..k]) as real + ParseNat(frac) as real / Pow10(|frac|) as real;
      Some(if negative then -magnitude else magnitude)
  }

  /** A natural number's own text reads back as that number under both parsers. */
  lemma ParsersReadNatText(n: nat)
    ensures ParseInt(NatToString(n)) == Some(n)
    ensures ParseFloat(NatToString(n)) == Some(n as real)
  {
    ParseIntReadsNatText(n);
    ParseFloatReadsNatText(n);
  }

  lemma ParseIntReadsNatText(n: nat)
    ensures ParseInt(NatToString(n)) == Some(n)
  {
    var s := NatToString(n);
    DigitRunAll(s);
    assert s[..|s|] == s;
    ParseNatToString(n);
  }

  lemma ParseFloatReadsNatText(n: nat)
    ensures ParseFloat(NatToString(n)) == Some(n as real)
  {
    var s := NatToString(n);
    DigitRunAll(s);
    assert s[..|s|] == s;
    assert s[|s|..] == "";
    assert SplitSign(s) == (false, s);
    assert Fraction(s[|s|..]) == "";
    ParseNatToString(n);
    assert ParseNat("") as real / Pow10(0) as real == 0.0;
  }

  /** Wherever `parseInt` finds a number, `parseFloat` finds one too, and
      truncating it gives `parseInt`'s answer: the two readings of one
      setting differ only in the fraction. */
  lemma ParseIntTruncatesParseFloat(s: string)
    requires PlainNumber(s) && ParseInt(s).Some?
    ensures ParseFloat(s).Some? && Trunc(ParseFloat(s).value) == ParseInt(s).value
  {
    var (negative, rest) := SplitSign(s);
    var k := DigitRun(rest);
    var frac := Fraction(rest[k..]);
    ParseNatBound(frac);
    var n := ParseNat(rest[..k]);
    var f := ParseNat(frac) as real / Pow10(|frac|) as real;
    ProperFraction(ParseNat(frac), Pow10(|frac|));
    TruncWholePlusFraction(n, f, negative);
  }

  lemma ProperFraction(a: nat, b: nat)
    requires a < b
    ensures 0.0 <= a as real / b as real < 1.0
  {
    var q := a as real / b as real;
    assert q * b as real == a as real;
  }

  lemma TruncWholePlusFraction(n: nat, f: real, negative: bool)
    requires 0.0 <= f < 1.0
    ensures Trunc(if negative then -(n as real + f) else n as real + f) == (if negative then -(n as int) else n as int)
  {
    assert (n as real + f).Floor == n;
  }
}

=== FILE: focus_presets.dfy ===
/** The built-in focus presets shared by the main process and the renderer
    (`src/common/focusPresets.ts`), and the lookup by id. */
module FocusPresets {
  import opened Common

  /** The four section labels, in display order. */
  datatype Section = ProductivityStaples | StudyAndLearning | WorkAndCreative | ScienceBased

  function SectionLabel(s: Section): (text: string)
    ensures |text| > 0
  {
    match s
    case ProductivityStaples => "Productivity Staples"
    case StudyAndLearning => "Study & Learning"
    case WorkAndCreative => "Work & Creative"
    case ScienceBased => "Science-Based"
  }

  /** A preset as the application passes it around; `description` and
      `section` are optional fields. */
  datatype Preset = Preset(
    id: string,
    name: string,
    workDurationMinutes: int,
    breakDurationMinutes: int,
    description: Option<string>,
    section: Option<Section>,
    builtIn: bool)

  const DefaultPresetId: string := "classic"

  function BuiltIn(id: string, name: string, work: int, brk: int, description: string, section: Section): (p: Preset)
    ensures p.id == id && p.builtIn && p.section == Some(section)
    ensures p.workDurationMinutes == work && p.breakDurationMinutes == brk
  {
    Preset(id, name, work, brk, Some(description), Some(section), true)
  }

  const BuiltInPresets: seq<Preset> := [
    BuiltIn("classic", "Classic Pomodoro", 25, 5, "Everyday tasks, studying, & light work", ProductivityStaples),
    BuiltIn("deep", "Deep Work", 90, 20, "General creative or analytical work", ProductivityStaples),
    BuiltIn("gentle", "Gentle Start", 15, 5, "Easing into tasks", ProductivityStaples),
    BuiltIn("studyBurst", "Study Burst", 40, 10, "Reading comprehension or memorization", StudyAndLearning),
    BuiltIn("examCram", "Exam Cram", 60, 10, "Studying large volumes quickly", StudyAndLearning),
    BuiltIn("reviewCycle", "Review Cycle", 30, 5, "Reviewing notes or flashcards", StudyAndLearning),
    BuiltIn("readingFocus", "Reading Focus", 45, 15, "Deep reading or research", StudyAndLearning),
    BuiltIn("codingSprint", "Coding Sprint", 52, 17, "Programming or debugging", WorkAndCreative),
    BuiltIn("designFlow", "Design Flow", 70, 10, "Creative design sessions", WorkAndCreative),
    BuiltIn("writerBlockBuster", "Writer Block Buster", 45, 15, "Writing, journaling, or brainstorming", WorkAndCreative),
    BuiltIn("adminCycle", "Admin Cycle", 30, 5, "Emails, scheduling, or smaller administrative tasks", WorkAndCreative),
    BuiltIn("ultradian", "Ultradian Rhythm Cycle", 90, 30,
      "Long projects — aligns with natural brain energy cycles", ScienceBased),
    BuiltIn("twoHour", "Two-Hour Macro Block", 100, 20, "Multi-step creative or technical tasks", ScienceBased),
    BuiltIn("cognitiveFlex", "Cognitive Flex Cycle", 35, 7, "High cognitive-load tasks", ScienceBased)]

  /** Position of the first preset with the given id, `|ps|` when none. */
  function FirstIndex(ps: seq<Preset>, id: string): (k: nat)
    ensures k <= |ps|
    ensures forall j :: 0 <= j < k ==> ps[j].id != id
    ensures k < |ps| ==> ps[k].id == id
  {
    if |ps| == 0 then 0
    else if ps[0].id == id then 0
    else 1 + FirstIndex(ps[1..], id)
  }

  /** `Array.prototype.find` on the `id` field: the first preset with that id. */
  function FindById(ps: seq<Preset>, id: string): (r: Option<Preset>)
    ensures r.Some? <==> exists i :: 0 <= i < |ps| && ps[i].id == id
    ensures r.Some? ==> r.value.id == id && r.value in ps
    ensures r.Some? ==> exists i :: 0 <= i < |ps| && ps[i] == r.value && forall j :: 0 <= j < i ==> ps[j].id != id
  {
    var k := FirstIndex(ps, id);
    if k < |ps| then Some(ps[k]) else None
  }

  /** `getBuiltInPresetById(id)`. */
  function GetBuiltInPresetById(id: string): (r: Option<Preset>)
    ensures r.Some? ==> r.value.id == id && r.value in BuiltInPresets && r.value.builtIn
  {
    BuiltInTable();
    FindById(BuiltInPresets, id)
  }

  /** The bounds a preset's durations keep (the ones the store clamps to). */
  predicate InRange(p: Preset) {
    1 <= p.workDurationMinutes <= 180 && 1 <= p.breakDurationMinutes <= 60
  }

  predicate DistinctIds(ps: seq<Preset>) {
    forall i, j :: 0 <= i < j < |ps| ==> ps[i].id != ps[j].id
  }

  /** The shape of the built-in table: fourteen presets with distinct ids,
      each built in, in range and filed under a section, the default first. */
  lemma BuiltInTable()
    ensures |BuiltInPresets| == 14
    ensures BuiltInPresets[0].id == DefaultPresetId
    ensures DistinctIds(BuiltInPresets)
    ensures forall p :: p in BuiltInPresets ==> p.builtIn && InRange(p) && p.section.Some?
  {
    BuiltInIdsDistinct();
    BuiltInEntriesWellFormed();
  }

  lemma BuiltInIdsDistinct()
    ensures DistinctIds(BuiltInPresets)
  {
    forall i, j | 0 <= i < j < |BuiltInPresets|
      ensures BuiltInPresets[i].id != BuiltInPresets[j].id
    {
      // the two halves of the table are compared separately
      if j < 7 {
      } else {
      }
    }
  }

  lemma BuiltInEntriesWellFormed()
    ensures forall p :: p in BuiltInPresets ==> p.builtIn && InRange(p) && p.section.Some?
  {
    forall i | 0 <= i < |BuiltInPresets|
      ensures BuiltInPresets[i].builtIn && InRange(BuiltInPresets[i]) && BuiltInPresets[i].section.Some?
    {
    }
  }

  /** With distinct ids, looking up a preset's own id finds that preset. */
  lemma {:induction false} FindOwnId(ps: seq<Preset>, i: nat)
    requires DistinctIds(ps) && i < |ps|
    ensures FindById(ps, ps[i].id) == Some(ps[i])
  {
    var k := FirstIndex(ps, ps[i].id);
    assert k == i;
  }

  /** The default id names the first built-in preset. */
  lemma DefaultIsFirst()
    ensures GetBuiltInPresetById(DefaultPresetId) == Some(BuiltInPresets[0])
  {
    assert BuiltInPresets[0].id == DefaultPresetId;
  }

  /** Every built-in preset is found by its id, the default one included,
      and an id outside the table finds nothing. */
  lemma BuiltInLookup(id: string)
    ensures forall i :: 0 <= i < |BuiltInPresets| ==> GetBuiltInPresetById(BuiltInPresets[i].id) == Some(BuiltInPresets[i])
    ensures GetBuiltInPresetById(DefaultPresetId) == Some(BuiltInPresets[0])
    ensures GetBuiltInPresetById(id).None? <==> forall p :: p in BuiltInPresets ==> p.id != id
  {
    BuiltInTable();
    forall i | 0 <= i < |BuiltInPresets|
      ensures GetBuiltInPresetById(BuiltInPresets[i].id) == Some(BuiltInPresets[i])
    {
      FindOwnId(BuiltInPresets, i);
    }
  }
}

=== FILE: focus_timer.dfy ===
/** The focus timer (`FocusTimer` in the main process): a Work / Break /
    Transition state machine whose remaining time is recomputed from
    wall-clock anchors, and which reports work time to, and spends charges
    from, the break-charge ledger.

    `Date.now()` is the explicit parameter `now` (epoch milliseconds), the
    parsed settings are a `Config`, and the ledger singleton travels with
    the timer in `Engine`, so every control is a pure step function. */
module FocusTimer {
  import opened Common
  import opened ChargeLedger
  import opened TimerConfig

  datatype SessionType = NoSession | Work | Break | Transition
  datatype SessionStatus = Counting | Paused | Stopped

  /** The sessions a transition can interrupt (`previousSession`). */
  type Period = s: SessionType | s == Work || s == Break witness Work

  datatype Timer = Timer(
    session: SessionType,
    status: SessionStatus,
    timeLeft: nat,                  // whole seconds, through the setter
    chargeUsedThisSession: bool,
    previousSession: Period,
    sessionStartTime: int,          // ms
    pausedTime: int,                // ms
    totalPausedDuration: int,       // ms
    totalAddedTime: real,           // seconds
    lastWorkTimeUpdate: int)        // ms

  /** `FocusTimer.sessions`: the session lengths in minutes. They are read
      from the settings only by the constructor, `start` and the change of
      session, so a settings update reaches a running session late. */
  datatype Durations = Durations(work: real, brk: real, transition: real)

  /** One timer, the durations it latched and the ledger it reports to. */
  datatype Engine = Engine(timer: Timer, durations: Durations, ledger: SecretData)

  /** The shape every reachable timer has: no session exactly when stopped,
      and only a work session can be paused. */
  predicate Consistent(t: Timer) {
    && (t.session == NoSession <==> t.status == Stopped)
    && (t.status == Paused ==> t.session == Work)
  }

  /** The `timeLeft` setter: positive values are truncated, everything else
      becomes 0. */
  function TimeLeftValue(v: real): (r: nat)
    ensures v <= 0.0 ==> r == 0
    ensures v > 0.0 ==> r as real <= v < r as real + 1.0
  {
    if v > 0.0 then Trunc(v) else 0
  }

  /** `updateSessionDurations()`. */
  function DurationsOf(cfg: Config): (d: Durations)
    ensures d.work == cfg.workMinutes && d.brk == cfg.breakMinutes && d.transition == cfg.transitionMinutes
  {
    Durations(cfg.workMinutes, cfg.breakMinutes, cfg.transitionMinutes)
  }

  /** `FocusTimer.sessions[session]`: the session's length in minutes. */
  function SessionMinutes(d: Durations, s: SessionType): real
    requires s != NoSession
  {
    match s
    case Work => d.work
    case Break => d.brk
    case Transition => d.transition
  }

  /** `Math.floor((now - start - paused) / 1000)`; Dafny's division by a
      positive divisor already rounds down. */
  function ElapsedSeconds(now: int, start: int, paused: int): (r: int)
    ensures r * 1000 <= now - start - paused < r * 1000 + 1000
  {
    (now - start - paused) / 1000
  }

  /** The remaining time a tick at `now` computes: the session length minus
      the elapsed un-paused seconds plus the time added. */
  function RemainingAt(d: Durations, t: Timer, now: int): real
    requires t.session != NoSession
  {
    SessionMinutes(d, t.session) * 60.0
      - ElapsedSeconds(now, t.sessionStartTime, t.totalPausedDuration) as real
      + t.totalAddedTime
  }

  /** The initial timer of the constructor. */
  const InitialTimer: Timer := Timer(NoSession, Stopped, 0, false, Work, 0, 0, 0, 0.0, 0)

  /** The countdown refresh the constructor and `updateSettings` share:
      only with charging on is the ledger touched, and then only its
      countdown. */
  function RefreshCountdown(cfg: Config, ledger: SecretData): (r: SecretData)
    ensures !cfg.breakChargingEnabled ==> r == ledger
    ensures r == ledger.(timeLeftTillNextCharge := r.timeLeftTillNextCharge)
    ensures cfg.breakChargingEnabled && cfg.workTimePerCharge > 0 ==>
      r.timeLeftTillNextCharge == Max(0.0, Threshold(cfg.workTimePerCharge) - ledger.totalWorkTimeAccumulated)
  {
    if cfg.breakChargingEnabled then InitializeChargeProgress(ledger, cfg.workTimePerCharge) else ledger
  }

  /** The constructor: a stopped timer that latches the configured lengths. */
  function NewEngine(cfg: Config, ledger: SecretData): (e: Engine)
    ensures Consistent(e.timer) && e.timer.status == Stopped && e.timer.timeLeft == 0
    ensures e.durations == DurationsOf(cfg)
    ensures e.ledger == RefreshCountdown(cfg, ledger)
  {
    Engine(InitialTimer, DurationsOf(cfg), RefreshCountdown(cfg, ledger))
  }

  /** `updateSettings`: the timer and its latched durations stay as they are. */
  function ApplySettings(cfg: Config, e: Engine): (r: Engine)
    ensures r.timer == e.timer && r.durations == e.durations
    ensures r.ledger == RefreshCountdown(cfg, e.ledger)
  {
    e.(ledger := RefreshCountdown(cfg, e.ledger))
  }

  /** Credits `seconds` of work to the ledger and converts it, as `pause`
      and `tick` do (nothing when `seconds` is not positive). */
  function FlushWork(cfg: Config, ledger: SecretData, seconds: real, now: int): (r: SecretData)
    ensures seconds <= 0.0 ==> r == ledger
    ensures seconds > 0.0 ==>
      && r.lastWorkTimeTracked == now as real
      && r.breakChargesSinceLastUse == ledger.breakChargesSinceLastUse
      && r.version == ledger.version
      && (0.0 <= ledger.currentCharges <= MaxCount ==> r.currentCharges >= ledger.currentCharges)
  {
    if seconds > 0.0 then UpdateChargeProgress(AddWorkTime(ledger, seconds, now), cfg.workTimePerCharge)
    else ledger
  }

  /** Seconds of wall-clock time since the last work-time flush. */
  function SinceLastFlush(t: Timer, now: int): real {
    (now - t.lastWorkTimeUpdate) as real / 1000.0
  }

  /** Whether a tick at `now` flushes work time: every five seconds of a
      work session with charging on. */
  predicate FlushDue(cfg: Config, t: Timer, now: int) {
    t.session == Work && cfg.breakChargingEnabled && now - t.lastWorkTimeUpdate >= 5000
  }

  /** `start()`. */
  function Start(cfg: Config, e: Engine, now: int): (r: Engine)
    ensures e.timer.status != Stopped ==> r == e
    ensures e.timer.status == Stopped ==>
      && r.durations == DurationsOf(cfg)
      && r.timer.session == Work && r.timer.status == Counting
      && r.timer.timeLeft == TimeLeftValue(cfg.workMinutes * 60.0)
      && r.timer.sessionStartTime == now && r.timer.lastWorkTimeUpdate == now
      && r.timer.totalPausedDuration == 0 && r.timer.totalAddedTime == 0.0
      && r.ledger == e.ledger
  {
    if e.timer.status == Stopped then
      e.(durations := DurationsOf(cfg), timer := e.timer.(
        timeLeft := TimeLeftValue(cfg.workMinutes * 60.0),
        session := Work,
        status := Counting,
        sessionStartTime := now,
        totalPausedDuration := 0,
        totalAddedTime := 0.0,
        lastWorkTimeUpdate := now))
    else e
  }

  /** `pause()`: flushes the work done since the last flush, then freezes. */
  function Pause(cfg: Config, e: Engine, now: int): (r: Engine)
    ensures !(e.timer.session == Work && e.timer.status == Counting) ==> r == e
    ensures e.timer.session == Work && e.timer.status == Counting ==>
      && r.timer == e.timer.(status := Paused, pausedTime := now)
      && r.durations == e.durations
      && (!cfg.breakChargingEnabled ==> r.ledger == e.ledger)
      && (cfg.breakChargingEnabled ==>
            r.ledger == FlushWork(cfg, e.ledger, Max(0.0, SinceLastFlush(e.timer, now)), now))
  {
    if e.timer.session == Work && e.timer.status == Counting then
      var ledger := if cfg.breakChargingEnabled
        then FlushWork(cfg, e.ledger, Max(0.0, SinceLastFlush(e.timer, now)), now)
        else e.ledger;
      e.(timer := e.timer.(status := Paused, pausedTime := now), ledger := ledger)
    else e
  }

  /** `resume()`: the pause window is added to the paused total. */
  function Resume(e: Engine, now: int): (r: Engine)
    ensures !(e.timer.session == Work && e.timer.status == Paused) ==> r == e
    ensures e.timer.session == Work && e.timer.status == Paused ==>
      && r.timer.status == Counting
      && r.timer.totalPausedDuration == e.timer.totalPausedDuration + (now - e.timer.pausedTime)
      && r.timer.lastWorkTimeUpdate == now
      && r.timer.sessionStartTime == e.timer.sessionStartTime
      && r.timer.totalAddedTime == e.timer.totalAddedTime
      && r.ledger == e.ledger
    // nothing else changes: the session, its countdown and flags, and the latched lengths
    ensures e.timer.session == Work && e.timer.status == Paused ==>
      && r.timer.session == Work && r.timer.timeLeft == e.timer.timeLeft
      && r.timer.pausedTime == e.timer.pausedTime
      && r.timer.chargeUsedThisSession == e.timer.chargeUsedThisSession
      && r.timer.previousSession == e.timer.previousSession
      && r.durations == e.durations
  {
    if e.timer.session == Work && e.timer.status == Paused then
      e.(timer := e.timer.(
        status := Counting,
        totalPausedDuration := e.timer.totalPausedDuration + (now - e.timer.pausedTime),
        lastWorkTimeUpdate := now))
    else e
  }

  /** `stop()`: valid from every state. */
  function Stop(e: Engine): (r: Engine)
    ensures r.timer.session == NoSession && r.timer.status == Stopped && r.timer.timeLeft == 0
    ensures r.timer.sessionStartTime == 0 && r.timer.pausedTime == 0
    ensures r.timer.totalPausedDuration == 0 && r.timer.totalAddedTime == 0.0
    ensures r.ledger == e.ledger && r.durations == e.durations
    ensures r.timer.chargeUsedThisSession == e.timer.chargeUsedThisSession
    ensures r.timer.previousSession == e.timer.previousSession
    ensures r.timer.lastWorkTimeUpdate == e.timer.lastWorkTimeUpdate
  {
    e.(timer := e.timer.(
      session := NoSession,
      status := Stopped,
      timeLeft := 0,
      sessionStartTime := 0,
      pausedTime := 0,
      totalPausedDuration := 0,
      totalAddedTime := 0.0))
  }

  /** What `addTime(seconds)` adds: the value when above 1, otherwise 1. */
  function AddedIncrement(seconds: real): (inc: real)
    ensures inc >= 1.0 && inc >= seconds
    ensures seconds > 1.0 ==> inc == seconds
  {
    if seconds > 1.0 then seconds else 1.0
  }

  /** `addTime(seconds)`: extends a running or paused work session; while
      paused the display is recomputed from the frozen pause instant. */
  function AddTime(e: Engine, seconds: real): (r: Engine)
    ensures !(e.timer.session == Work && e.timer.status != Stopped) ==> r == e
    ensures e.timer.session == Work && e.timer.status != Stopped ==>
      && r.timer.totalAddedTime == e.timer.totalAddedTime + AddedIncrement(seconds)
      && r.timer.session == e.timer.session && r.timer.status == e.timer.status
      && r.ledger == e.ledger && r.durations == e.durations
      && r.timer.sessionStartTime == e.timer.sessionStartTime
      && r.timer.totalPausedDuration == e.timer.totalPausedDuration
      && r.timer.pausedTime == e.timer.pausedTime
      && (e.timer.status == Counting ==> r.timer.timeLeft == e.timer.timeLeft)
      && (e.timer.status == Paused ==> r.timer.timeLeft == TimeLeftValue(RemainingAt(e.durations, r.timer, e.timer.pausedTime)))
  {
    if e.timer.session == Work && e.timer.status != Stopped then
      var added := e.timer.totalAddedTime + AddedIncrement(seconds);
      var t := e.timer.(totalAddedTime := added);
      if e.timer.status == Paused then
        var elapsed := ElapsedSeconds(t.pausedTime, t.sessionStartTime, t.totalPausedDuration);
        e.(timer := t.(timeLeft := TimeLeftValue(SessionMinutes(e.durations, Work) * 60.0 - elapsed as real + added)))
      else e.(timer := t)
    else e
  }

  /** The outcome of `useBreakCharge()`. */
  datatype ChargeOutcome = ChargeOutcome(ok: bool, engine: Engine)

  /** `useBreakCharge()`: at most one charge per break session; the ledger
      is consulted only when the first two conditions hold. */
  function UseBreakCharge(cfg: Config, e: Engine): (r: ChargeOutcome)
    ensures r.ok <==>
      && e.timer.session == Break
      && !e.timer.chargeUsedThisSession
      && UseCharge(e.ledger, cfg.spendCooldown).ok
    ensures !r.ok ==> r.engine == e
    ensures r.ok ==>
      && r.engine.ledger == UseCharge(e.ledger, cfg.spendCooldown).data
      && r.engine.timer == e.timer.(
           chargeUsedThisSession := true,
           totalAddedTime := e.timer.totalAddedTime + (cfg.extensionMinutes * 60) as real)
  {
    if !e.timer.chargeUsedThisSession && e.timer.session == Break then
      var spend := UseCharge(e.ledger, cfg.spendCooldown);
      if spend.ok then
        ChargeOutcome(true, e.(
          timer := e.timer.(
            chargeUsedThisSession := true,
            totalAddedTime := e.timer.totalAddedTime + (cfg.extensionMinutes * 60) as real),
          ledger := spend.data))
      else ChargeOutcome(false, e)
    else ChargeOutcome(false, e)
  }

  /** The session that follows `s`, and the `previousSession` remembered. */
  function Successor(cfg: Config, s: SessionType, previous: Period): (r: (SessionType, Period))
    requires s != NoSession
    ensures r.0 != NoSession
    ensures s != Transition ==> r.1 == s
    ensures s == Transition ==> r.1 == previous
    ensures s == Transition ==> r.0 == (if previous == Work then Break else Work)
    ensures s != Transition ==>
      r.0 == (if cfg.transitionPeriodsEnabled then Transition else if s == Work then Break else Work)
  {
    match s
    case Work => if cfg.transitionPeriodsEnabled then (Transition, Work) else (Break, Work)
    case Break => if cfg.transitionPeriodsEnabled then (Transition, Break) else (Work, Break)
    case Transition => (if previous == Work then Break else Work, previous)
  }

  /** `nextSession()` at `now`: re-latches the durations from the current
      settings. */
  function NextSession(cfg: Config, e: Engine, now: int): (r: Engine)
    ensures e.timer.session == NoSession ==> r == e
    ensures e.timer.session != NoSession ==>
      && r.durations == DurationsOf(cfg)
      && !r.timer.chargeUsedThisSession
      && r.timer.session == Successor(cfg, e.timer.session, e.timer.previousSession).0
      && r.timer.previousSession == Successor(cfg, e.timer.session, e.timer.previousSession).1
      && r.timer.timeLeft == TimeLeftValue(SessionMinutes(r.durations, r.timer.session) * 60.0)
      && r.timer.sessionStartTime == now && r.timer.lastWorkTimeUpdate == now
      && r.timer.totalPausedDuration == 0 && r.timer.totalAddedTime == 0.0
      && r.timer.status == e.timer.status
      && r.ledger == (if e.timer.session == Break then IncrementBreakSessions(e.ledger) else e.ledger)
  {
    if e.timer.session == NoSession then e
    else
      var ledger := if e.timer.session == Break then IncrementBreakSessions(e.ledger) else e.ledger;
      var (next, previous) := Successor(cfg, e.timer.session, e.timer.previousSession);
      var durations := DurationsOf(cfg);
      Engine(e.timer.(
        chargeUsedThisSession := false,
        session := next,
        previousSession := previous,
        timeLeft := TimeLeftValue(SessionMinutes(durations, next) * 60.0),
        sessionStartTime := now,
        totalPausedDuration := 0,
        totalAddedTime := 0.0,
        lastWorkTimeUpdate := now), durations, ledger)
  }

  /** Sound cue requested when a session ends. */
  datatype Sound = TransitionSound | CompleteSound

  /** The notification request `onSessionComplete` hands to the notifier. */
  datatype Notice = Notice(ended: SessionType, showNotification: bool, sound: Option<Sound>)

  /** What `onSessionComplete` asks for, given `Notification.isSupported()`. */
  function CompletionNotice(cfg: Config, ended: SessionType, notificationsSupported: bool): (n: Notice)
    ensures n.ended == ended
    ensures n.showNotification <==>
      notificationsSupported && (cfg.notifsFocus == "notifsOnly" || cfg.notifsFocus == "all")
    ensures n.sound.Some? <==> (cfg.notifsFocus == "soundOnly" || cfg.notifsFocus == "all")
    ensures n.sound.Some? ==> (n.sound.value == TransitionSound <==> ended == Transition)
  {
    var show := notificationsSupported && (cfg.notifsFocus == "notifsOnly" || cfg.notifsFocus == "all");
    var sound := if cfg.notifsFocus == "soundOnly" || cfg.notifsFocus == "all"
      then Some(if ended == Transition then TransitionSound else CompleteSound)
      else None;
    Notice(ended, show, sound)
  }

  /** A tick's effect, and the notice when it ended the session. */
  datatype TickResult = TickResult(engine: Engine, notice: Option<Notice>)

  /** `tick()` at `now`: recomputes the remaining time from the anchors,
      flushes work time every five seconds of a work session, and moves to
      the next session once nothing remains. */
  function Tick(cfg: Config, e: Engine, now: int, notificationsSupported: bool): (r: TickResult)
    ensures !(e.timer.session != NoSession && e.timer.status == Counting) ==> r == TickResult(e, None)
    ensures e.timer.session != NoSession && e.timer.status == Counting ==>
      if RemainingAt(e.durations, e.timer, now) > 0.0 then
        && r.notice.None?
        && r.engine.durations == e.durations
        && r.engine.timer.timeLeft == TimeLeftValue(RemainingAt(e.durations, e.timer, now))
        && r.engine.timer == e.timer.(timeLeft := r.engine.timer.timeLeft,
                                      lastWorkTimeUpdate := r.engine.timer.lastWorkTimeUpdate)
        && r.engine.ledger ==
             (if FlushDue(cfg, e.timer, now) then FlushWork(cfg, e.ledger, SinceLastFlush(e.timer, now), now)
              else e.ledger)
        && r.engine.timer.lastWorkTimeUpdate == (if FlushDue(cfg, e.timer, now) then now else e.timer.lastWorkTimeUpdate)
      else
        && r.notice == Some(CompletionNotice(cfg, e.timer.session, notificationsSupported))
        && r.engine.timer.session == Successor(cfg, e.timer.session, e.timer.previousSession).0
        && r.engine.timer.sessionStartTime == now
        // all work since the last flush is credited once, then the session changes
        && r.engine == NextSession(cfg, e.(ledger :=
             if e.timer.session == Work && cfg.breakChargingEnabled
             then FlushWork(cfg, e.ledger, SinceLastFlush(e.timer, now), now)
             else e.ledger), now)
  {
    if e.timer.session != NoSession && e.timer.status == Counting then
      var t := e.timer;
      var remaining := RemainingAt(e.durations, t, now);
      var tracking := t.session == Work && cfg.breakChargingEnabled;
      var periodic := FlushDue(cfg, t, now);
      var ledger1 := if periodic then FlushWork(cfg, e.ledger, Max(0.0, SinceLastFlush(t, now)), now) else e.ledger;
      var t1 := if periodic then t.(lastWorkTimeUpdate := now) else t;
      if remaining <= 0.0 then
        var ledger2 := if tracking then FlushWork(cfg, ledger1, SinceLastFlush(t1, now), now) else ledger1;
        var notice := CompletionNotice(cfg, t.session, notificationsSupported);
        TickResult(NextSession(cfg, Engine(t1, e.durations, ledger2), now), Some(notice))
      else
        TickResult(Engine(t1.(timeLeft := TimeLeftValue(remaining)), e.durations, ledger1), None)
    else TickResult(e, None)
  }

  /** The payload of a `timer-update` event. */
  datatype TimerData = TimerData(
    session: SessionType,
    status: SessionStatus,
    timeLeft: nat,
    chargesLeft: real,
    timeLeftTillNextCharge: real,
    chargeProgressPercentage: real,
    isOnCooldown: bool,
    cooldownBreaksLeft: real,
    chargeUsedThisSession: bool)

  /** `emitTimerUpdate`'s snapshot arithmetic (it reads the cooldown with
      the fallback "1" and the threshold with `parseFloat`). */
  function Snapshot(cfg: Config, e: Engine): (d: TimerData)
    ensures 0.0 <= d.chargeProgressPercentage <= 100.0
    ensures cfg.workTimePerChargeExact <= 0.0 ==> d.chargeProgressPercentage == 0.0
    ensures d.isOnCooldown <==> e.ledger.breakChargesSinceLastUse < cfg.displayCooldown as real
    ensures d.cooldownBreaksLeft == Max(0.0, cfg.displayCooldown as real - e.ledger.breakChargesSinceLastUse)
    ensures d.session == e.timer.session && d.status == e.timer.status && d.timeLeft == e.timer.timeLeft
    ensures d.chargesLeft == e.ledger.currentCharges
    ensures d.timeLeftTillNextCharge == e.ledger.timeLeftTillNextCharge
    ensures d.chargeUsedThisSession == e.timer.chargeUsedThisSession
  {
    var threshold := cfg.workTimePerChargeExact * 60.0;
    var progress := if threshold > 0.0
      then Min(Max(e.ledger.totalWorkTimeAccumulated / threshold * 100.0, 0.0), 100.0)
      else 0.0;
    var since := e.ledger.breakChargesSinceLastUse;
    TimerData(
      e.timer.session, e.timer.status, e.timer.timeLeft,
      e.ledger.currentCharges, e.ledger.timeLeftTillNextCharge, progress,
      since < cfg.displayCooldown as real,
      Max(0.0, cfg.displayCooldown as real - since),
      e.timer.chargeUsedThisSession)
  }

  // ---------------------------------------------------------------------
  // Properties of the state machine

  /** Every public control, a settings update and a tick keep a consistent
      timer consistent. */
  lemma ControlsPreserveConsistent(cfg: Config, e: Engine, now: int, seconds: real, supported: bool)
    requires Consistent(e.timer)
    ensures Consistent(Start(cfg, e, now).timer)
    ensures Consistent(Pause(cfg, e, now).timer)
    ensures Consistent(Resume(e, now).timer)
    ensures Consistent(Stop(e).timer)
    ensures Consistent(AddTime(e, seconds).timer)
    ensures Consistent(UseBreakCharge(cfg, e).engine.timer)
    ensures Consistent(ApplySettings(cfg, e).timer)
    ensures Consistent(Tick(cfg, e, now, supported).engine.timer)
  {
  }

  /** Stopping twice is stopping once, from any state. */
  lemma StopIdempotent(e: Engine)
    ensures Stop(Stop(e)) == Stop(e)
    ensures Consistent(Stop(e).timer)
  {
  }

  /** `stop` is idempotent, and a stopped timer ignores every other control
      except `start`. */
  lemma StoppedIsInert(cfg: Config, e: Engine, now: int, seconds: real, supported: bool)
    requires Consistent(e.timer) && e.timer.status == Stopped
    ensures Stop(Stop(e)) == Stop(e)
    ensures Pause(cfg, e, now) == e && Resume(e, now) == e && AddTime(e, seconds) == e
    ensures !UseBreakCharge(cfg, e).ok
    ensures Tick(cfg, e, now, supported) == TickResult(e, None)
  {
  }

  /** Time spent paused does not count: after `start` at `t0`, `pause` at
      `p` and `resume` at `q`, a tick at `now` sees `now - t0 - (q - p)`
      milliseconds of work. */
  lemma PausedTimeExcluded(cfg: Config, e: Engine, t0: int, p: int, q: int, now: int)
    requires e.timer.status == Stopped
    ensures var r := Resume(Pause(cfg, Start(cfg, e, t0), p), q);
      && r.timer.session == Work && r.timer.status == Counting
      && RemainingAt(r.durations, r.timer, now)
           == cfg.workMinutes * 60.0 - ((now - t0 - (q - p)) / 1000) as real
  {
  }

  /** A tick that does not end the session leaves the anchors alone, so the
      remaining time a later tick computes does not depend on how many
      ticks came before it. */
  lemma TickDependsOnlyOnAnchors(cfg: Config, e: Engine, n1: int, n2: int, supported: bool)
    requires e.timer.session != NoSession && e.timer.status == Counting
    requires RemainingAt(e.durations, e.timer, n1) > 0.0
    ensures var e1 := Tick(cfg, e, n1, supported).engine;
      && e1.timer.session == e.timer.session && e1.timer.status == Counting
      && RemainingAt(e1.durations, e1.timer, n2) == RemainingAt(e.durations, e.timer, n2)
  {
  }

  /** Time added while paused shows at once, and it is exactly what the
      first tick after resuming computes, whenever the resume happens. */
  lemma PausedDisplayMatchesResume(e: Engine, seconds: real, q: int)
    requires e.timer.session == Work && e.timer.status == Paused
    ensures var a := AddTime(e, seconds);
      var r := Resume(a, q);
      a.timer.timeLeft == TimeLeftValue(RemainingAt(r.durations, r.timer, q))
  {
  }

  /** A break can be extended by a charge at most once; the next session
      makes the flag fresh again. */
  lemma ChargeOncePerBreak(cfg: Config, e: Engine, now: int)
    requires UseBreakCharge(cfg, e).ok
    ensures var e1 := UseBreakCharge(cfg, e).engine;
      && !UseBreakCharge(cfg, e1).ok
      && e1.timer.totalAddedTime == e.timer.totalAddedTime + (cfg.extensionMinutes * 60) as real
      && !NextSession(cfg, e1, now).timer.chargeUsedThisSession
  {
  }

  /** Without transition periods work and break alternate. */
  lemma CycleWithoutTransitions(cfg: Config, previous: Period)
    requires !cfg.transitionPeriodsEnabled
    ensures Successor(cfg, Work, previous) == (Break, Work)
    ensures Successor(cfg, Break, previous) == (Work, Break)
  {
  }

  /** With transition periods a transition sits between every work and
      break session, and it leads to the session other than the one it
      interrupted. */
  lemma CycleWithTransitions(cfg: Config, previous: Period)
    requires cfg.transitionPeriodsEnabled
    ensures Successor(cfg, Work, previous) == (Transition, Work)
    ensures Successor(cfg, Transition, Work) == (Break, Work)
    ensures Successor(cfg, Break, previous) == (Transition, Break)
    ensures Successor(cfg, Transition, Break) == (Work, Break)
  {
  }

  /** When both reads of the cooldown agree, the snapshot's cooldown flag is
      exactly the ledger's refusal for cooldown, so in a break with a charge
      available and unused, spending succeeds iff the snapshot says it is
      not on cooldown. */
  lemma SnapshotMatchesGate(cfg: Config, e: Engine)
    requires cfg.spendCooldown == cfg.displayCooldown >= 0
    ensures Snapshot(cfg, e).isOnCooldown <==>
      e.ledger.breakChargesSinceLastUse < EffectiveCooldown(cfg.spendCooldown) as real
    ensures e.timer.session == Break && !e.timer.chargeUsedThisSession && e.ledger.currentCharges > 0.0 ==>
      (UseBreakCharge(cfg, e).ok <==> !Snapshot(cfg, e).isOnCooldown)
  {
  }

  /** With no cooldown stored, the two reads disagree: right after a spend
      the snapshot reports a cooldown while a further charge can already
      be spent in the next break. */
  lemma CooldownDisplayDisagreesWithSpend(s: Settings, e: Engine)
    requires "breakChargeCooldown" !in s && ConfigFromSettings(s).Some?
    requires e.timer.session == Break && !e.timer.chargeUsedThisSession
    requires e.ledger.currentCharges > 0.0 && 0.0 <= e.ledger.breakChargesSinceLastUse < 1.0
    ensures Snapshot(ConfigFromSettings(s).value, e).isOnCooldown
    ensures UseBreakCharge(ConfigFromSettings(s).value, e).ok
  {
    CooldownFallbacksDisagree(s);
  }

  /** A 25-minute work session with a 5-minute break, started on a fresh
      ledger with one charge per hour, ends at the 1500th second: the timer
      moves to a 300-second break and the ledger holds 1500 seconds of
      work and no charge. */
  lemma WorkSessionEndsInBreak(cfg: Config, t0: int, supported: bool)
    requires cfg.workMinutes == 25.0 && cfg.breakMinutes == 5.0
    requires !cfg.transitionPeriodsEnabled && cfg.breakChargingEnabled && cfg.workTimePerCharge == 60
    ensures var e := Start(cfg, NewEngine(cfg, DefaultData(t0)), t0);
      var r := Tick(cfg, e, t0 + 1500000, supported);
      && r.notice == Some(CompletionNotice(cfg, Work, supported))
      && r.engine.timer.session == Break && r.engine.timer.status == Counting
      && r.engine.timer.timeLeft == 300
      && r.engine.ledger.currentCharges == 0.0
      && r.engine.ledger.totalWorkTimeAccumulated == 1500.0
      && r.engine.ledger.timeLeftTillNextCharge == 2100.0
  {
    var e := Start(cfg, NewEngine(cfg, DefaultData(t0)), t0);
    assert RemainingAt(e.durations, e.timer, t0 + 1500000) == 0.0;
    assert TimeLeftValue(300.0) == 300;
  }

  /** Work time in seconds that the ledger holds: every charge is worth one
      threshold, plus the accumulator. */
  function Credit(d: SecretData, threshold: real): real {
    d.currentCharges * threshold + d.totalWorkTimeAccumulated
  }

  /** A flush of `seconds` of work adds exactly `seconds` to the ledger's
      credit, unless the 999-charge cap is reached. */
  lemma FlushAddsCredit(cfg: Config, d: SecretData, seconds: real, now: int)
    requires Valid(d) && cfg.workTimePerCharge > 0 && seconds >= 0.0
    ensures Valid(FlushWork(cfg, d, seconds, now))
    ensures var r := FlushWork(cfg, d, seconds, now);
      r.currentCharges == MaxCount
      || Credit(r, Threshold(cfg.workTimePerCharge)) == Credit(d, Threshold(cfg.workTimePerCharge)) + seconds
  {
    if seconds > 0.0 {
      var a := AddWorkTime(d, seconds, now);
      MutatorsPreserveValid(d, seconds, now, cfg.workTimePerCharge, 0);
      MutatorsPreserveValid(a, seconds, now, cfg.workTimePerCharge, 0);
      ConversionKeepsCredit(a, cfg.workTimePerCharge);
    }
  }

  lemma ConversionKeepsCredit(a: SecretData, w: int)
    requires w > 0 && 0.0 <= a.currentCharges
    ensures var r := UpdateChargeProgress(a, w);
      r.currentCharges == MaxCount || Credit(r, Threshold(w)) == Credit(a, Threshold(w))
  {
  }

  /** A tick of a counting work session with charging on neither loses nor
      double-counts work: the ledger's credit plus the seconds not yet
      flushed is the same before and after, whether the tick flushes, waits,
      or ends the session (unless the 999-charge cap is reached). */
  lemma WorkTickConservesCredit(cfg: Config, e: Engine, now: int, supported: bool)
    requires e.timer.session == Work && e.timer.status == Counting
    requires cfg.breakChargingEnabled && cfg.workTimePerCharge > 0
    requires Valid(e.ledger) && now >= e.timer.lastWorkTimeUpdate
    ensures var r := Tick(cfg, e, now, supported).engine;
      var t := Threshold(cfg.workTimePerCharge);
      r.ledger.currentCharges == MaxCount
      || Credit(r.ledger, t) + SinceLastFlush(r.timer, now) == Credit(e.ledger, t) + SinceLastFlush(e.timer, now)
  {
    var since := SinceLastFlush(e.timer, now);
    FlushAddsCredit(cfg, e.ledger, since, now);
  }

  /** The snapshot's progress is the accumulated work as a percentage of
      the threshold: exact between the bounds, 100 exactly when a full
      threshold is held and 0 exactly when nothing is. */
  lemma SnapshotProgressValue(cfg: Config, e: Engine)
    requires cfg.workTimePerChargeExact > 0.0
    ensures var p := Snapshot(cfg, e).chargeProgressPercentage;
      var t := cfg.workTimePerChargeExact * 60.0;
      var acc := e.ledger.totalWorkTimeAccumulated;
      && (0.0 <= acc <= t ==> p * t == 100.0 * acc)
      && (p == 100.0 <==> acc >= t)
      && (p == 0.0 <==> acc <= 0.0)
  {
  }
}

=== FILE: format.dfy ===
/** Time formatting for the renderer (`src/ui/utils/format.ts`): a duration
    in seconds as `m:ss` or `h:mm:ss`, and a wall-clock reading in the 12-
    or 24-hour style. Each format is paired with a reader that recovers
    what was formatted. */
module Format {
  import opened Common
  import opened Decimal

  // ---------------------------------------------------------------------
  // Splitting on a separator

  predicate Free(s: string, sep: char) {
    forall i :: 0 <= i < |s| ==> s[i] != sep
  }

  /** `s.split(sep)` for a one-character separator. */
  function Split(s: string, sep: char): (r: seq<string>)
    ensures |r| >= 1
    ensures forall i :: 0 <= i < |r| ==> Free(r[i], sep)
    decreases |s|
  {
    if |s| == 0 then [""]
    else if s[0] == sep then [""] + Split(s[1..], sep)
    else
      var rest := Split(s[1..], sep);
      assert Free(rest[0], sep);
      [[s[0]] + rest[0]] + rest[1..]
  }

  lemma {:induction false} SplitFree(a: string, sep: char)
    requires Free(a, sep)
    ensures Split(a, sep) == [a]
    decreases |a|
  {
    if |a| > 0 {
      SplitFree(a[1..], sep);
      assert [a[0]] + a[1..] == a;
    }
  }

  lemma {:induction false} SplitConcat(a: string, b: string, sep: char)
    requires Free(a, sep)
    ensures Split(a + [sep] + b, sep) == [a] + Split(b, sep)
    decreases |a|
  {
    var s := a + [sep] + b;
    if |a| == 0 {
      assert s[1..] == b;
    } else {
      assert s[1..] == a[1..] + [sep] + b;
      SplitConcat(a[1..], b, sep);
      assert [a[0]] + a[1..] == a;
    }
  }

  lemma DigitsFree(s: string, sep: char)
    requires AllDigits(s) && !IsDigit(sep)
    ensures Free(s, sep)
  {
  }

  lemma SplitTwo(a: string, b: string, sep: char)
    requires Free(a, sep) && Free(b, sep)
    ensures Split(a + [sep] + b, sep) == [a, b]
  {
    SplitConcat(a, b, sep);
    SplitFree(b, sep);
  }

  lemma SplitThree(a: string, b: string, c: string, sep: char)
    requires Free(a, sep) && Free(b, sep) && Free(c, sep)
    ensures Split(a + [sep] + b + [sep] + c, sep) == [a, b, c]
  {
    var tail := b + [sep] + c;
    assert a + [sep] + b + [sep] + c == a + [sep] + tail;
    SplitConcat(a, tail, sep);
    SplitTwo(b, c, sep);
    assert [a] + [b, c] == [a, b, c];
  }

  /** Digit fields joined by ":" split back into those fields. */
  lemma SplitDigits2(a: string, b: string)
    requires AllDigits(a) && AllDigits(b)
    ensures Split(a + ":" + b, ':') == [a, b]
  {
    DigitsFree(a, ':');
    DigitsFree(b, ':');
    assert a + ":" + b == a + [':'] + b;
    SplitTwo(a, b, ':');
  }

  lemma SplitDigits3(a: string, b: string, c: string)
    requires AllDigits(a) && AllDigits(b) && AllDigits(c)
    ensures Split(a + ":" + b + ":" + c, ':') == [a, b, c]
  {
    DigitsFree(a, ':');
    DigitsFree(b, ':');
    DigitsFree(c, ':');
    assert a + ":" + b + ":" + c == a + [':'] + b + [':'] + c;
    SplitThree(a, b, c, ':');
  }

  /** A numeric field: digits only, exactly two of them when `padded`. */
  function ReadField(s: string, padded: bool): (r: Option<nat>)
    ensures r.Some? ==> AllDigits(s) && |s| > 0 && r.value == ParseNat(s)
    ensures r.Some? && padded ==> |s| == 2
  {
    if |s| > 0 && AllDigits(s) && (!padded || |s| == 2) then Some(ParseNat(s)) else None
  }

  // ---------------------------------------------------------------------
  // Durations

  /** `formatAsTime(seconds)`: the sign and the fraction are dropped; hours
      appear only when there is at least one. */
  function FormatAsTime(seconds: real): (text: string)
    ensures |text| >= 4
    ensures ParseDuration(text) == Some(Trunc(Abs(seconds)))
  {
    FormatWholeRoundTrip(Trunc(Abs(seconds)));
    FormatWhole(Trunc(Abs(seconds)))
  }

  /** The text for a whole, non-negative number of seconds. */
  function FormatWhole(n: nat): (text: string)
    ensures |text| >= 4
  {
    var hrs := n / 3600;
    var mins := (n % 3600) / 60;
    var sec := n % 60;
    if hrs > 0 then NatToString(hrs) + ":" + Pad2(mins) + ":" + Pad2(sec)
    else NatToString(mins) + ":" + Pad2(sec)
  }

  /** Reads `m:ss` or `h:mm:ss` back into whole seconds; only texts in the
      canonical shape are accepted. */
  function ParseDuration(text: string): (r: Option<nat>)
    ensures r.Some? ==> |Split(text, ':')| in {2, 3}
  {
    ReadDurationFields(Split(text, ':'))
  }

  /** The fields of a duration, from the most significant. */
  function ReadDurationFields(f: seq<string>): (r: Option<nat>)
    ensures r.Some? ==> |f| in {2, 3}
  {
    if |f| == 2 then
      var m := ReadField(f[0], false);
      var s := ReadField(f[1], true);
      if m.Some? && s.Some? && m.value < 60 && s.value < 60 then Some(m.value * 60 + s.value) else None
    else if |f| == 3 then
      var h := ReadField(f[0], false);
      var m := ReadField(f[1], true);
      var s := ReadField(f[2], true);
      if h.Some? && m.Some? && s.Some? && h.value > 0 && m.value < 60 && s.value < 60
      then Some(h.value * 3600 + m.value * 60 + s.value)
      else None
    else None
  }

  /** Below an hour the text has two fields (`m:ss`), from an hour on it
      has three (`h:mm:ss`); the sign of the input does not matter. */
  lemma FormatAsTimeShape(seconds: real)
    ensures |Split(FormatAsTime(seconds), ':')| == (if Trunc(Abs(seconds)) >= 3600 then 3 else 2)
    ensures FormatAsTime(-seconds) == FormatAsTime(seconds)
  {
    var n := Trunc(Abs(seconds));
    Decompose(n);
    if n >= 3600 {
      SplitDigits3(NatToString(n / 3600), Pad2((n % 3600) / 60), Pad2(n % 60));
    } else {
      SplitDigits2(NatToString((n % 3600) / 60), Pad2(n % 60));
    }
    assert Abs(-seconds) == Abs(seconds);
  }

  lemma FormatWholeRoundTrip(n: nat)
    ensures ParseDuration(FormatWhole(n)) == Some(n)
  {
    var hrs := n / 3600;
    var mins := (n % 3600) / 60;
    var sec := n % 60;
    Decompose(n);
    if hrs > 0 {
      DurationThreeFields(hrs, mins, sec);
    } else {
      DurationTwoFields(mins, sec);
    }
  }

  /** Whole hours, minutes of the hour and seconds of the minute add back
      up to the total. */
  lemma Decompose(n: nat)
    ensures (n % 3600) / 60 < 60 && n % 60 < 60
    ensures n == (n / 3600) * 3600 + ((n % 3600) / 60) * 60 + n % 60
  {
    assert n % 60 == (n % 3600) % 60;
  }

  lemma DurationTwoFields(mins: nat, sec: nat)
    requires mins < 60 && sec < 60
    ensures ParseDuration(NatToString(mins) + ":" + Pad2(sec)) == Some(mins * 60 + sec)
  {
    SplitDigits2(NatToString(mins), Pad2(sec));
    ReadMinutesSeconds(mins, sec);
  }

  lemma ReadMinutesSeconds(mins: nat, sec: nat)
    requires mins < 60 && sec < 60
    ensures ReadDurationFields([NatToString(mins), Pad2(sec)]) == Some(mins * 60 + sec)
  {
    ParseNatToString(mins);
  }

  lemma DurationThreeFields(hrs: nat, mins: nat, sec: nat)
    requires hrs > 0 && mins < 60 && sec < 60
    ensures ParseDuration(NatToString(hrs) + ":" + Pad2(mins) + ":" + Pad2(sec))
      == Some(hrs * 3600 + mins * 60 + sec)
  {
    SplitDigits3(NatToString(hrs), Pad2(mins), Pad2(sec));
    ReadHoursMinutesSeconds(hrs, mins, sec);
  }

  lemma ReadHoursMinutesSeconds(hrs: nat, mins: nat, sec: nat)
    requires hrs > 0 && mins < 60 && sec < 60
    ensures ReadDurationFields([NatToString(hrs), Pad2(mins), Pad2(sec)]) == Some(hrs * 3600 + mins * 60 + sec)
  {
    ParseNatToString(hrs);
  }

  /** Only the magnitude's whole seconds matter, and distinct whole
      magnitudes are told apart. */
  lemma FormatAsTimeDistinguishes(a: real, b: real)
    ensures FormatAsTime(a) == FormatAsTime(b) <==> Trunc(Abs(a)) == Trunc(Abs(b))
  {
  }

  // ---------------------------------------------------------------------
  // Clock readings

  /** The `Date` fields the clock format reads. */
  datatype ClockTime = ClockTime(hours: nat, minutes: nat, seconds: nat)

  predicate ValidTime(t: ClockTime) {
    t.hours < 24 && t.minutes < 60 && t.seconds < 60
  }

  /** The `type` argument: anything but "24hr" formats in the 12-hour style. */
  datatype HourCycle = H12 | H24

  /** The 12-hour dial position of an hour of the day. */
  function Hours12(h: nat): (r: nat)
    requires h < 24
    ensures 1 <= r <= 12
    ensures r == h || r == h - 12 || (h == 0 && r == 12)
  {
    if h == 0 then 12 else if h > 12 then h - 12 else h
  }

  function Meridiem(h: nat): (m: string)
    ensures |m| == 2
    ensures m == "AM" <==> h < 12
    ensures m == "AM" || m == "PM"
  {
    if h < 12 then "AM" else "PM"
  }

  /** The hour of the day a 12-hour reading names. */
  function From12(h12: nat, pm: bool): (h: nat)
    requires 1 <= h12 <= 12
    ensures h < 24 && (h < 12 <==> !pm)
  {
    if pm then (if h12 == 12 then 12 else h12 + 12)
    else (if h12 == 12 then 0 else h12)
  }

  /** The dial position and the meridiem together determine the hour. */
  lemma TwelveHourInverse(h: nat)
    requires h < 24
    ensures From12(Hours12(h), Meridiem(h) == "PM") == h
  {
  }

  /** `formatAsClockTime(date, type, showSeconds)`. */
  function FormatAsClockTime(t: ClockTime, cycle: HourCycle, showSeconds: bool): (text: string)
    requires ValidTime(t)
    ensures cycle == H24 ==> |text| == (if showSeconds then 8 else 5)
    ensures cycle == H12 ==> |text| >= 3 && text[|text| - 3..] == " " + Meridiem(t.hours)
  {
    var clock := if cycle == H24 then Pad2(t.hours) else NatToString(Hours12(t.hours));
    var body := clock + ":" + Pad2(t.minutes) + (if showSeconds then ":" + Pad2(t.seconds) else "");
    if cycle == H24 then body else body + " " + Meridiem(t.hours)
  }

  /** Reads the fields of `h:mm` or `h:mm:ss`, hours padded or not. */
  function ParseClockBody(body: string, paddedHours: bool, showSeconds: bool): (r: Option<ClockTime>)
    ensures r.Some? ==> r.value.minutes < 60 && r.value.seconds < 60
    ensures r.Some? && !showSeconds ==> r.value.seconds == 0
  {
    ReadClockFields(Split(body, ':'), paddedHours, showSeconds)
  }

  function ReadClockFields(f: seq<string>, paddedHours: bool, showSeconds: bool): (r: Option<ClockTime>)
    ensures r.Some? ==> r.value.minutes < 60 && r.value.seconds < 60
    ensures r.Some? && !showSeconds ==> r.value.seconds == 0
    ensures r.Some? ==> |f| == (if showSeconds then 3 else 2)
  {
    if |f| != (if showSeconds then 3 else 2) then None
    else
      var h := ReadField(f[0], paddedHours);
      var m := ReadField(f[1], true);
      var s := if showSeconds then ReadField(f[2], true) else Some(0);
      if h.Some? && m.Some? && s.Some? && m.value < 60 && s.value < 60
      then Some(ClockTime(h.value, m.value, s.value))
      else None
  }

  /** Reads a clock text in the given style back into a reading. */
  function ParseClockTime(text: string, cycle: HourCycle, showSeconds: bool): (r: Option<ClockTime>)
    ensures r.Some? ==> ValidTime(r.value)
    ensures r.Some? && !showSeconds ==> r.value.seconds == 0
  {
    if cycle == H24 then
      var t := ParseClockBody(text, true, showSeconds);
      if t.Some? && t.value.hours < 24 then t else None
    else if |text| < 3 then None
    else
      var tail := text[|text| - 3..];
      var t := ParseClockBody(text[..|text| - 3], false, showSeconds);
      if (tail == " AM" || tail == " PM") && t.Some? && 1 <= t.value.hours <= 12
      then Some(t.value.(hours := From12(t.value.hours, tail == " PM")))
      else None
  }

  /** The text before the meridiem (all of it in the 24-hour style). */
  function ClockBody(t: ClockTime, cycle: HourCycle, showSeconds: bool): string
    requires ValidTime(t)
  {
    var clock := if cycle == H24 then Pad2(t.hours) else NatToString(Hours12(t.hours));
    clock + ":" + Pad2(t.minutes) + (if showSeconds then ":" + Pad2(t.seconds) else "")
  }

  /** `h:mm` reads back its fields. */
  lemma TwoFieldsRoundTrip(clock: string, m: nat, padded: bool)
    requires AllDigits(clock) && |clock| > 0 && (padded ==> |clock| == 2) && m < 60
    ensures ParseClockBody(clock + ":" + Pad2(m), padded, false) == Some(ClockTime(ParseNat(clock), m, 0))
  {
    SplitDigits2(clock, Pad2(m));
    assert ReadField(Pad2(m), true) == Some(m);
  }

  /** `h:mm:ss` reads back its fields. */
  lemma ThreeFieldsRoundTrip(clock: string, m: nat, sec: nat, padded: bool)
    requires AllDigits(clock) && |clock| > 0 && (padded ==> |clock| == 2) && m < 60 && sec < 60
    ensures ParseClockBody(clock + ":" + Pad2(m) + ":" + Pad2(sec), padded, true)
      == Some(ClockTime(ParseNat(clock), m, sec))
  {
    SplitDigits3(clock, Pad2(m), Pad2(sec));
    assert ReadField(Pad2(m), true) == Some(m);
    assert ReadField(Pad2(sec), true) == Some(sec);
  }

  lemma ClockBodyRoundTrip(t: ClockTime, cycle: HourCycle, showSeconds: bool)
    requires ValidTime(t)
    ensures ParseClockBody(ClockBody(t, cycle, showSeconds), cycle == H24, showSeconds)
      == Some(ClockTime(if cycle == H24 then t.hours else Hours12(t.hours), t.minutes,
                        if showSeconds then t.seconds else 0))
  {
    var clock := if cycle == H24 then Pad2(t.hours) else NatToString(Hours12(t.hours));
    if cycle == H12 {
      ParseNatToString(Hours12(t.hours));
    }
    assert ParseNat(clock) == (if cycle == H24 then t.hours else Hours12(t.hours));
    if showSeconds {
      assert ClockBody(t, cycle, showSeconds) == clock + ":" + Pad2(t.minutes) + ":" + Pad2(t.seconds);
      ThreeFieldsRoundTrip(clock, t.minutes, t.seconds, cycle == H24);
    } else {
      assert clock + ":" + Pad2(t.minutes) + "" == clock + ":" + Pad2(t.minutes);
      TwoFieldsRoundTrip(clock, t.minutes, cycle == H24);
    }
  }

  /** Reading a formatted clock gives back the reading, with the seconds
      dropped when they were not shown. */
  lemma ClockRoundTrip(t: ClockTime, cycle: HourCycle, showSeconds: bool)
    requires ValidTime(t)
    ensures ParseClockTime(FormatAsClockTime(t, cycle, showSeconds), cycle, showSeconds)
      == Some(if showSeconds then t else t.(seconds := 0))
  {
    var body := ClockBody(t, cycle, showSeconds);
    ClockBodyRoundTrip(t, cycle, showSeconds);
    var text := FormatAsClockTime(t, cycle, showSeconds);
    if cycle == H24 {
      assert text == body;
    } else {
      assert text == body + " " + Meridiem(t.hours);
      assert text[..|text| - 3] == body;
      var tail := text[|text| - 3..];
      assert tail == " " + Meridiem(t.hours);
      assert tail == " AM" || tail == " PM";
      assert (tail == " PM") == (Meridiem(t.hours) == "PM");
      TwelveHourInverse(t.hours);
      var r := ParseClockBody(body, false, showSeconds);
      assert r.Some? && r.value.hours == Hours12(t.hours);
      assert r.value.(hours := From12(r.value.hours, Meridiem(t.hours) == "PM"))
        == (if showSeconds then t else t.(seconds := 0));
    }
  }
}

=== FILE: ledger.dfy ===
/** The break-charge ledger (the `SecretDataManager` singleton): the durable
    record of charges earned from work time and spent to extend breaks.
    Every mutator of the class becomes a pure function from the old record
    to the new one; persistence (the debounced and the immediate saves) is
    modelled separately in `LedgerStore`. */
module ChargeLedger {
  import opened Common

  /** The persisted record. Every field is a JavaScript number, so each is a
      `real`; `lastWorkTimeTracked` is a millisecond timestamp. */
  datatype SecretData = SecretData(
    currentCharges: real,
    timeLeftTillNextCharge: real,     // seconds
    breakChargesSinceLastUse: real,
    lastWorkTimeTracked: real,        // epoch milliseconds
    totalWorkTimeAccumulated: real,   // seconds
    version: real)

  /** Upper bound both counters are clamped to. */
  const MaxCount: real := 999.0

  /** Seconds of work needed for the first charge in a fresh record. */
  const DefaultTimeLeft: real := 3600.0

  /** The record used when nothing can be loaded, and after `resetData`. */
  function DefaultData(now: int): (d: SecretData)
    ensures d.currentCharges == 0.0 && d.breakChargesSinceLastUse == 0.0
    ensures d.totalWorkTimeAccumulated == 0.0 && d.timeLeftTillNextCharge == 60.0 * 60.0
    ensures d.version == 1.0 && d.lastWorkTimeTracked == now as real
  {
    SecretData(0.0, DefaultTimeLeft, 0.0, now as real, 0.0, 1.0)
  }

  /** The bounds the mutators keep once they hold: both counters in
      [0, 999], a non-negative accumulator and a non-negative countdown. */
  predicate Valid(d: SecretData) {
    && 0.0 <= d.currentCharges <= MaxCount
    && 0.0 <= d.breakChargesSinceLastUse <= MaxCount
    && 0.0 <= d.totalWorkTimeAccumulated
    && 0.0 <= d.timeLeftTillNextCharge
  }

  /** `Math.min(Math.max(x, 0), 999)` written as the source's two ifs. */
  function ClampCount(x: real): (r: real)
    ensures 0.0 <= r <= MaxCount
    ensures 0.0 <= x <= MaxCount ==> r == x
  {
    if x < 0.0 then 0.0 else if x > MaxCount then MaxCount else x
  }

  /** Seconds of work one charge costs: `workTimePerCharge * 60`. */
  function Threshold(workTimePerCharge: int): (t: real)
    ensures workTimePerCharge > 0 ==> t >= 60.0
  {
    (workTimePerCharge * 60) as real
  }

  /** `addWorkTime(seconds)` at wall-clock `now`. */
  function AddWorkTime(d: SecretData, seconds: real, now: int): (r: SecretData)
    ensures seconds <= 0.0 ==> r == d
    ensures seconds > 0.0 ==>
      && r.totalWorkTimeAccumulated >= 0.0
      && r.totalWorkTimeAccumulated >= d.totalWorkTimeAccumulated
      && (d.totalWorkTimeAccumulated >= 0.0 ==> r.totalWorkTimeAccumulated == d.totalWorkTimeAccumulated + seconds)
      && r.lastWorkTimeTracked == now as real
      && r == d.(totalWorkTimeAccumulated := r.totalWorkTimeAccumulated, lastWorkTimeTracked := now as real)
  {
    if seconds <= 0.0 then d
    else
      var total := d.totalWorkTimeAccumulated + seconds;
      d.(totalWorkTimeAccumulated := if total < 0.0 then 0.0 else total,
         lastWorkTimeTracked := now as real)
  }

  /** The source's `while` loop in `updateChargeProgress`: while another
      threshold of work is in the accumulator, award a charge and take the
      threshold out. Returns (charges, accumulator) after the loop. */
  function Convert(charges: real, accumulated: real, threshold: real): (r: (real, real))
    requires threshold >= 1.0
    ensures accumulated >= 0.0 ==> 0.0 <= r.1 < threshold
    ensures accumulated < threshold ==> r == (charges, accumulated)
    ensures r.0 >= charges
    ensures r.0 * threshold + r.1 == charges * threshold + accumulated
    decreases accumulated.Floor
  {
    if accumulated >= threshold then
      var r := Convert(charges + 1.0, accumulated - threshold, threshold);
      assert (charges + 1.0) * threshold == charges * threshold + threshold;
      r
    else (charges, accumulated)
  }

  /** `updateChargeProgress(workTimePerCharge)`: converts whole thresholds
      of accumulated work into charges, recomputes the countdown to the
      next charge and clamps the charge count. */
  function UpdateChargeProgress(d: SecretData, workTimePerCharge: int): (r: SecretData)
    ensures workTimePerCharge <= 0 ==> r == d
    ensures workTimePerCharge > 0 ==>
      var t := Threshold(workTimePerCharge);
      && 0.0 <= r.currentCharges <= MaxCount
      && r.timeLeftTillNextCharge == Max(0.0, t - r.totalWorkTimeAccumulated)
      && (d.totalWorkTimeAccumulated >= 0.0 ==> 0.0 <= r.totalWorkTimeAccumulated < t)
      && (d.totalWorkTimeAccumulated < t ==> r.totalWorkTimeAccumulated == d.totalWorkTimeAccumulated)
      // before the cap bites, charges*T + accumulated is conserved
      && (0.0 <= d.currentCharges ==>
            r.currentCharges == MaxCount
            || r.currentCharges * t + r.totalWorkTimeAccumulated == d.currentCharges * t + d.totalWorkTimeAccumulated)
      && (0.0 <= d.currentCharges <= MaxCount ==> r.currentCharges >= d.currentCharges)
      && r.breakChargesSinceLastUse == d.breakChargesSinceLastUse
      && r.lastWorkTimeTracked == d.lastWorkTimeTracked
      && r.version == d.version
  {
    if workTimePerCharge <= 0 then d
    else
      var t := Threshold(workTimePerCharge);
      var (charges, rest) := Convert(d.currentCharges, d.totalWorkTimeAccumulated, t);
      d.(currentCharges := ClampCount(charges),
         totalWorkTimeAccumulated := rest,
         timeLeftTillNextCharge := Max(0.0, t - rest))
  }

  /** The source's `while` loop, statement by statement; it lands on the
      same record as the recursive definition above. */
  method UpdateChargeProgressLoop(d: SecretData, workTimePerCharge: int) returns (r: SecretData)
    ensures r == UpdateChargeProgress(d, workTimePerCharge)
  {
    if workTimePerCharge <= 0 {
      return d;
    }
    var t := Threshold(workTimePerCharge);
    var charges := d.currentCharges;
    var accumulated := d.totalWorkTimeAccumulated;
    while accumulated >= t
      invariant Convert(charges, accumulated, t) == Convert(d.currentCharges, d.totalWorkTimeAccumulated, t)
      decreases accumulated.Floor
    {
      charges := charges + 1.0;
      accumulated := accumulated - t;
    }
    var left := Max(0.0, t - accumulated);
    if charges < 0.0 {
      charges := 0.0;
    }
    if charges > MaxCount {
      charges := MaxCount;
    }
    r := d.(currentCharges := charges, totalWorkTimeAccumulated := accumulated, timeLeftTillNextCharge := left);
  }

  /** Result of `useCharge`: whether a charge was spent, and the new record. */
  datatype Spend = Spend(ok: bool, data: SecretData)

  /** The cooldown the gate actually uses: negative values count as 0. */
  function EffectiveCooldown(cooldownPeriod: int): (c: int)
    ensures c >= 0 && (cooldownPeriod >= 0 ==> c == cooldownPeriod)
  {
    if cooldownPeriod < 0 then 0 else cooldownPeriod
  }

  /** `useCharge(cooldownPeriod)`. */
  function UseCharge(d: SecretData, cooldownPeriod: int): (r: Spend)
    ensures r.ok <==> d.currentCharges > 0.0 && d.breakChargesSinceLastUse >= EffectiveCooldown(cooldownPeriod) as real
    ensures !r.ok ==> r.data == d
    ensures r.ok ==>
      && r.data.breakChargesSinceLastUse == 0.0
      && 0.0 <= r.data.currentCharges < d.currentCharges
      && (d.currentCharges >= 1.0 ==> r.data.currentCharges == d.currentCharges - 1.0)
      && r.data == d.(currentCharges := r.data.currentCharges, breakChargesSinceLastUse := 0.0)
  {
    var cooldown := EffectiveCooldown(cooldownPeriod);
    if d.currentCharges > 0.0 && d.breakChargesSinceLastUse >= cooldown as real then
      var charges := d.currentCharges - 1.0;
      Spend(true, d.(currentCharges := if charges < 0.0 then 0.0 else charges,
                     breakChargesSinceLastUse := 0.0))
    else Spend(false, d)
  }

  /** `incrementBreakSessionsSinceLastUse()`. */
  function IncrementBreakSessions(d: SecretData): (r: SecretData)
    ensures 0.0 <= r.breakChargesSinceLastUse <= MaxCount
    ensures 0.0 <= d.breakChargesSinceLastUse <= MaxCount - 1.0 ==>
      r.breakChargesSinceLastUse == d.breakChargesSinceLastUse + 1.0
    ensures r == d.(breakChargesSinceLastUse := r.breakChargesSinceLastUse)
  {
    d.(breakChargesSinceLastUse := ClampCount(d.breakChargesSinceLastUse + 1.0))
  }

  /** `initializeChargeProgress(workTimePerCharge)`: recomputes the countdown
      without converting anything. */
  function InitializeChargeProgress(d: SecretData, workTimePerCharge: int): (r: SecretData)
    ensures workTimePerCharge <= 0 ==> r == d
    ensures workTimePerCharge > 0 ==>
      && r.timeLeftTillNextCharge == Max(0.0, Threshold(workTimePerCharge) - d.totalWorkTimeAccumulated)
      && r == d.(timeLeftTillNextCharge := r.timeLeftTillNextCharge)
  {
    if workTimePerCharge > 0 then
      d.(timeLeftTillNextCharge := Max(0.0, Threshold(workTimePerCharge) - d.totalWorkTimeAccumulated))
    else d
  }

  /** `resetData()` at wall-clock `now`. */
  function ResetData(now: int): (r: SecretData)
    ensures Valid(r) && r.currentCharges == 0.0 && r.totalWorkTimeAccumulated == 0.0
    ensures r.breakChargesSinceLastUse == 0.0 && r.timeLeftTillNextCharge == 60.0 * 60.0
    ensures r.version == 1.0 && r.lastWorkTimeTracked == now as real
  {
    DefaultData(now)
  }

  /** Every mutator keeps a valid record valid. */
  lemma MutatorsPreserveValid(d: SecretData, seconds: real, now: int, workTimePerCharge: int, cooldown: int)
    requires Valid(d)
    ensures Valid(AddWorkTime(d, seconds, now))
    ensures Valid(UpdateChargeProgress(d, workTimePerCharge))
    ensures Valid(UseCharge(d, cooldown).data)
    ensures Valid(IncrementBreakSessions(d))
    ensures Valid(InitializeChargeProgress(d, workTimePerCharge))
  {
  }

  /** Splitting work time over two `addWorkTime` calls is the same as one
      call with the sum. */
  lemma AddWorkTimeAdditive(d: SecretData, a: real, b: real, t1: int, t2: int)
    requires d.totalWorkTimeAccumulated >= 0.0 && a > 0.0 && b > 0.0
    ensures AddWorkTime(AddWorkTime(d, a, t1), b, t2) == AddWorkTime(d, a + b, t2)
  {
  }

  /** Running the conversion loop over `a` and then over what is left plus
      `b` ends where one run over `a + b` ends. */
  lemma {:induction false} ConvertSplit(c: real, a: real, b: real, t: real)
    requires t >= 1.0 && a >= 0.0 && b >= 0.0
    ensures var (c1, a1) := Convert(c, a, t); Convert(c1, a1 + b, t) == Convert(c, a + b, t)
    decreases a.Floor
  {
    if a >= t {
      ConvertSplit(c + 1.0, a - t, b, t);
      assert a + b - t == (a - t) + b;
    }
  }

  /** Converting after every flush, or once at the end, yields the same
      charges and the same remainder, as long as the 999 cap is not hit
      (the batching property of the ledger). */
  lemma ConversionIndependentOfBatching(d: SecretData, a: real, b: real, t1: int, t2: int, w: int)
    requires w > 0 && a > 0.0 && b > 0.0
    requires d.totalWorkTimeAccumulated >= 0.0 && 0.0 <= d.currentCharges
    requires Convert(d.currentCharges, d.totalWorkTimeAccumulated + a + b, Threshold(w)).0 <= MaxCount
    ensures
      var stepwise := UpdateChargeProgress(AddWorkTime(UpdateChargeProgress(AddWorkTime(d, a, t1), w), b, t2), w);
      var batched := UpdateChargeProgress(AddWorkTime(d, a + b, t2), w);
      stepwise == batched
  {
    var t := Threshold(w);
    var acc := d.totalWorkTimeAccumulated;
    ConvertSplit(d.currentCharges, acc + a, b, t);
    var (c1, a1) := Convert(d.currentCharges, acc + a, t);
    assert Convert(c1, a1 + b, t).0 >= c1;
    assert acc + a + b == acc + (a + b);
  }

  /** The ledger after `n` completed breaks. */
  function CompleteBreaks(d: SecretData, n: nat): (r: SecretData)
    ensures r.currentCharges == d.currentCharges
    decreases n
  {
    if n == 0 then d else CompleteBreaks(IncrementBreakSessions(d), n - 1)
  }

  /** The cooldown gate: a spend is refused while fewer breaks than the
      cooldown have completed, and granted once exactly the missing number
      of breaks has been recorded. */
  lemma {:induction false} CooldownGate(d: SecretData, cooldown: nat)
    requires Valid(d) && d.currentCharges > 0.0
    requires cooldown <= 999
    requires d.breakChargesSinceLastUse.Floor as real == d.breakChargesSinceLastUse
    requires d.breakChargesSinceLastUse < cooldown as real
    ensures !UseCharge(d, cooldown).ok
    ensures UseCharge(CompleteBreaks(d, cooldown - d.breakChargesSinceLastUse.Floor), cooldown).ok
  {
    var missing := cooldown - d.breakChargesSinceLastUse.Floor;
    CompleteBreaksCount(d, missing);
  }

  lemma {:induction false} CompleteBreaksCount(d: SecretData, n: nat)
    requires 0.0 <= d.breakChargesSinceLastUse
    requires d.breakChargesSinceLastUse + n as real <= MaxCount
    ensures CompleteBreaks(d, n).breakChargesSinceLastUse == d.breakChargesSinceLastUse + n as real
    decreases n
  {
    if n > 0 {
      CompleteBreaksCount(IncrementBreakSessions(d), n - 1);
    }
  }

  /** Three 25-minute flushes at one charge per hour on a fresh record earn
      one charge and leave 15 minutes of work toward the next, 45 to go. */
  lemma ThreeFlushesEarnOneCharge(now: int)
    ensures var d1 := UpdateChargeProgress(AddWorkTime(DefaultData(now), 1500.0, now), 60);
      var d2 := UpdateChargeProgress(AddWorkTime(d1, 1500.0, now), 60);
      var d3 := UpdateChargeProgress(AddWorkTime(d2, 1500.0, now), 60);
      && d2.currentCharges == 0.0 && d2.totalWorkTimeAccumulated == 3000.0
      && d3.currentCharges == 1.0 && d3.totalWorkTimeAccumulated == 900.0
      && d3.timeLeftTillNextCharge == 2700.0
  {
    assert Convert(0.0, 4500.0, 3600.0) == Convert(1.0, 900.0, 3600.0) == (1.0, 900.0);
  }
}

=== FILE: ledger_store.dfy ===
/** At-rest persistence of the charge ledger: key derivation from machine
    identifiers, the `IV(16) || tag(32) || ciphertext` blob layout, the
    fixed order in which integrity tags are tried, JSON shape validation,
    version migration and the fall-back to defaults on every failure.
    The cipher, the hash, the key-derivation function and the JSON text
    codec are not modelled: they are parameters (`Crypto`, `JsonCodec`). */
module LedgerStore {
  import opened Common
  import opened ChargeLedger

  type byte = x: int | 0 <= x < 256
  type Bytes = seq<byte>

  /** SHA-256 as an uninterpreted function that always yields 32 bytes. */
  type Digest = f: Bytes -> Bytes | forall m :: |f(m)| == 32
    witness (m: Bytes) => seq(32, i => 0)

  /** The primitives the ledger file depends on. `aesDecrypt` gives `None`
      where the decipher throws (bad padding or key). */
  datatype Crypto = Crypto(
    sha256: Digest,
    aesEncrypt: (Bytes, Bytes, string) -> Bytes,          // key, iv, plaintext
    aesDecrypt: (Bytes, Bytes, Bytes) -> Option<string>,  // key, iv, ciphertext
    scrypt: (string, string) -> Bytes)                    // material, salt

  const IvLength := 16
  const TagLength := 32
  const HeaderLength := IvLength + TagLength

  /** The machine identifiers the keys are derived from. */
  datatype KeySource = KeySource(
    userDataPath: string, hostname: string, platform: string, arch: string,
    exePath: string, appVersion: string)

  /** `parts.join("|")`. */
  function JoinWithBar(parts: seq<string>): (r: string)
    ensures |parts| > 0 ==> |r| >= |parts[|parts| - 1]| && r[|r| - |parts[|parts| - 1]|..] == parts[|parts| - 1]
    ensures |parts| > 1 ==> |r| > |parts[0]| && r[..|parts[0]| + 1] == parts[0] + "|"
    decreases |parts|
  {
    if |parts| == 0 then ""
    else if |parts| == 1 then parts[0]
    else parts[0] + "|" + JoinWithBar(parts[1..])
  }

  /** Key material of the current format: stable across reinstalls. */
  function StableKeyMaterial(k: KeySource): (m: string)
    ensures |m| > |k.userDataPath| && |m| >= |"taskbookly-stable-v1"|
    ensures m[..|k.userDataPath| + 1] == k.userDataPath + "|"
    ensures m[|m| - |"taskbookly-stable-v1"|..] == "taskbookly-stable-v1"
  {
    JoinWithBar([k.userDataPath, k.hostname, k.platform, k.arch, "taskbookly-stable-v1"])
  }

  /** Key material of the legacy format: tied to the executable and version. */
  function LegacyKeyMaterial(k: KeySource): (m: string)
    ensures |m| > |k.exePath| + |k.appVersion| + 1
    ensures m[..|k.exePath| + |k.appVersion| + 2] == k.exePath + "|" + k.appVersion + "|"
  {
    var parts := [k.exePath, k.appVersion, k.hostname, k.platform, k.arch];
    assert parts[1..] == [k.appVersion, k.hostname, k.platform, k.arch];
    JoinWithBar(parts)
  }

  /** Reinstalling or updating the app changes the executable path and the
      version but not the current key. */
  lemma StableKeyIgnoresInstall(c: Crypto, k: KeySource, exePath: string, appVersion: string)
    ensures StableKey(c, k.(exePath := exePath, appVersion := appVersion)) == StableKey(c, k)
  {
  }

  /** The legacy key material changes with the app version (as long as
      neither version text contains the separator), which is why data
      written under it stopped opening after an update. */
  lemma LegacyMaterialTracksVersion(k: KeySource, appVersion: string)
    requires appVersion != k.appVersion
    requires '|' !in k.appVersion && '|' !in appVersion
    ensures LegacyKeyMaterial(k.(appVersion := appVersion)) != LegacyKeyMaterial(k)
  {
    var k' := k.(appVersion := appVersion);
    var a, b := LegacyKeyMaterial(k), LegacyKeyMaterial(k');
    var n := |k.exePath| + 1;
    if a == b {
      var rest := JoinWithBar([k.hostname, k.platform, k.arch]);
      LegacyMaterialFields(k);
      LegacyMaterialFields(k');
      assert a[n..] == k.appVersion + "|" + rest;
      assert b[n..] == appVersion + "|" + rest;
      FieldBeforeBar(k.appVersion, appVersion, rest, rest);
      assert false;
    }
  }

  lemma LegacyMaterialFields(k: KeySource)
    ensures LegacyKeyMaterial(k)
      == k.exePath + "|" + (k.appVersion + "|" + JoinWithBar([k.hostname, k.platform, k.arch]))
  {
    var parts := [k.exePath, k.appVersion, k.hostname, k.platform, k.arch];
    assert parts[1..] == [k.appVersion, k.hostname, k.platform, k.arch];
    assert parts[1..][1..] == [k.hostname, k.platform, k.arch];
    var rest := JoinWithBar([k.hostname, k.platform, k.arch]);
    assert JoinWithBar(parts[1..]) == k.appVersion + "|" + rest;
    assert JoinWithBar(parts) == k.exePath + "|" + JoinWithBar(parts[1..]);
  }

  /** Two bar-free fields followed by a bar are equal when the texts are. */
  lemma FieldBeforeBar(x: string, y: string, u: string, v: string)
    requires '|' !in x && '|' !in y
    requires x + "|" + u == y + "|" + v
    ensures x == y
  {
    assert (x + "|" + u)[|x|] == '|' && (y + "|" + v)[|y|] == '|';
    assert (x + "|" + u)[..|x|] == x && (y + "|" + v)[..|y|] == y;
  }

  function StableKey(c: Crypto, k: KeySource): Bytes {
    c.scrypt(StableKeyMaterial(k), "taskbookly-stable-salt")
  }

  function LegacyKey(c: Crypto, k: KeySource): Bytes {
    c.scrypt(LegacyKeyMaterial(k), "taskbookly-v2-salt")
  }

  /** The integrity tag written today: SHA-256 over key then ciphertext. */
  function KeyedTag(c: Crypto, key: Bytes, ciphertext: Bytes): (tag: Bytes)
    ensures |tag| == TagLength
  {
    c.sha256(key + ciphertext)
  }

  /** The tag of the oldest format: SHA-256 over the ciphertext alone. */
  function UnkeyedTag(c: Crypto, ciphertext: Bytes): (tag: Bytes)
    ensures |tag| == TagLength
  {
    c.sha256(ciphertext)
  }

  /** The three parts of a stored blob. */
  datatype Parts = Parts(iv: Bytes, tag: Bytes, ciphertext: Bytes)

  /** Concatenation in file order. */
  function Frame(p: Parts): Bytes {
    p.iv + p.tag + p.ciphertext
  }

  /** The slicing at the top of `decrypt`: too short a blob is rejected,
      anything else is cut at bytes 16 and 48. */
  function Split(blob: Bytes): (r: Option<Parts>)
    ensures r.None? <==> |blob| < HeaderLength
    ensures r.Some? ==> |r.value.iv| == IvLength && |r.value.tag| == TagLength && Frame(r.value) == blob
  {
    if |blob| < HeaderLength then None
    else
      var p := Parts(blob[..IvLength], blob[IvLength..HeaderLength], blob[HeaderLength..]);
      assert Frame(p) == blob;
      Some(p)
  }

  /** Splitting a framed blob recovers its parts. */
  lemma SplitFrame(p: Parts)
    requires |p.iv| == IvLength && |p.tag| == TagLength
    ensures Split(Frame(p)) == Some(p)
  {
    var blob := Frame(p);
    assert blob[..IvLength] == p.iv;
    assert blob[IvLength..HeaderLength] == p.tag;
    assert blob[HeaderLength..] == p.ciphertext;
  }

  /** `encrypt(text)` with the random IV passed in. */
  function Encrypt(c: Crypto, key: Bytes, iv: Bytes, text: string): (blob: Bytes)
    requires |iv| == IvLength
    ensures |blob| >= HeaderLength
    ensures blob[..IvLength] == iv
    ensures blob[IvLength..HeaderLength] == KeyedTag(c, key, blob[HeaderLength..])
  {
    var ciphertext := c.aesEncrypt(key, iv, text);
    var p := Parts(iv, KeyedTag(c, key, ciphertext), ciphertext);
    SplitFrame(p);
    Frame(p)
  }

  /** Which tag a blob carries, tried in the source's fixed order. */
  datatype TagKind = NewKeyed | Unkeyed | LegacyKeyed | NoMatch

  function MatchTag(c: Crypto, key: Bytes, legacyKey: Bytes, p: Parts): (m: TagKind)
    ensures m == NewKeyed <==> p.tag == KeyedTag(c, key, p.ciphertext)
    ensures m == Unkeyed <==>
      p.tag != KeyedTag(c, key, p.ciphertext) && p.tag == UnkeyedTag(c, p.ciphertext)
    ensures m == LegacyKeyed <==>
      && p.tag != KeyedTag(c, key, p.ciphertext) && p.tag != UnkeyedTag(c, p.ciphertext)
      && p.tag == KeyedTag(c, legacyKey, p.ciphertext)
  {
    if p.tag == KeyedTag(c, key, p.ciphertext) then NewKeyed
    else if p.tag == UnkeyedTag(c, p.ciphertext) then Unkeyed
    else if p.tag == KeyedTag(c, legacyKey, p.ciphertext) then LegacyKeyed
    else NoMatch
  }

  datatype DecryptError = InvalidFormat | IntegrityCheckFailed | DecipherFailed

  /** Plaintext plus whether a re-save under the current key was scheduled
      (the legacy path does that). */
  datatype Decrypted = Decrypted(text: string, resave: bool)

  /** `decrypt(buffer)`. The unkeyed tag is still deciphered with the
      current key; a legacy-tag blob is deciphered with the legacy key, and
      a failure inside that attempt is reported as an integrity failure. */
  function Decrypt(c: Crypto, key: Bytes, legacyKey: Bytes, blob: Bytes): (r: Result<Decrypted, DecryptError>)
    ensures |blob| < HeaderLength ==> r == Err(InvalidFormat)
    ensures r.Ok? ==> |blob| >= HeaderLength && MatchTag(c, key, legacyKey, Split(blob).value) != NoMatch
    ensures r.Ok? ==> (r.value.resave <==> MatchTag(c, key, legacyKey, Split(blob).value) == LegacyKeyed)
    ensures |blob| >= HeaderLength && MatchTag(c, key, legacyKey, Split(blob).value) == NoMatch ==>
      r == Err(IntegrityCheckFailed)
    ensures r.Ok? ==>
      var p := Split(blob).value;
      var k := if MatchTag(c, key, legacyKey, p) == LegacyKeyed then legacyKey else key;
      c.aesDecrypt(k, p.iv, p.ciphertext) == Some(r.value.text)
    ensures |blob| >= HeaderLength ==>
      var p := Split(blob).value;
      (MatchTag(c, key, legacyKey, p) in {NewKeyed, Unkeyed} && c.aesDecrypt(key, p.iv, p.ciphertext).None? ==>
         r == Err(DecipherFailed))
    ensures |blob| >= HeaderLength ==>
      var p := Split(blob).value;
      (MatchTag(c, key, legacyKey, p) == LegacyKeyed && c.aesDecrypt(legacyKey, p.iv, p.ciphertext).None? ==>
         r == Err(IntegrityCheckFailed))
    ensures r == Err(DecipherFailed) ==> MatchTag(c, key, legacyKey, Split(blob).value) in {NewKeyed, Unkeyed}
    ensures |blob| >= HeaderLength ==>
      var p := Split(blob).value;
      var m := MatchTag(c, key, legacyKey, p);
      (m != NoMatch && c.aesDecrypt(if m == LegacyKeyed then legacyKey else key, p.iv, p.ciphertext).Some? ==>
         r.Ok?)
  {
    match Split(blob)
    case None => Err(InvalidFormat)
    case Some(p) =>
      match MatchTag(c, key, legacyKey, p)
      case NoMatch => Err(IntegrityCheckFailed)
      case LegacyKeyed =>
        (match c.aesDecrypt(legacyKey, p.iv, p.ciphertext)
         case Some(text) => Ok(Decrypted(text, true))
         case None => Err(IntegrityCheckFailed))
      case _ =>
        (match c.aesDecrypt(key, p.iv, p.ciphertext)
         case Some(text) => Ok(Decrypted(text, false))
         case None => Err(DecipherFailed))
  }

  /** What `encrypt` writes, `decrypt` reads back, as long as the cipher
      itself round-trips. */
  lemma EncryptDecryptRoundTrip(c: Crypto, key: Bytes, legacyKey: Bytes, iv: Bytes, text: string)
    requires |iv| == IvLength
    requires c.aesDecrypt(key, iv, c.aesEncrypt(key, iv, text)) == Some(text)
    ensures Decrypt(c, key, legacyKey, Encrypt(c, key, iv, text)) == Ok(Decrypted(text, false))
  {
    var ciphertext := c.aesEncrypt(key, iv, text);
    SplitFrame(Parts(iv, KeyedTag(c, key, ciphertext), ciphertext));
  }

  /** A blob of the oldest format (unkeyed tag) still loads: it is
      deciphered with the current key and no re-save is scheduled. */
  lemma UnkeyedBlobDecrypts(c: Crypto, key: Bytes, legacyKey: Bytes, p: Parts, text: string)
    requires |p.iv| == IvLength && |p.tag| == TagLength
    requires p.tag == UnkeyedTag(c, p.ciphertext) && p.tag != KeyedTag(c, key, p.ciphertext)
    requires c.aesDecrypt(key, p.iv, p.ciphertext) == Some(text)
    ensures Decrypt(c, key, legacyKey, Frame(p)) == Ok(Decrypted(text, false))
  {
    SplitFrame(p);
  }

  /** A blob whose tag matches none of the three accepted tags is refused,
      whatever its ciphertext (a flipped bit in the tag region). */
  lemma TamperedTagRejected(c: Crypto, key: Bytes, legacyKey: Bytes, p: Parts)
    requires |p.iv| == IvLength && |p.tag| == TagLength
    requires p.tag != KeyedTag(c, key, p.ciphertext)
    requires p.tag != UnkeyedTag(c, p.ciphertext)
    requires p.tag != KeyedTag(c, legacyKey, p.ciphertext)
    ensures Decrypt(c, key, legacyKey, Frame(p)) == Err(IntegrityCheckFailed)
  {
    SplitFrame(p);
  }

  /** A JSON value, as `JSON.parse` produces it. */
  datatype Json =
    | JNull
    | JBool(b: bool)
    | JNumber(n: real)
    | JString(s: string)
    | JArray(items: seq<Json>)
    | JObject(fields: map<string, Json>)

  /** `JSON.parse` (None where it throws) and `JSON.stringify`. */
  datatype JsonCodec = JsonCodec(parse: string -> Option<Json>, stringify: Json -> string)

  predicate IsNumberField(fields: map<string, Json>, key: string) {
    key in fields && fields[key].JNumber?
  }

  /** `isValidSecretData`: an object whose five numeric fields are numbers
      and whose version is absent or a number. */
  predicate IsValidSecretData(j: Json) {
    && j.JObject?
    && IsNumberField(j.fields, "currentCharges")
    && IsNumberField(j.fields, "timeLeftTillNextCharge")
    && IsNumberField(j.fields, "breakChargesSinceLastUse")
    && IsNumberField(j.fields, "lastWorkTimeTracked")
    && IsNumberField(j.fields, "totalWorkTimeAccumulated")
    && ("version" !in j.fields || j.fields["version"].JNumber?)
  }

  /** The five fields a stored record must hold as numbers. */
  const NumberFields: seq<string> := ["currentCharges", "timeLeftTillNextCharge",
    "breakChargesSinceLastUse", "lastWorkTimeTracked", "totalWorkTimeAccumulated"]

  /** The validity test read as a rule over the field list: a JSON object
      (not an array, string, number or null) whose every listed field is
      present as a number, with a version that, if present, is a number. */
  lemma IsValidSecretDataByFields(j: Json)
    ensures IsValidSecretData(j) <==>
      && j.JObject?
      && (forall i :: 0 <= i < |NumberFields| ==> IsNumberField(j.fields, NumberFields[i]))
      && ("version" in j.fields ==> j.fields["version"].JNumber?)
  {
    if j.JObject? && forall i :: 0 <= i < |NumberFields| ==> IsNumberField(j.fields, NumberFields[i]) {
      assert IsNumberField(j.fields, NumberFields[0]) && IsNumberField(j.fields, NumberFields[1]);
      assert IsNumberField(j.fields, NumberFields[2]) && IsNumberField(j.fields, NumberFields[3]);
      assert IsNumberField(j.fields, NumberFields[4]);
    }
  }

  /** `migrateDataIfNeeded`: a missing or zero version becomes 1. */
  function MigrateDataIfNeeded(j: Json): (d: SecretData)
    requires IsValidSecretData(j)
    ensures d.version != 0.0
    ensures "version" in j.fields && j.fields["version"].n != 0.0 ==> d.version == j.fields["version"].n
    ensures d.currentCharges == j.fields["currentCharges"].n
    ensures d.timeLeftTillNextCharge == j.fields["timeLeftTillNextCharge"].n
    ensures d.breakChargesSinceLastUse == j.fields["breakChargesSinceLastUse"].n
    ensures d.lastWorkTimeTracked == j.fields["lastWorkTimeTracked"].n
    ensures d.totalWorkTimeAccumulated == j.fields["totalWorkTimeAccumulated"].n
  {
    var f := j.fields;
    var version := if "version" in f && f["version"].n != 0.0 then f["version"].n else 1.0;
    SecretData(
      f["currentCharges"].n, f["timeLeftTillNextCharge"].n, f["breakChargesSinceLastUse"].n,
      f["lastWorkTimeTracked"].n, f["totalWorkTimeAccumulated"].n, version)
  }

  /** The object `JSON.stringify` is given when saving. */
  function ToJson(d: SecretData): (j: Json)
    ensures IsValidSecretData(j)
  {
    JObject(map[
      "currentCharges" := JNumber(d.currentCharges),
      "timeLeftTillNextCharge" := JNumber(d.timeLeftTillNextCharge),
      "breakChargesSinceLastUse" := JNumber(d.breakChargesSinceLastUse),
      "lastWorkTimeTracked" := JNumber(d.lastWorkTimeTracked),
      "totalWorkTimeAccumulated" := JNumber(d.totalWorkTimeAccumulated),
      "version" := JNumber(d.version)])
  }

  /** A record that went out as JSON comes back unchanged, unless its
      version was 0, which migration turns into 1. */
  lemma MigrateToJson(d: SecretData)
    ensures MigrateDataIfNeeded(ToJson(d)) == (if d.version == 0.0 then d.(version := 1.0) else d)
  {
  }

  /** The outcome of `loadData`: the record and whether the legacy path
      scheduled a re-save under the current key. */
  datatype Loaded = Loaded(data: SecretData, resave: bool)

  /** `loadData()`: the file (None when it does not exist) is decrypted,
      parsed, validated and migrated; every failure yields the defaults. */
  function LoadData(file: Option<Bytes>, c: Crypto, keys: KeySource, codec: JsonCodec, now: int): (r: Loaded)
    ensures r.data.version != 0.0
    ensures file.None? ==> r == Loaded(DefaultData(now), false)
    ensures file.Some? && Decrypt(c, StableKey(c, keys), LegacyKey(c, keys), file.value).Err? ==>
      r == Loaded(DefaultData(now), false)
    ensures file.Some? && Decrypt(c, StableKey(c, keys), LegacyKey(c, keys), file.value).Ok? ==>
      var text := Decrypt(c, StableKey(c, keys), LegacyKey(c, keys), file.value).value;
      r.resave == text.resave
      && (match codec.parse(text.text)
          case Some(j) => r.data == (if IsValidSecretData(j) then MigrateDataIfNeeded(j) else DefaultData(now))
          case None => r.data == DefaultData(now))
  {
    match file
    case None => Loaded(DefaultData(now), false)
    case Some(blob) =>
      match Decrypt(c, StableKey(c, keys), LegacyKey(c, keys), blob)
      case Err(_) => Loaded(DefaultData(now), false)
      case Ok(text) =>
        match codec.parse(text.text)
        case None => Loaded(DefaultData(now), text.resave)
        case Some(j) =>
          if IsValidSecretData(j) then Loaded(MigrateDataIfNeeded(j), text.resave)
          else Loaded(DefaultData(now), text.resave)
  }

  /** `saveData()`: the record as JSON text, encrypted under the current key
      with the random IV passed in. */
  function SaveData(d: SecretData, c: Crypto, keys: KeySource, codec: JsonCodec, iv: Bytes): (blob: Bytes)
    requires |iv| == IvLength
    ensures |blob| >= HeaderLength && blob[..IvLength] == iv
  {
    Encrypt(c, StableKey(c, keys), iv, codec.stringify(ToJson(d)))
  }

  /** Saving and loading again gives back the record, provided the cipher
      and the JSON codec each round-trip on the text involved. */
  lemma SaveLoadRoundTrip(d: SecretData, c: Crypto, keys: KeySource, codec: JsonCodec, iv: Bytes, now: int)
    requires |iv| == IvLength && d.version != 0.0
    requires
      var text := codec.stringify(ToJson(d));
      var key := StableKey(c, keys);
      c.aesDecrypt(key, iv, c.aesEncrypt(key, iv, text)) == Some(text) && codec.parse(text) == Some(ToJson(d))
    ensures LoadData(Some(SaveData(d, c, keys, codec, iv)), c, keys, codec, now) == Loaded(d, false)
  {
    EncryptDecryptRoundTrip(c, StableKey(c, keys), LegacyKey(c, keys), iv, codec.stringify(ToJson(d)));
    MigrateToJson(d);
  }

  /** A blob written under the legacy key is still readable and triggers a
      re-save, unless it happens to carry one of the two newer tags. */
  lemma LegacyBlobMigrates(c: Crypto, keys: KeySource, codec: JsonCodec, p: Parts, text: string, now: int)
    requires |p.iv| == IvLength && |p.tag| == TagLength
    requires p.tag == KeyedTag(c, LegacyKey(c, keys), p.ciphertext)
    requires p.tag != KeyedTag(c, StableKey(c, keys), p.ciphertext) && p.tag != UnkeyedTag(c, p.ciphertext)
    requires c.aesDecrypt(LegacyKey(c, keys), p.iv, p.ciphertext) == Some(text)
    ensures LoadData(Some(Frame(p)), c, keys, codec, now).resave
  {
    SplitFrame(p);
  }
}

=== FILE: package_args.dfy ===
/** The packaging script's command line (`scripts/package.mjs`): the
    channel and build-number options, the pass-through of everything else
    to the builder, and the publish checks made on the forwarded
    arguments. Console output and `process.exit` become error values; the
    date-derived default build number is a parameter. */
module PackageArgs {
  import opened Common

  // ---------------------------------------------------------------------
  // Text helpers

  /** `toLowerCase` on one character, ASCII letters only. */
  function LowerChar(c: char): (d: char)
    ensures !('A' <= d <= 'Z')
    ensures d == '=' <==> c == '='
    ensures d == '-' <==> c == '-'
  {
    if 'A' <= c <= 'Z' then (c as int + 32) as char else c
  }

  function Lower(s: string): (r: string)
    ensures |r| == |s|
    ensures forall i :: 0 <= i < |s| ==> r[i] == LowerChar(s[i])
  {
    if |s| == 0 then "" else [LowerChar(s[0])] + Lower(s[1..])
  }

  /** Lower-casing twice changes nothing more. */
  lemma LowerIdempotent(s: string)
    ensures Lower(Lower(s)) == Lower(s)
  {
  }

  /** Text without capitals is its own lower case. */
  lemma LowerKeepsLowercase(s: string)
    requires forall i :: 0 <= i < |s| ==> !('A' <= s[i] <= 'Z')
    ensures Lower(s) == s
  {
  }

  predicate StartsWith(s: string, prefix: string) {
    |prefix| <= |s| && s[..|prefix|] == prefix
  }

  /** Position of the first `c` in `s`, `|s|` when there is none. */
  function IndexOf(s: string, c: char): (k: nat)
    ensures k <= |s|
    ensures forall j :: 0 <= j < k ==> s[j] != c
    ensures k < |s| ==> s[k] == c
  {
    if |s| == 0 then 0
    else if s[0] == c then 0
    else 1 + IndexOf(s[1..], c)
  }

  /** `s.split("=")[1]`: the text between the first and the second "=",
      absent (`undefined`) when `s` has no "=". */
  function SecondField(s: string): (r: Option<string>)
    ensures r.None? <==> '=' !in s
    ensures r.Some? ==> '=' !in r.value
  {
    var i := IndexOf(s, '=');
    if i == |s| then
      assert forall c :: c in s ==> c != '=';
      None
    else
      var rest := s[i + 1..];
      Some(rest[..IndexOf(rest, '=')])
  }

  /** The field after the first "=" is read up to the next "=" or the end. */
  lemma {:induction false} SecondFieldOf(p: string, v: string, w: string)
    requires '=' !in p && '=' !in v
    ensures SecondField(p + "=" + v) == Some(v)
    ensures SecondField(p + "=" + v + "=" + w) == Some(v)
  {
    var s1 := p + "=" + v;
    var s2 := p + "=" + v + "=" + w;
    IndexOfFirst(p, "=" + v);
    IndexOfFirst(p, "=" + v + "=" + w);
    assert s1 == p + ("=" + v) && s2 == p + ("=" + v + "=" + w);
    assert s1[|p| + 1..] == v;
    assert s2[|p| + 1..] == v + "=" + w;
    IndexOfFirst(v, "");
    IndexOfFirst(v, "=" + w);
    assert v + "" == v;
    assert v + "=" + w == v + ("=" + w);
  }

  lemma {:induction false} IndexOfFirst(p: string, q: string)
    requires '=' !in p
    requires |q| > 0 ==> q[0] == '='
    ensures IndexOf(p + q, '=') == |p|
    decreases |p|
  {
    if |p| == 0 {
      assert p + q == q;
    } else {
      assert p[0] in p;
      assert (p + q)[1..] == p[1..] + q;
      assert forall c :: c in p[1..] ==> c in p;
      IndexOfFirst(p[1..], q);
    }
  }

  // ---------------------------------------------------------------------
  // Options

  const AllowedChannels: set<string> := {"stable", "beta", "dev"}

  /** What the option loop makes of one argument, tested in the loop's
      order on the lower-cased text. */
  datatype Kind =
    | HelpFlag
    | Shortcut(channel: string)
    | ChannelFlag
    | ChannelAssign
    | BuildFlag
    | BuildAssign
    | PassThrough

  /** The option tests, on the lower-cased argument. */
  function KindOf(lower: string): (k: Kind)
    ensures k.Shortcut? ==> k.channel in AllowedChannels && lower == "--" + k.channel
  {
    if lower == "--help" || lower == "-h" then HelpFlag
    else if lower == "--stable" then Shortcut("stable")
    else if lower == "--beta" then Shortcut("beta")
    else if lower == "--dev" then Shortcut("dev")
    else if lower == "--channel" || lower == "-c" then ChannelFlag
    else if StartsWith(lower, "--channel=") || StartsWith(lower, "-c=") then ChannelAssign
    else if lower == "--build" || lower == "--build-number" || lower == "-b" then BuildFlag
    else if StartsWith(lower, "--build=") || StartsWith(lower, "--build-number=") || StartsWith(lower, "-b=") then BuildAssign
    else PassThrough
  }

  /** Options are matched whatever their case. */
  function Classify(arg: string): (k: Kind)
    ensures k.Shortcut? ==> k.channel in AllowedChannels && Lower(arg) == "--" + k.channel
  {
    KindOf(Lower(arg))
  }

  /** Arguments that do not start with "-" are never options. */
  lemma PlainArgumentPassesThrough(arg: string)
    requires |arg| == 0 || arg[0] != '-'
    ensures Classify(arg) == PassThrough
  {
    var lower := Lower(arg);
    assert |lower| == 0 || lower[0] != '-';
  }

  /** The argument after a value option, unless it is absent, empty or
      starts with "-". */
  function ReadNext(argv: seq<string>, i: nat): (r: Option<string>)
    ensures r.Some? <==> i + 1 < |argv| && argv[i + 1] != "" && argv[i + 1][0] != '-'
    ensures r.Some? ==> r.value == argv[i + 1]
  {
    if i + 1 < |argv| && argv[i + 1] != "" && !StartsWith(argv[i + 1], "-") then Some(argv[i + 1]) else None
  }

  /** The value of a `--x=value` argument when it is not empty, else `current`. */
  function Assigned(arg: string, current: string): (r: string)
    ensures r == current || (Some(r) == SecondField(arg) && r != "")
  {
    var v := SecondField(arg);
    if v.Some? && v.value != "" then v.value else current
  }

  datatype St = St(channel: string, buildNumber: string, passThrough: seq<string>)

  datatype ParseError = Help | MissingValue(flag: string) | InvalidChannel(channel: string)

  /** The option loop from position `i` on. */
  function Scan(argv: seq<string>, i: nat, st: St): (r: Result<St, ParseError>)
    ensures r.Ok? ==> (|st.passThrough| <= |r.value.passThrough|
      && r.value.passThrough[..|st.passThrough|] == st.passThrough)
    ensures r.Ok? ==> forall k :: |st.passThrough| <= k < |r.value.passThrough| ==>
      r.value.passThrough[k] in argv && Classify(r.value.passThrough[k]).PassThrough?
    ensures r.Err? && r.error.MissingValue? ==>
      r.error.flag in argv && (Classify(r.error.flag).ChannelFlag? || Classify(r.error.flag).BuildFlag?)
    ensures r.Err? ==> !r.error.InvalidChannel?
    decreases |argv| - i
  {
    if i >= |argv| then Ok(st)
    else
      var arg := argv[i];
      match Classify(arg)
      case HelpFlag => Err(Help)
      case Shortcut(c) => Scan(argv, i + 1, st.(channel := c))
      case ChannelFlag =>
        (match ReadNext(argv, i)
         case None => Err(MissingValue(arg))
         case Some(v) => Scan(argv, i + 2, st.(channel := v)))
      case ChannelAssign => Scan(argv, i + 1, st.(channel := Assigned(arg, st.channel)))
      case BuildFlag =>
        (match ReadNext(argv, i)
         case None => Err(MissingValue(arg))
         case Some(v) => Scan(argv, i + 2, st.(buildNumber := v)))
      case BuildAssign => Scan(argv, i + 1, st.(buildNumber := Assigned(arg, st.buildNumber)))
      case PassThrough => Scan(argv, i + 1, st.(passThrough := st.passThrough + [arg]))
  }

  /** `TASKBOOKLY_BUILD_CHANNEL` and `TASKBOOKLY_BUILD_NUMBER`, when set. */
  datatype Env = Env(channel: Option<string>, buildNumber: Option<string>)

  datatype Parsed = Parsed(channel: string, buildNumber: string, builderArgs: seq<string>)

  function Initial(env: Env): St {
    St(env.channel.GetOr("stable"), env.buildNumber.GetOr(""), [])
  }

  /** `parseArgs(argv)`; `defaultBuild` stands for the timestamp used when
      no build number was given. */
  function ParseArgs(argv: seq<string>, env: Env, defaultBuild: string): (r: Result<Parsed, ParseError>)
    ensures r.Ok? ==> r.value.channel in AllowedChannels
    ensures r.Ok? && defaultBuild != "" ==> r.value.buildNumber != ""
    ensures r.Ok? ==> forall a :: a in r.value.builderArgs ==> a in argv && Classify(a).PassThrough?
    ensures r.Err? && r.error.InvalidChannel? ==> r.error.channel !in AllowedChannels
    ensures r.Err? && r.error.MissingValue? ==> r.error.flag in argv
  {
    match Scan(argv, 0, Initial(env))
    case Err(e) => Err(e)
    case Ok(st) =>
      var channel := Lower(st.channel);
      if channel !in AllowedChannels then Err(InvalidChannel(channel))
      else
        assert forall k :: 0 <= k < |st.passThrough| ==> Classify(st.passThrough[k]).PassThrough?;
        Ok(Parsed(channel, if st.buildNumber == "" then defaultBuild else st.buildNumber, st.passThrough))
  }

  // ---------------------------------------------------------------------
  // Properties of the option loop

  /** Once the loop has got through a prefix, what follows is read from
      the state the prefix left. */
  lemma {:induction false} ScanPrefix(argv: seq<string>, tail: seq<string>, i: nat, st: St)
    requires i <= |argv| && Scan(argv, i, st).Ok?
    ensures Scan(argv + tail, i, st) == Scan(argv + tail, |argv|, Scan(argv, i, st).value)
    decreases |argv| - i
  {
    var all := argv + tail;
    if i < |argv| {
      var arg := argv[i];
      assert all[i] == arg;
      match Classify(arg)
      case HelpFlag =>
      case Shortcut(c) => ScanPrefix(argv, tail, i + 1, st.(channel := c));
      case ChannelFlag =>
        assert all[i + 1] == argv[i + 1];
        ScanPrefix(argv, tail, i + 2, st.(channel := argv[i + 1]));
      case ChannelAssign => ScanPrefix(argv, tail, i + 1, st.(channel := Assigned(arg, st.channel)));
      case BuildFlag =>
        assert all[i + 1] == argv[i + 1];
        ScanPrefix(argv, tail, i + 2, st.(buildNumber := argv[i + 1]));
      case BuildAssign => ScanPrefix(argv, tail, i + 1, st.(buildNumber := Assigned(arg, st.buildNumber)));
      case PassThrough => ScanPrefix(argv, tail, i + 1, st.(passThrough := st.passThrough + [arg]));
    }
  }

  /** A channel shortcut at the end overrides whatever came before. */
  lemma LastShortcutWins(argv: seq<string>, s: string, st: St)
    requires Scan(argv, 0, st).Ok? && Classify(s).Shortcut?
    ensures Scan(argv + [s], 0, st) == Ok(Scan(argv, 0, st).value.(channel := Classify(s).channel))
  {
    ScanPrefix(argv, [s], 0, st);
    assert (argv + [s])[|argv|] == s;
  }

  /** `--channel v` or `--build v` at the end overrides what came before,
      with the value's case kept as given. */
  lemma LastValueOptionWins(argv: seq<string>, flag: string, v: string, st: St)
    requires Scan(argv, 0, st).Ok?
    requires Classify(flag).ChannelFlag? || Classify(flag).BuildFlag?
    requires v != "" && v[0] != '-'
    ensures var r := Scan(argv, 0, st).value;
      Scan(argv + [flag, v], 0, st)
        == Ok(if Classify(flag).ChannelFlag? then r.(channel := v) else r.(buildNumber := v))
  {
    ScanPrefix(argv, [flag, v], 0, st);
    var all := argv + [flag, v];
    assert all[|argv|] == flag && all[|argv| + 1] == v;
  }

  /** A value option with nothing usable after it fails, naming the option. */
  lemma MissingValueNamesFlag(argv: seq<string>, flag: string, st: St)
    requires Scan(argv, 0, st).Ok?
    requires Classify(flag).ChannelFlag? || Classify(flag).BuildFlag?
    ensures Scan(argv + [flag], 0, st) == Err(MissingValue(flag))
    ensures Scan(argv + [flag, "-x"], 0, st) == Err(MissingValue(flag))
  {
    ScanPrefix(argv, [flag], 0, st);
    ScanPrefix(argv, [flag, "-x"], 0, st);
    assert (argv + [flag])[|argv|] == flag;
    assert (argv + [flag, "-x"])[|argv|] == flag && (argv + [flag, "-x"])[|argv| + 1] == "-x";
  }

  /** `--channel=v` (or `--build=v`) at the end sets the value when it is
      not empty and leaves it alone when it is. */
  lemma AssignFormWins(argv: seq<string>, flag: string, v: string, st: St)
    requires Scan(argv, 0, st).Ok?
    requires flag in {"--channel", "-c", "--build", "--build-number", "-b"}
    requires '=' !in v
    ensures var r := Scan(argv, 0, st).value;
      var isChannel := flag == "--channel" || flag == "-c";
      var value := if v == "" then (if isChannel then r.channel else r.buildNumber) else v;
      Scan(argv + [flag + "=" + v], 0, st)
        == Ok(if isChannel then r.(channel := value) else r.(buildNumber := value))
  {
    var arg := flag + "=" + v;
    ScanPrefix(argv, [arg], 0, st);
    assert (argv + [arg])[|argv|] == arg;
    SecondFieldOf(flag, v, "");
    ClassifyAssign(flag, v);
  }

  lemma LowerAppend(a: string, b: string)
    ensures Lower(a + b) == Lower(a) + Lower(b)
  {
  }

  /** `--channel=...` and `-c=...` are the channel's assignment form. */
  lemma ChannelAssignForm(lower: string)
    requires StartsWith(lower, "--channel=") || StartsWith(lower, "-c=")
    ensures KindOf(lower) == ChannelAssign
  {
    var i := if StartsWith(lower, "-c=") then 2 else 9;
    assert lower[i] == '=';
    assert '=' !in "--help" && '=' !in "-h" && '=' !in "--stable" && '=' !in "--beta" && '=' !in "--dev";
    assert '=' !in "--channel" && '=' !in "-c";
  }

  /** `--build=...`, `--build-number=...` and `-b=...` are the build
      number's assignment form. */
  lemma BuildAssignForm(lower: string)
    requires StartsWith(lower, "--build=") || StartsWith(lower, "--build-number=") || StartsWith(lower, "-b=")
    ensures KindOf(lower) == BuildAssign
  {
    var i := if StartsWith(lower, "-b=") then 2 else if StartsWith(lower, "--build=") then 7 else 14;
    assert lower[i] == '=';
    assert lower[1] != 'c' && lower[2] != 'c';
    assert "--channel="[2] == 'c' && "-c="[1] == 'c';
    assert !StartsWith(lower, "--channel=") && !StartsWith(lower, "-c=");
    assert '=' !in "--help" && '=' !in "-h" && '=' !in "--stable" && '=' !in "--beta" && '=' !in "--dev";
    assert '=' !in "--channel" && '=' !in "-c" && '=' !in "--build" && '=' !in "--build-number" && '=' !in "-b";
  }

  /** Lower-casing leaves a prefix without capitals in place. */
  lemma LowerAfterPrefix(head: string, v: string)
    requires forall i :: 0 <= i < |head| ==> !('A' <= head[i] <= 'Z')
    ensures StartsWith(Lower(head + v), head)
  {
    LowerKeepsLowercase(head);
    LowerAppend(head, v);
  }

  /** `--channel=`, `-c=`, `--build=`, `--build-number=` and `-b=` are
      told apart from the other options whatever value follows. */
  lemma ClassifyAssign(flag: string, v: string)
    requires flag in {"--channel", "-c", "--build", "--build-number", "-b"}
    ensures Classify(flag + "=" + v) == if flag == "--channel" || flag == "-c" then ChannelAssign else BuildAssign
  {
    var head := flag + "=";
    assert flag + "=" + v == head + v;
    if flag == "--channel" || flag == "-c" {
      ChannelAssignAfter(head, v);
    } else {
      BuildAssignAfter(head, v);
    }
  }

  lemma ChannelAssignAfter(head: string, v: string)
    requires head == "--channel=" || head == "-c="
    ensures Classify(head + v) == ChannelAssign
  {
    LowerAfterPrefix(head, v);
    ChannelAssignForm(Lower(head + v));
  }

  lemma BuildAssignAfter(head: string, v: string)
    requires head == "--build=" || head == "--build-number=" || head == "-b="
    ensures Classify(head + v) == BuildAssign
  {
    LowerAfterPrefix(head, v);
    BuildAssignForm(Lower(head + v));
  }

  /** Every `--publish...` argument is forwarded to the builder. */
  lemma PublishOptionPassesThrough(arg: string)
    requires StartsWith(arg, "--publish")
    ensures Classify(arg) == PassThrough
  {
    var lower := Lower(arg);
    assert arg[1] == '-' && arg[2] == 'p';
    assert lower[1] == '-' && lower[2] == 'p';
    KindOfOtherOption(lower);
  }

  /** An argument `--x...` whose `x` begins none of the option names is not
      an option. */
  lemma KindOfOtherOption(lower: string)
    requires |lower| >= 3 && lower[1] == '-'
    requires lower[2] != 'h' && lower[2] != 's' && lower[2] != 'b' && lower[2] != 'd' && lower[2] != 'c'
    ensures KindOf(lower) == PassThrough
  {
  }

  /** An argument the loop does not recognise is forwarded after the ones
      already forwarded. */
  lemma PassThroughAppends(argv: seq<string>, a: string, st: St)
    requires Scan(argv, 0, st).Ok? && Classify(a).PassThrough?
    ensures var r := Scan(argv, 0, st).value;
      Scan(argv + [a], 0, st) == Ok(r.(passThrough := r.passThrough + [a]))
  {
    ScanPrefix(argv, [a], 0, st);
    assert (argv + [a])[|argv|] == a;
  }

  /** Arguments none of which is an option are forwarded unchanged and in
      order. */
  lemma PlainArgumentsForwarded(argv: seq<string>, st: St)
    requires forall k :: 0 <= k < |argv| ==> Classify(argv[k]).PassThrough?
    ensures Scan(argv, 0, st) == Ok(st.(passThrough := st.passThrough + argv))
  {
    PlainArgumentsForwardedFrom(argv, 0, st);
    assert argv[0..] == argv;
  }

  /** From position `i` on, every remaining argument is forwarded. */
  lemma {:induction false} PlainArgumentsForwardedFrom(argv: seq<string>, i: nat, st: St)
    requires i <= |argv|
    requires forall k :: i <= k < |argv| ==> Classify(argv[k]).PassThrough?
    ensures Scan(argv, i, st) == Ok(st.(passThrough := st.passThrough + argv[i..]))
    decreases |argv| - i
  {
    if i == |argv| {
      assert st.passThrough + argv[i..] == st.passThrough;
    } else {
      var next := st.(passThrough := st.passThrough + [argv[i]]);
      assert Scan(argv, i, st) == Scan(argv, i + 1, next);
      PlainArgumentsForwardedFrom(argv, i + 1, next);
      ForwardOne(st.passThrough, argv, i);
    }
  }

  /** Forwarding argument `i` and then the rest is forwarding from `i`. */
  lemma ForwardOne(pre: seq<string>, argv: seq<string>, i: nat)
    requires i < |argv|
    ensures pre + [argv[i]] + argv[i + 1..] == pre + argv[i..]
  {
    assert argv[i..] == [argv[i]] + argv[i + 1..];
  }

  /** `--help` stops the loop wherever it is reached, whatever follows. */
  lemma HelpStops(argv: seq<string>, h: string, rest: seq<string>, st: St)
    requires Scan(argv, 0, st).Ok? && Classify(h).HelpFlag?
    ensures Scan(argv + [h] + rest, 0, st) == Err(Help)
  {
    assert argv + [h] + rest == argv + ([h] + rest);
    ScanPrefix(argv, [h] + rest, 0, st);
    assert (argv + ([h] + rest))[|argv|] == h;
  }

  /** Options are recognised whatever their case: `--BETA` is `--beta`. */
  lemma ShortcutsIgnoreCase(arg: string)
    requires Lower(arg) == "--beta"
    ensures Classify(arg) == Shortcut("beta")
  {
  }

  /** Without options the channel comes from the environment (lower-cased,
      "stable" when unset), and an unusable one is rejected. */
  lemma ChannelFromEnvironment(argv: seq<string>, env: Env, defaultBuild: string)
    requires forall k :: 0 <= k < |argv| ==> Classify(argv[k]).PassThrough?
    ensures var c := Lower(env.channel.GetOr("stable"));
      var b := env.buildNumber.GetOr("");
      ParseArgs(argv, env, defaultBuild)
        == if c in AllowedChannels
           then Ok(Parsed(c, if b == "" then defaultBuild else b, argv))
           else Err(InvalidChannel(c))
  {
    PlainArgumentsForwarded(argv, Initial(env));
    assert [] + argv == argv;
  }

  // ---------------------------------------------------------------------
  // Publishing

  /** One forwarded argument asks to publish: `--publish`, or
      `--publish=v` with `v` other than "never" (case-sensitive). */
  function IsPublishArg(arg: string): (b: bool)
    ensures b ==> StartsWith(arg, "--publish")
  {
    arg == "--publish" || (StartsWith(arg, "--publish=") && SecondField(arg).GetOr("") != "never")
  }

  function IsPublishing(args: seq<string>): (b: bool)
    ensures b <==> exists i :: 0 <= i < |args| && IsPublishArg(args[i])
  {
    if |args| == 0 then false
    else if IsPublishArg(args[0]) then true
    else
      var b := IsPublishing(args[1..]);
      assert b ==> exists i :: 0 <= i < |args| - 1 && IsPublishArg(args[1..][i]);
      assert (exists i :: 0 <= i < |args| && IsPublishArg(args[i])) ==> exists i :: 0 <= i < |args| - 1 && IsPublishArg(args[1..][i]) by {
        if exists i :: 0 <= i < |args| && IsPublishArg(args[i]) {
          var i :| 0 <= i < |args| && IsPublishArg(args[i]);
          assert i > 0 && args[1..][i - 1] == args[i];
        }
      }
      b
  }

  /** Which texts ask to publish: an empty or other value counts, only the
      exact value "never" (read up to a second "=") does not, and the
      option is case-sensitive. */
  lemma PublishArgForms(v: string, w: string)
    requires '=' !in v
    ensures IsPublishArg("--publish")
    ensures IsPublishArg("--publish=" + v) <==> v != "never"
    ensures IsPublishArg("--publish=" + v + "=" + w) <==> v != "never"
    ensures !IsPublishArg("--Publish")
  {
    SecondFieldOf("--publish", v, w);
    assert "--publish=" + v == "--publish" + "=" + v;
    assert "--publish=" + v + "=" + w == "--publish" + "=" + v + "=" + w;
    assert ("--publish=" + v)[..10] == "--publish=";
    assert ("--publish=" + v + "=" + w)[..10] == "--publish=";
  }

  datatype PackageError = ParseFailed(reason: ParseError) | DevPublish

  /** What the script goes on to build with. */
  datatype Plan = Plan(channel: string, buildNumber: string, builderArgs: seq<string>, releaseType: Option<string>)

  /** The dev-channel publish rejection and `inferredReleaseType`. */
  function PlanPackage(p: Parsed): (r: Result<Plan, PackageError>)
    ensures r.Ok? ==> (r.value.channel == p.channel && r.value.buildNumber == p.buildNumber
      && r.value.builderArgs == p.builderArgs)
    ensures r.Err? <==> IsPublishing(p.builderArgs) && p.channel == "dev"
    ensures r.Err? ==> r.error == DevPublish
    ensures r.Ok? ==> (r.value.releaseType.Some? <==> IsPublishing(p.builderArgs))
    ensures r.Ok? && r.value.releaseType.Some? ==>
      (r.value.releaseType.value == "prerelease" <==> p.channel == "beta")
  {
    var publishing := IsPublishing(p.builderArgs);
    if publishing && p.channel == "dev" then Err(DevPublish)
    else Ok(Plan(p.channel, p.buildNumber, p.builderArgs,
                 if !publishing then None else if p.channel == "beta" then Some("prerelease") else Some("release")))
  }

  /** The whole front of the script: parse, then check the publish request. */
  function Package(argv: seq<string>, env: Env, defaultBuild: string): (r: Result<Plan, PackageError>)
    ensures r.Ok? ==> r.value.channel in AllowedChannels
    ensures r.Ok? ==> forall a :: a in r.value.builderArgs ==> a in argv
    ensures ParseArgs(argv, env, defaultBuild).Err? <==> r.Err? && r.error.ParseFailed?
  {
    match ParseArgs(argv, env, defaultBuild)
    case Err(e) => Err(ParseFailed(e))
    case Ok(p) => PlanPackage(p)
  }

  /** A dev build is never published, a publish request yields a release
      type ("prerelease" exactly on the beta channel), and no request
      yields none. */
  lemma PublishRules(argv: seq<string>, env: Env, defaultBuild: string)
    ensures var r := Package(argv, env, defaultBuild);
      r.Ok? ==> !(r.value.channel == "dev" && IsPublishing(r.value.builderArgs))
    ensures var r := Package(argv, env, defaultBuild);
      r.Ok? ==> (r.value.releaseType.None? <==> !IsPublishing(r.value.builderArgs))
    ensures var r := Package(argv, env, defaultBuild);
      r.Ok? ==> (r.value.releaseType == Some("prerelease") <==> IsPublishing(r.value.builderArgs) && r.value.channel == "beta")
    ensures var r := Package(argv, env, defaultBuild);
      r.Ok? && r.value.releaseType.Some? ==> r.value.releaseType.value in {"prerelease", "release"}
    ensures var p := ParseArgs(argv, env, defaultBuild);
      p.Ok? ==> (Package(argv, env, defaultBuild) == Err(DevPublish)
                 <==> p.value.channel == "dev" && IsPublishing(p.value.builderArgs))
  {
  }

  /** `--publish=never` alone does not request publishing. */
  lemma PublishNever(a: string)
    requires a == "--publish=" + "never"
    ensures !IsPublishing([a])
  {
    PublishArgForms("never", "");
    PublishingOne(a);
  }

  /** A single argument requests publishing exactly when it is a publish argument. */
  lemma PublishingOne(a: string)
    ensures IsPublishing([a]) <==> IsPublishArg(a)
  {
    assert [a][0] == a;
  }

  lemma LowerDev()
    ensures Lower("dev") == "dev" && Lower("DEV") == "dev"
  {
    LowerKeepsLowercase("dev");
    var l := Lower("DEV");
    assert l[0] == 'd' && l[1] == 'e' && l[2] == 'v';
  }

  /** The option loop on a dev shortcut followed by one forwarded argument. */
  lemma ScanDevThen(a: string, st: St)
    requires StartsWith(a, "--publish")
    ensures Scan(["--dev", a], 0, st) == Ok(st.(channel := "dev", passThrough := st.passThrough + [a]))
  {
    LowerKeepsLowercase("--dev");
    assert [] + ["--dev"] == ["--dev"];
    LastShortcutWins([], "--dev", st);
    PublishOptionPassesThrough(a);
    PassThroughAppends(["--dev"], a, st);
    assert ["--dev"] + [a] == ["--dev", a];
  }

  /** The option loop on a value option, its value and one forwarded
      argument. */
  lemma ScanValueOptionThen(flag: string, v: string, a: string, st: St)
    requires Classify(flag).ChannelFlag? && v != "" && v[0] != '-'
    requires Classify(a).PassThrough?
    ensures Scan([flag, v, a], 0, st) == Ok(st.(channel := v, passThrough := st.passThrough + [a]))
  {
    assert [] + [flag, v] == [flag, v];
    LastValueOptionWins([], flag, v, st);
    PassThroughAppends([flag, v], a, st);
    assert [flag, v] + [a] == [flag, v, a];
  }

  /** `--dev` then `--publish`: the parse succeeds and the publish check
      refuses it. */
  lemma DevShortcutPublishRefused(env: Env, defaultBuild: string)
    ensures Package(["--dev", "--publish"], env, defaultBuild) == Err(DevPublish)
  {
    assert "--publish"[..9] == "--publish";
    ScanDevThen("--publish", Initial(env));
    LowerKeepsLowercase("dev");
    PublishingOne("--publish");
  }

  /** A channel option whose value lower-cases to "dev", followed by a
      publish request: the parse succeeds and the publish check refuses it. */
  lemma DevValuePublishRefused(flag: string, v: string, a: string, env: Env, defaultBuild: string)
    requires Classify(flag).ChannelFlag? && v != "" && v[0] != '-' && Lower(v) == "dev"
    requires StartsWith(a, "--publish") && IsPublishArg(a)
    ensures Package([flag, v, a], env, defaultBuild) == Err(DevPublish)
  {
    PublishOptionPassesThrough(a);
    ScanValueOptionThen(flag, v, a, Initial(env));
    assert [a][0] == a;
    var p := ParseArgs([flag, v, a], env, defaultBuild);
    assert p == Ok(Parsed("dev", if Initial(env).buildNumber == "" then defaultBuild else Initial(env).buildNumber, [a]));
    assert IsPublishing([a]);
  }

  /** `--dev` with `--publish=never` builds without publishing. */
  lemma DevWithoutPublishAllowed(a: string, env: Env, defaultBuild: string)
    requires a == "--publish=" + "never"
    ensures Package(["--dev", a], env, defaultBuild).Ok?
    ensures Package(["--dev", a], env, defaultBuild).value.releaseType.None?
  {
    assert a[..9] == "--publish";
    ScanDevThen(a, Initial(env));
    LowerKeepsLowercase("dev");
    PublishNever(a);
  }
}

=== FILE: preset_store.dfy ===
/** The focus preset store of the main process (`FocusPresetStore`): the
    user's custom presets, kept sorted by name, and the id of the selected
    preset, persisted as one JSON file.

    The file system is replaced by the `FileState` the store reads and the
    one it writes, `crypto.randomUUID` by ids passed in, and
    `String.prototype.localeCompare` by a collation key on names. */
module PresetStore {
  import opened Common
  import opened FocusPresets

  // ---------------------------------------------------------------------
  // Input sanitation

  /** A JavaScript number as it reaches `clampDuration`. */
  datatype Number = NaN | PosInfinity | NegInfinity | Finite(value: real)

  /** `clampDuration(value, min, max)`: NaN becomes `min`, everything else
      is truncated and clamped. */
  function ClampDuration(v: Number, lo: int, hi: int): (r: int)
    ensures lo <= hi ==> lo <= r <= hi
    ensures v.NaN? ==> r == lo
    ensures lo <= hi && v.NegInfinity? ==> r == lo
    ensures v.PosInfinity? ==> r == hi
    ensures v.Finite? && lo <= Trunc(v.value) <= hi ==> r == Trunc(v.value)
    ensures v.Finite? && lo <= hi && Trunc(v.value) < lo ==> r == lo
    ensures v.Finite? && Trunc(v.value) > hi ==> r == hi
  {
    match v
    case NaN => lo
    case PosInfinity => hi
    case NegInfinity => if lo <= hi then lo else hi
    case Finite(x) => ClampInt(Trunc(x), lo, hi)
  }

  /** The characters `String.prototype.trim` removes (ECMAScript white
      space and line terminators). */
  predicate IsSpace(c: char) {
    c in WhiteSpace
  }

  const WhiteSpace: set<char> := {
    '\U{9}', '\U{A}', '\U{B}', '\U{C}', '\U{D}', '\U{20}', '\U{A0}', '\U{1680}',
    '\U{2000}', '\U{2001}', '\U{2002}', '\U{2003}', '\U{2004}', '\U{2005}', '\U{2006}', '\U{2007}',
    '\U{2008}', '\U{2009}', '\U{200A}', '\U{2028}', '\U{2029}', '\U{202F}', '\U{205F}', '\U{3000}', '\U{FEFF}'}

  /** Drops leading white space. */
  function TrimStart(s: string): (r: string)
    ensures |r| <= |s|
    ensures forall i :: 0 <= i < |s| - |r| ==> IsSpace(s[i])
    ensures |r| > 0 ==> !IsSpace(r[0])
  {
    if |s| > 0 && IsSpace(s[0]) then
      var r := TrimStart(s[1..]);
      assert forall i :: 1 <= i < |s| ==> s[i] == s[1..][i - 1];
      r
    else s
  }

  /** Drops trailing white space. */
  function TrimEnd(s: string): (r: string)
    ensures |r| <= |s|
    ensures forall i :: |r| <= i < |s| ==> IsSpace(s[i])
    ensures |r| > 0 ==> !IsSpace(r[|r| - 1])
  {
    if |s| > 0 && IsSpace(s[|s| - 1]) then TrimEnd(s[..|s| - 1]) else s
  }

  /** Where the trimmed text starts. */
  function TrimOffset(s: string): (k: nat)
    ensures k <= |s|
  {
    |s| - |TrimStart(s)|
  }

  /** `String.prototype.trim`: a slice of the input that neither starts nor
      ends with white space, and everything it drops is white space. */
  function Trim(s: string): (r: string)
    ensures TrimOffset(s) + |r| <= |s|
    ensures forall i :: 0 <= i < TrimOffset(s) ==> IsSpace(s[i])
    ensures forall i :: TrimOffset(s) + |r| <= i < |s| ==> IsSpace(s[i])
    ensures |r| > 0 ==> !IsSpace(r[0]) && !IsSpace(r[|r| - 1])
  {
    var a := TrimStart(s);
    var r := TrimEnd(a);
    assert TrimOffset(s) == |s| - |a|;
    TrimStartIsSuffix(s);
    TrimEndIsPrefix(a);
    TrimTail(s, a, r);
    assert |r| > 0 ==> r[0] == a[0];
    r
  }

  /** What `TrimStart` keeps is a suffix of its input. */
  lemma {:induction false} TrimStartIsSuffix(s: string)
    ensures TrimStart(s) == s[|s| - |TrimStart(s)|..]
    decreases |s|
  {
    if |s| > 0 && IsSpace(s[0]) {
      TrimStartIsSuffix(s[1..]);
      assert s[1..][|s[1..]| - |TrimStart(s[1..])|..] == s[|s| - |TrimStart(s)|..];
    }
  }

  /** What `TrimEnd` keeps is a prefix of its input. */
  lemma {:induction false} TrimEndIsPrefix(s: string)
    ensures TrimEnd(s) == s[..|TrimEnd(s)|]
    decreases |s|
  {
    if |s| > 0 && IsSpace(s[|s| - 1]) {
      TrimEndIsPrefix(s[..|s| - 1]);
      assert s[..|s| - 1][..|TrimEnd(s)|] == s[..|TrimEnd(s)|];
    }
  }

  /** `Trim` keeps the slice of its input between the white space it drops. */
  lemma TrimIsSlice(s: string)
    ensures Trim(s) == s[TrimOffset(s)..TrimOffset(s) + |Trim(s)|]
  {
    var a := TrimStart(s);
    TrimStartIsSuffix(s);
    TrimEndIsPrefix(a);
    assert a[..|Trim(s)|] == s[TrimOffset(s)..TrimOffset(s) + |Trim(s)|];
  }

  /** Trimming the front, then the back, drops only white space at the back. */
  lemma TrimTail(s: string, a: string, r: string)
    requires |a| <= |s| && a == s[|s| - |a|..]
    requires |r| <= |a| && forall i :: |r| <= i < |a| ==> IsSpace(a[i])
    ensures forall i :: |s| - |a| + |r| <= i < |s| ==> IsSpace(s[i])
  {
    var k := |s| - |a|;
    forall i | k + |r| <= i < |s|
      ensures IsSpace(s[i])
    {
      assert s[i] == a[i - k];
    }
  }

  /** A string with no white space at either end is its own trim. */
  lemma TrimOfTrimmed(s: string)
    requires |s| > 0 ==> !IsSpace(s[0]) && !IsSpace(s[|s| - 1])
    ensures Trim(s) == s
  {
  }

  /** Trimming twice is trimming once. */
  lemma TrimIdempotent(s: string)
    ensures Trim(Trim(s)) == Trim(s)
  {
    TrimOfTrimmed(Trim(s));
  }

  const FallbackName: string := "Custom Preset"
  const MaxNameLength: nat := 80

  /** `sanitizeName`: the trimmed name cut to 80 characters, or the
      fallback name when nothing is left. */
  function SanitizeName(name: string): (r: string)
    ensures 1 <= |r| <= MaxNameLength
    ensures |Trim(name)| == 0 ==> r == FallbackName
    ensures |Trim(name)| > 0 ==>
      && r <= Trim(name)
      && |r| == (if |Trim(name)| < MaxNameLength then |Trim(name)| else MaxNameLength)
  {
    var t := Trim(name);
    if |t| == 0 then FallbackName
    else if |t| <= MaxNameLength then t
    else t[..MaxNameLength]
  }

  /** A name that `sanitizeName` leaves as it is: trimmed, non-empty and
      at most 80 characters. */
  predicate StableName(name: string) {
    1 <= |name| <= MaxNameLength && !IsSpace(name[0]) && !IsSpace(name[|name| - 1])
  }

  /** Sanitizing a stable name changes nothing. */
  lemma SanitizeStableName(name: string)
    requires StableName(name)
    ensures SanitizeName(name) == name
  {
    TrimOfTrimmed(name);
  }

  /** The fallback name is itself stable. */
  lemma FallbackNameStable()
    ensures StableName(FallbackName)
    ensures SanitizeName(FallbackName) == FallbackName
  {
    assert FallbackName[0] == 'C' && FallbackName[|FallbackName| - 1] == 't';
    SanitizeStableName(FallbackName);
  }

  /** Cutting at 80 characters can expose white space: a long name whose
      81st character follows a space is stored with a trailing space, and
      sanitizing that again removes it. */
  lemma LongNameDriftsOnResanitize(head: string, last: char)
    requires |head| == MaxNameLength - 1 && !IsSpace(head[0]) && !IsSpace(head[|head| - 1])
    requires !IsSpace(last)
    ensures var name := head + [' ', last];
      && SanitizeName(name) == head + " "
      && SanitizeName(SanitizeName(name)) == head
      && SanitizeName(SanitizeName(name)) != SanitizeName(name)
  {
    SanitizeCutsAfterSpace(head, last);
    SanitizeDropsTrailingSpace(head);
    assert |head + " "| != |head|;
  }

  lemma SanitizeCutsAfterSpace(head: string, last: char)
    requires |head| == MaxNameLength - 1 && !IsSpace(head[0])
    requires !IsSpace(last)
    ensures SanitizeName(head + [' ', last]) == head + " "
  {
    var name := head + [' ', last];
    assert Trim(name) == name by {
      assert name[0] == head[0] && name[|name| - 1] == last;
      TrimOfTrimmed(name);
    }
    assert |name| == MaxNameLength + 1;
    assert SanitizeName(name) == name[..MaxNameLength];
    assert name[..MaxNameLength] == head + " ";
  }

  lemma SanitizeDropsTrailingSpace(head: string)
    requires |head| == MaxNameLength - 1 && !IsSpace(head[0]) && !IsSpace(head[|head| - 1])
    ensures SanitizeName(head + " ") == head
  {
    var cut := head + " ";
    assert IsSpace(' ');
    assert cut[..|cut| - 1] == head;
    assert TrimEnd(head) == head;
    assert TrimEnd(cut) == head;
    assert TrimStart(cut) == cut;
    assert Trim(cut) == head;
  }

  /** `payload.description?.trim() || undefined`, and the equivalent test
      in `sanitizeStoredPreset`: a description survives only when
      something is left after trimming. */
  function CleanDescription(d: Option<string>): (r: Option<string>)
    ensures r.Some? <==> d.Some? && |Trim(d.value)| > 0
    ensures r.Some? ==> r.value == Trim(d.value) && !IsSpace(r.value[0])
  {
    if d.Some? && |Trim(d.value)| > 0 then Some(Trim(d.value)) else None
  }

  // ---------------------------------------------------------------------
  // Sorting by name

  /** `localeCompare` on names, as a collation key: one name sorts no
      later than another when its key is no greater. Every consistent total
      ordering of the (countably many) strings has such a key. */
  type Collation = string -> real

  /** Where a preset's name falls in the collation. */
  function Rank(p: Preset, key: Collation): real {
    key(p.name)
  }

  predicate SortedByName(ps: seq<Preset>, key: Collation) {
    forall i, j :: 0 <= i < j < |ps| ==> Rank(ps[i], key) <= Rank(ps[j], key)
  }

  /** Inserts `p` after every preset whose name does not sort after it. */
  function Insert(p: Preset, s: seq<Preset>, key: Collation): (r: seq<Preset>)
    ensures multiset(r) == multiset(s) + multiset{p}
    ensures |r| == |s| + 1
    ensures (forall i :: 0 <= i < |s| ==> Rank(s[i], key) <= Rank(p, key)) ==> r == s + [p]
  {
    if |s| == 0 then [p]
    else if Rank(p, key) < Rank(s[0], key) then [p] + s
    else
      var rest := Insert(p, s[1..], key);
      assert s == [s[0]] + s[1..];
      assert forall i :: 1 <= i < |s| ==> s[i] == s[1..][i - 1];
      [s[0]] + rest
  }

  /** Every element of a sorted list sorts no earlier than its head. */
  lemma HeadIsLeast(s: seq<Preset>, key: Collation, x: Preset)
    requires SortedByName(s, key) && |s| > 0 && x in s[1..]
    ensures Rank(s[0], key) <= Rank(x, key)
  {
    var k :| 0 <= k < |s[1..]| && s[1..][k] == x;
    assert s[k + 1] == x;
  }

  lemma {:induction false} InsertSorted(p: Preset, s: seq<Preset>, key: Collation)
    requires SortedByName(s, key)
    ensures SortedByName(Insert(p, s, key), key)
  {
    if |s| == 0 {
    } else if Rank(s[0], key) <= Rank(p, key) {
      SortedTail(s, key);
      InsertSorted(p, s[1..], key);
      var rest := Insert(p, s[1..], key);
      HeadBeforeInserted(p, s, key);
      assert Insert(p, s, key) == [s[0]] + rest;
      ConsSorted(s[0], rest, key);
    } else {
      ConsSorted(p, s, key);
    }
  }

  lemma SortedTail(s: seq<Preset>, key: Collation)
    requires SortedByName(s, key) && |s| > 0
    ensures SortedByName(s[1..], key)
  {
    forall i, j | 0 <= i < j < |s| - 1
      ensures Rank(s[1..][i], key) <= Rank(s[1..][j], key)
    {
      assert s[1..][i] == s[i + 1] && s[1..][j] == s[j + 1];
    }
  }

  /** The head of a sorted list sorts before everything inserted after it. */
  lemma HeadBeforeInserted(p: Preset, s: seq<Preset>, key: Collation)
    requires SortedByName(s, key) && |s| > 0 && Rank(s[0], key) <= Rank(p, key)
    ensures forall x :: x in Insert(p, s[1..], key) ==> Rank(s[0], key) <= Rank(x, key)
  {
    var rest := Insert(p, s[1..], key);
    forall x | x in rest
      ensures Rank(s[0], key) <= Rank(x, key)
    {
      assert x in multiset(rest);
      if x != p {
        assert x in multiset(s[1..]);
        HeadIsLeast(s, key, x);
      }
    }
  }

  /** A sorted list stays sorted behind an element that sorts first. */
  lemma ConsSorted(h: Preset, s: seq<Preset>, key: Collation)
    requires SortedByName(s, key)
    requires forall x :: x in s ==> Rank(h, key) <= Rank(x, key)
    ensures SortedByName([h] + s, key)
  {
    var r := [h] + s;
    forall i, j | 0 <= i < j < |r|
      ensures Rank(r[i], key) <= Rank(r[j], key)
    {
      assert r[j] == s[j - 1];
      if i > 0 {
        assert r[i] == s[i - 1];
      }
    }
  }

  /** `Array.prototype.sort` with the name comparison: a stable insertion
      sort, a permutation of its input, sorted by the collation key. */
  function SortByName(ps: seq<Preset>, key: Collation): (r: seq<Preset>)
    ensures multiset(r) == multiset(ps) && |r| == |ps|
    ensures SortedByName(r, key)
    decreases |ps|
  {
    if |ps| == 0 then []
    else
      var init := ps[..|ps| - 1];
      var sorted := SortByName(init, key);
      assert ps == init + [ps[|ps| - 1]];
      InsertSorted(ps[|ps| - 1], sorted, key);
      Insert(ps[|ps| - 1], sorted, key)
  }

  /** Sorting an already sorted list leaves it as it is. */
  lemma {:induction false} SortSortedIsIdentity(ps: seq<Preset>, key: Collation)
    requires SortedByName(ps, key)
    ensures SortByName(ps, key) == ps
    decreases |ps|
  {
    if |ps| > 0 {
      var init := ps[..|ps| - 1];
      var last := ps[|ps| - 1];
      SortedSplit(ps, key);
      SortSortedIsIdentity(init, key);
      assert SortByName(ps, key) == Insert(last, SortByName(init, key), key);
      InsertAfterAll(last, init, key);
      assert init + [last] == ps;
    }
  }

  /** Every preset of `s` sorts no later than `p`. */
  predicate AllBefore(s: seq<Preset>, p: Preset, key: Collation) {
    forall i :: 0 <= i < |s| ==> Rank(s[i], key) <= Rank(p, key)
  }

  /** A sorted list is its sorted front followed by an element all of
      them sort before. */
  lemma SortedSplit(ps: seq<Preset>, key: Collation)
    requires SortedByName(ps, key) && |ps| > 0
    ensures SortedByName(ps[..|ps| - 1], key)
    ensures AllBefore(ps[..|ps| - 1], ps[|ps| - 1], key)
  {
    var init := ps[..|ps| - 1];
    forall i, j | 0 <= i < j < |init|
      ensures Rank(init[i], key) <= Rank(init[j], key)
    {
      assert init[i] == ps[i] && init[j] == ps[j];
    }
    forall i | 0 <= i < |init|
      ensures Rank(init[i], key) <= Rank(ps[|ps| - 1], key)
    {
      assert init[i] == ps[i];
    }
  }

  /** Inserting a preset every other one sorts before appends it. */
  lemma InsertAfterAll(p: Preset, s: seq<Preset>, key: Collation)
    requires AllBefore(s, p, key)
    ensures Insert(p, s, key) == s + [p]
  {
  }

  // ---------------------------------------------------------------------
  // The store

  /** The store's state: the custom presets and the selected id. */
  datatype Store = Store(customs: seq<Preset>, selectedId: string)

  /** The state of a store with no file yet, or an unreadable one. */
  const EmptyStore: Store := Store([], DefaultPresetId)

  predicate HasCustom(st: Store, id: string) {
    exists i :: 0 <= i < |st.customs| && st.customs[i].id == id
  }

  /** `findPresetById`: custom presets first, then the built-in table. */
  function FindPresetById(st: Store, id: string): (r: Option<Preset>)
    ensures HasCustom(st, id) ==> r == FindById(st.customs, id)
    ensures !HasCustom(st, id) ==> r == GetBuiltInPresetById(id)
    ensures r.Some? ==> r.value.id == id
  {
    var custom := FindById(st.customs, id);
    if custom.Some? then custom else GetBuiltInPresetById(id)
  }

  /** The custom presets as `getPresets` lists them. */
  function MarkCustom(ps: seq<Preset>): (r: seq<Preset>)
    ensures |r| == |ps|
    ensures forall i :: 0 <= i < |ps| ==> r[i] == ps[i].(builtIn := false)
  {
    if |ps| == 0 then [] else [ps[0].(builtIn := false)] + MarkCustom(ps[1..])
  }

  /** `getPresets()`: the built-in table followed by the custom presets. */
  function GetPresets(st: Store): (r: seq<Preset>)
    ensures |r| == |BuiltInPresets| + |st.customs|
    ensures r[..|BuiltInPresets|] == BuiltInPresets
    ensures forall i :: 0 <= i < |st.customs| ==>
      r[|BuiltInPresets| + i] == st.customs[i].(builtIn := false)
  {
    BuiltInPresets + MarkCustom(st.customs)
  }

  /** `getSelectedPreset()`: the selected preset, or the first built-in one
      when the id resolves to nothing. */
  function GetSelectedPreset(st: Store): (p: Preset)
    ensures FindPresetById(st, st.selectedId).Some? ==> p == FindPresetById(st, st.selectedId).value
    ensures FindPresetById(st, st.selectedId).None? ==> p == BuiltInPresets[0]
    ensures p.id == st.selectedId || p == BuiltInPresets[0]
  {
    FindPresetById(st, st.selectedId).GetOr(BuiltInPresets[0])
  }

  /** `setSelectedPreset(presetId)`: selects the id when it resolves, the
      default preset otherwise, and returns the preset selected. */
  function SetSelectedPreset(st: Store, id: string): (r: (Store, Preset))
    ensures r.0.customs == st.customs && r.0.selectedId == r.1.id
    ensures FindPresetById(st, id).Some? ==> r.1 == FindPresetById(st, id).value && r.1.id == id
    ensures FindPresetById(st, id).None? ==> r.1 == BuiltInPresets[0] && r.0.selectedId == DefaultPresetId
  {
    var resolved := FindPresetById(st, id).GetOr(BuiltInPresets[0]);
    (st.(selectedId := resolved.id), resolved)
  }

  /** The fields the renderer sends for a new or edited preset. */
  datatype Payload = Payload(name: string, work: Number, brk: Number, description: Option<string>)

  /** `createPreset(payload)` with `newId` from the id generator: appends
      the sanitized preset and re-sorts. */
  function CreatePreset(st: Store, payload: Payload, newId: string, key: Collation): (r: (Store, Preset))
    ensures r.1.id == newId && !r.1.builtIn && r.1.section.None? && InRange(r.1)
    ensures r.1.name == SanitizeName(payload.name)
    ensures r.1.workDurationMinutes == ClampDuration(payload.work, 1, 180)
    ensures r.1.breakDurationMinutes == ClampDuration(payload.brk, 1, 60)
    ensures r.1.description == CleanDescription(payload.description)
    ensures multiset(r.0.customs) == multiset(st.customs) + multiset{r.1}
    ensures r.0.selectedId == st.selectedId
    ensures SortedByName(r.0.customs, key)
  {
    var p := Preset(newId, SanitizeName(payload.name), ClampDuration(payload.work, 1, 180),
      ClampDuration(payload.brk, 1, 60), CleanDescription(payload.description), None, false);
    (st.(customs := SortByName(st.customs + [p], key)), p)
  }

  /** `updatePreset(presetId, payload)`: rewrites the first custom preset
      with that id, keeping its id, and re-sorts; `None` (the source's
      `null`) when no custom preset has the id. */
  function UpdatePreset(st: Store, id: string, payload: Payload, key: Collation): (r: (Store, Option<Preset>))
    ensures r.1.None? <==> !HasCustom(st, id)
    ensures r.1.None? ==> r.0 == st
    ensures r.1.Some? ==>
      var before := FindById(st.customs, id).value;
      && r.1.value.id == id && InRange(r.1.value)
      && r.1.value.builtIn == before.builtIn && r.1.value.section == before.section
      && r.1.value.name == SanitizeName(payload.name)
      && r.1.value.workDurationMinutes == ClampDuration(payload.work, 1, 180)
      && r.1.value.breakDurationMinutes == ClampDuration(payload.brk, 1, 60)
      && r.1.value.description == CleanDescription(payload.description)
      && multiset(r.0.customs) == multiset(st.customs) - multiset{before} + multiset{r.1.value}
      && r.0.selectedId == st.selectedId
      && SortedByName(r.0.customs, key)
  {
    var k := FirstIndex(st.customs, id);
    if k == |st.customs| then (st, None)
    else
      var updated := st.customs[k].(
        name := SanitizeName(payload.name),
        workDurationMinutes := ClampDuration(payload.work, 1, 180),
        breakDurationMinutes := ClampDuration(payload.brk, 1, 60),
        description := CleanDescription(payload.description));
      var replaced := st.customs[k := updated];
      assert multiset(replaced) == multiset(st.customs) - multiset{st.customs[k]} + multiset{updated};
      (st.(customs := SortByName(replaced, key)), Some(updated))
  }

  /** `deletePreset(presetId)`: removes the first custom preset with that
      id; a deleted selection falls back to the default id. */
  function DeletePreset(st: Store, id: string): (r: (Store, bool))
    ensures r.1 <==> HasCustom(st, id)
    ensures !r.1 ==> r.0 == st
    ensures r.1 ==>
      && multiset(r.0.customs) == multiset(st.customs) - multiset{FindById(st.customs, id).value}
      && |r.0.customs| == |st.customs| - 1
      && r.0.selectedId == (if st.selectedId == id then DefaultPresetId else st.selectedId)
  {
    var k := FirstIndex(st.customs, id);
    if k == |st.customs| then (st, false)
    else (Store(RemoveAt(st.customs, k), if st.selectedId == id then DefaultPresetId else st.selectedId), true)
  }

  /** Deleting keeps the remaining presets in their order. */
  lemma DeleteKeepsOrder(st: Store, id: string, key: Collation)
    requires SortedByName(st.customs, key)
    ensures SortedByName(DeletePreset(st, id).0.customs, key)
  {
    var k := FirstIndex(st.customs, id);
    if k < |st.customs| {
      var r := RemoveAt(st.customs, k);
      forall i, j | 0 <= i < j < |r|
        ensures Rank(r[i], key) <= Rank(r[j], key)
      {
        assert r[i] == st.customs[if i < k then i else i + 1];
        assert r[j] == st.customs[if j < k then j else j + 1];
      }
    }
  }

  // ---------------------------------------------------------------------
  // The file

  /** A stored preset as read back from JSON: a field that is not a string
      is `None`; the durations have been through `Number(...)`. */
  datatype StoredPreset = StoredPreset(
    id: Option<string>, name: Option<string>, work: Number, brk: Number, description: Option<string>)

  /** One element of the stored `customPresets` array. */
  datatype Entry = NotAnObject | Object(preset: StoredPreset)

  /** What the store finds on disk: no file, a file `JSON.parse` rejects
      (or whose value has no properties), or a parsed object whose
      `customPresets` may not be an array and whose `selectedPresetId` may
      not be a string. */
  datatype FileState =
    | Missing
    | Corrupt
    | Parsed(customPresets: Option<seq<Entry>>, selectedPresetId: Option<string>)

  /** `sanitizeStoredPreset(preset)`, with `freshId` used when the stored
      id is missing or blank. */
  function SanitizeStoredPreset(e: Entry, freshId: string): (r: Option<Preset>)
    ensures r.None? <==> e.NotAnObject?
    ensures r.Some? ==> InRange(r.value) && !r.value.builtIn && r.value.section.None?
    ensures r.Some? ==> 1 <= |r.value.name| <= MaxNameLength
    ensures r.Some? && e.preset.id.Some? && |Trim(e.preset.id.value)| > 0 ==> r.value.id == e.preset.id.value
    ensures r.Some? && !(e.preset.id.Some? && |Trim(e.preset.id.value)| > 0) ==> r.value.id == freshId
    ensures r.Some? ==> r.value.description == CleanDescription(e.preset.description)
  {
    match e
    case NotAnObject => None
    case Object(s) =>
      var name := if s.name.Some? then SanitizeName(s.name.value) else FallbackName;
      var id := if s.id.Some? && |Trim(s.id.value)| > 0 then s.id.value else freshId;
      Some(Preset(id, name, ClampDuration(s.work, 1, 180), ClampDuration(s.brk, 1, 60),
        CleanDescription(s.description), None, false))
  }

  /** The number of entries that are objects. */
  function CountObjects(entries: seq<Entry>): (n: nat)
    ensures n <= |entries|
  {
    if |entries| == 0 then 0
    else (if entries[0].Object? then 1 else 0) + CountObjects(entries[1..])
  }

  /** The map-and-filter of `load`: entry `k` that needs an id gets
      `newIds(k)`. */
  function SanitizeEntries(entries: seq<Entry>, newIds: nat -> string, k: nat): (r: seq<Preset>)
    ensures |r| == CountObjects(entries)
    ensures forall p :: p in r ==> InRange(p) && !p.builtIn && p.section.None? && 1 <= |p.name| <= MaxNameLength
    decreases |entries|
  {
    if |entries| == 0 then []
    else
      var head := SanitizeStoredPreset(entries[0], newIds(k));
      var tail := SanitizeEntries(entries[1..], newIds, k + 1);
      if head.Some? then [head.value] + tail else tail
  }

  /** The sanitizer `load` maps over the entries, as a function of an
      entry and its position. */
  function Sanitizer(newIds: nat -> string): (Entry, nat) -> Option<Preset> {
    (e: Entry, j: nat) => SanitizeStoredPreset(e, newIds(j))
  }

  /** `SanitizeEntries` is the map-and-filter of `Sanitizer`. */
  lemma {:induction false} SanitizeEntriesIsFilterMap(entries: seq<Entry>, newIds: nat -> string, k: nat)
    ensures SanitizeEntries(entries, newIds, k) == FilterMap(entries, Sanitizer(newIds), k)
    decreases |entries|
  {
    if |entries| > 0 {
      SanitizeEntriesIsFilterMap(entries[1..], newIds, k + 1);
      assert Sanitizer(newIds)(entries[0], k) == SanitizeStoredPreset(entries[0], newIds(k));
    }
  }

  /** Every object entry survives sanitizing, in order: entry `i` of the
      file is the preset at the position counting the objects before it,
      sanitized with `newIds(k + i)`. */
  lemma SanitizeEntriesKeepsObjects(entries: seq<Entry>, newIds: nat -> string, k: nat, i: nat)
    requires i < |entries| && entries[i].Object?
    ensures CountObjects(entries[..i]) < |SanitizeEntries(entries, newIds, k)|
    ensures SanitizeEntries(entries, newIds, k)[CountObjects(entries[..i])]
      == SanitizeStoredPreset(entries[i], newIds(k + i)).value
  {
    SanitizeEntriesIsFilterMap(entries, newIds, k);
    SanitizeEntriesIsFilterMap(entries[..i], newIds, k);
    assert Sanitizer(newIds)(entries[i], k + i) == SanitizeStoredPreset(entries[i], newIds(k + i));
    FilterMapKeeps(entries, Sanitizer(newIds), k, i);
  }

  /** `load()`: the store's state after reading the file. The selected id
      is kept only when it resolves against the loaded presets. */
  function Load(f: FileState, newIds: nat -> string, key: Collation): (st: Store)
    ensures !f.Parsed? ==> st == EmptyStore
    ensures f.Parsed? && f.customPresets.None? ==> st.customs == []
    ensures FindPresetById(st, st.selectedId).Some?
    ensures forall p :: p in st.customs ==> InRange(p) && !p.builtIn && p.section.None?
    ensures SortedByName(st.customs, key)
    ensures st.selectedId == DefaultPresetId || (f.Parsed? && f.selectedPresetId == Some(st.selectedId))
    ensures f.Parsed? && f.customPresets.Some? ==>
      multiset(st.customs) == multiset(SanitizeEntries(f.customPresets.value, newIds, 0))
    ensures f.Parsed? && f.selectedPresetId.Some? && FindPresetById(st, f.selectedPresetId.value).Some? ==>
      st.selectedId == f.selectedPresetId.value
  {
    DefaultIsFirst();
    match f
    case Missing => EmptyStore
    case Corrupt => EmptyStore
    case Parsed(entries, selected) =>
      LoadPresets(if entries.Some? then SanitizeEntries(entries.value, newIds, 0) else [], selected, key)
  }

  /** The store `load` builds from the sanitized presets and the stored
      selection. */
  function LoadPresets(customs: seq<Preset>, selected: Option<string>, key: Collation): (st: Store)
    ensures FindPresetById(st, st.selectedId).Some?
    ensures forall p :: p in st.customs ==> p in customs
    ensures multiset(st.customs) == multiset(customs)
    ensures SortedByName(st.customs, key)
    ensures st.selectedId == DefaultPresetId || selected == Some(st.selectedId)
    ensures selected.Some? && FindPresetById(st, selected.value).Some? ==> st.selectedId == selected.value
  {
    var id := SelectionAfterLoad(customs, selected);
    var sorted := SortByName(customs, key);
    SameMembers(customs, sorted);
    SameCustomsResolveAlike(customs, sorted, id, id, id);
    SameCustomsResolveAlike(customs, sorted, DefaultPresetId, id, selected.GetOr(id));
    Store(sorted, id)
  }

  /** The selection `load` keeps: the stored id when it resolves against
      the loaded presets, the default id otherwise. */
  function SelectionAfterLoad(customs: seq<Preset>, selected: Option<string>): (id: string)
    ensures FindPresetById(Store(customs, id), id).Some?
    ensures id == DefaultPresetId || selected == Some(id)
    ensures selected.Some? && FindPresetById(Store(customs, id), selected.value).Some? ==> id == selected.value
  {
    DefaultIsFirst();
    if selected.Some? && FindPresetById(Store(customs, DefaultPresetId), selected.value).Some?
    then selected.value else DefaultPresetId
  }

  /** Lists with the same multiset have the same members. */
  lemma SameMembers(a: seq<Preset>, b: seq<Preset>)
    requires multiset(a) == multiset(b)
    ensures forall x :: x in a <==> x in b
  {
    forall x
      ensures x in a <==> x in b
    {
      assert x in a <==> x in multiset(a);
      assert x in b <==> x in multiset(b);
    }
  }

  /** Reordering the custom presets does not change which ids resolve. */
  lemma SameCustomsResolveAlike(a: seq<Preset>, b: seq<Preset>, x: string, y: string, id: string)
    requires multiset(a) == multiset(b)
    ensures FindPresetById(Store(a, x), id).Some? == FindPresetById(Store(b, y), id).Some?
  {
    if HasCustom(Store(a, x), id) {
      var i :| 0 <= i < |a| && a[i].id == id;
      assert a[i] in multiset(b);
      var j :| 0 <= j < |b| && b[j] == a[i];
    }
    if HasCustom(Store(b, y), id) {
      var j :| 0 <= j < |b| && b[j].id == id;
      assert b[j] in multiset(a);
      var i :| 0 <= i < |a| && a[i] == b[j];
    }
  }

  /** One preset as `save()` writes it (the `builtIn` flag is dropped). */
  function ToStored(p: Preset): (e: Entry)
    ensures e.Object? && e.preset.id == Some(p.id) && e.preset.name == Some(p.name)
    ensures e.preset.work == Finite(p.workDurationMinutes as real)
    ensures e.preset.brk == Finite(p.breakDurationMinutes as real)
    ensures e.preset.description == p.description
  {
    Object(StoredPreset(Some(p.id), Some(p.name), Finite(p.workDurationMinutes as real),
      Finite(p.breakDurationMinutes as real), p.description))
  }

  function StoreAll(ps: seq<Preset>): (r: seq<Entry>)
    ensures |r| == |ps| && forall i :: 0 <= i < |ps| ==> r[i] == ToStored(ps[i])
  {
    seq(|ps|, i requires 0 <= i < |ps| => ToStored(ps[i]))
  }

  /** `save()`: the file contents for the current state. */
  function Save(st: Store): (f: FileState)
    ensures f.Parsed? && f.selectedPresetId == Some(st.selectedId)
    ensures f.customPresets.Some? && |f.customPresets.value| == |st.customs|
  {
    Parsed(Some(StoreAll(st.customs)), Some(st.selectedId))
  }

  // ---------------------------------------------------------------------
  // Properties of the store

  /** A custom preset the file reproduces exactly: the shape the store
      gives every preset, a stable name, an id that is not blank and a
      trimmed description. */
  predicate Reloadable(p: Preset) {
    && InRange(p) && !p.builtIn && p.section.None?
    && StableName(p.name)
    && |Trim(p.id)| > 0
    && (p.description.Some? ==>
          (|p.description.value| > 0 && !IsSpace(p.description.value[0])
           && !IsSpace(p.description.value[|p.description.value| - 1])))
  }

  /** What every operation keeps: the selection resolves, the custom
      presets are in range and sorted. */
  predicate Invariant(st: Store, key: Collation) {
    && FindPresetById(st, st.selectedId).Some?
    && (forall p :: p in st.customs ==> InRange(p) && !p.builtIn && p.section.None?)
    && SortedByName(st.customs, key)
  }

  /** Any one of a list of reloadable presets, as `save()` writes it,
      sanitizes back to itself whatever spare id is offered. */
  lemma {:induction false} ReloadOne(ps: seq<Preset>, i: nat, spareId: string)
    requires i < |ps| && forall q :: q in ps ==> Reloadable(q)
    ensures SanitizeStoredPreset(ToStored(ps[i]), spareId) == Some(ps[i])
  {
    var p := ps[i];
    assert Reloadable(p);
    var e := ToStored(p);
    SanitizeStableName(p.name);
    assert Trunc(p.workDurationMinutes as real) == p.workDurationMinutes;
    assert Trunc(p.breakDurationMinutes as real) == p.breakDurationMinutes;
    assert ClampDuration(e.preset.work, 1, 180) == p.workDurationMinutes;
    assert ClampDuration(e.preset.brk, 1, 60) == p.breakDurationMinutes;
    if p.description.Some? {
      TrimOfTrimmed(p.description.value);
    }
    assert CleanDescription(e.preset.description) == p.description;
  }

  /** Entry `i` sanitizes to preset `i`, offered spare id `newIds(k + i)`. */
  predicate SanitizesTo(entries: seq<Entry>, ps: seq<Preset>, newIds: nat -> string, k: nat) {
    && |entries| == |ps|
    && forall i :: 0 <= i < |ps| ==> SanitizeStoredPreset(entries[i], newIds(k + i)) == Some(ps[i])
  }

  /** Entries that each sanitize to the matching preset load back as
      exactly those presets. */
  lemma {:induction false} ReloadAll(entries: seq<Entry>, ps: seq<Preset>, newIds: nat -> string, k: nat)
    requires SanitizesTo(entries, ps, newIds, k)
    ensures SanitizeEntries(entries, newIds, k) == ps
    decreases |ps|
  {
    if |ps| > 0 {
      assert SanitizesTo(entries[1..], ps[1..], newIds, k + 1) by {
        forall i | 0 <= i < |ps[1..]|
          ensures SanitizeStoredPreset(entries[1..][i], newIds(k + 1 + i)) == Some(ps[1..][i])
        {
          assert SanitizeStoredPreset(entries[i + 1], newIds(k + (i + 1))) == Some(ps[i + 1]);
        }
      }
      ReloadAll(entries[1..], ps[1..], newIds, k + 1);
      assert SanitizeStoredPreset(entries[0], newIds(k + 0)) == Some(ps[0]);
      assert [ps[0]] + ps[1..] == ps;
    }
  }

  /** Reloadable presets, as `save()` writes them, sanitize back to themselves. */
  lemma ReloadStored(ps: seq<Preset>, newIds: nat -> string)
    requires forall p :: p in ps ==> Reloadable(p)
    ensures SanitizeEntries(StoreAll(ps), newIds, 0) == ps
  {
    ReloadEach(ps, newIds);
    ReloadAll(StoreAll(ps), ps, newIds, 0);
  }

  /** Entry by entry, the written list sanitizes back to the presets. */
  lemma ReloadEach(ps: seq<Preset>, newIds: nat -> string)
    requires forall p :: p in ps ==> Reloadable(p)
    ensures SanitizesTo(StoreAll(ps), ps, newIds, 0)
  {
    forall i | 0 <= i < |ps|
      ensures SanitizeStoredPreset(StoreAll(ps)[i], newIds(0 + i)) == Some(ps[i])
    {
      ReloadOne(ps, i, newIds(0 + i));
    }
  }

  /** Saving and loading again gives back the same store. */
  lemma SaveLoadRoundTrip(st: Store, newIds: nat -> string, key: Collation)
    requires Invariant(st, key)
    requires forall p :: p in st.customs ==> Reloadable(p)
    ensures Load(Save(st), newIds, key) == st
  {
    ReloadStored(st.customs, newIds);
    SortSortedIsIdentity(st.customs, key);
    LoadSortedFile(StoreAll(st.customs), st, newIds, key);
  }

  /** Loading entries that sanitize to an already sorted list, with a
      selection that resolves, gives back that list and selection. */
  lemma LoadSortedFile(entries: seq<Entry>, st: Store, newIds: nat -> string, key: Collation)
    requires SanitizeEntries(entries, newIds, 0) == st.customs
    requires SortByName(st.customs, key) == st.customs
    requires FindPresetById(st, st.selectedId).Some?
    ensures Load(Parsed(Some(entries), Some(st.selectedId)), newIds, key) == st
  {
    assert Load(Parsed(Some(entries), Some(st.selectedId)), newIds, key)
      == LoadPresets(st.customs, Some(st.selectedId), key);
    LoadPresetsSorted(st, key);
  }

  /** Sorted presets and a resolving selection come through `load`'s last
      step unchanged. */
  lemma LoadPresetsSorted(st: Store, key: Collation)
    requires SortByName(st.customs, key) == st.customs
    requires FindPresetById(st, st.selectedId).Some?
    ensures LoadPresets(st.customs, Some(st.selectedId), key) == st
  {
    var id := SelectionAfterLoad(st.customs, Some(st.selectedId));
    assert FindPresetById(Store(st.customs, id), st.selectedId) == FindPresetById(st, st.selectedId);
  }

  /** A missing or unreadable file gives the empty store, which already
      satisfies the invariant. */
  lemma EmptyStoreIsValid(key: Collation)
    ensures Invariant(EmptyStore, key)
    ensures GetSelectedPreset(EmptyStore) == BuiltInPresets[0]
  {
    DefaultIsFirst();
  }

  /** Selecting, creating, updating and deleting keep the invariant. */
  lemma OperationsPreserveInvariant(st: Store, id: string, payload: Payload, newId: string, key: Collation)
    requires Invariant(st, key)
    ensures Invariant(SetSelectedPreset(st, id).0, key)
    ensures Invariant(CreatePreset(st, payload, newId, key).0, key)
    ensures Invariant(UpdatePreset(st, id, payload, key).0, key)
    ensures Invariant(DeletePreset(st, id).0, key)
  {
    SelectKeepsInvariant(st, id, key);
    CreateKeepsInvariant(st, payload, newId, key);
    UpdateKeepsInvariant(st, id, payload, key);
    DeleteKeepsInvariant(st, id, key);
  }

  /** Members of a list after one element was swapped for another. */
  lemma MembersAfterReplace(a: seq<Preset>, b: seq<Preset>, out: Preset, added: Preset)
    requires out in a
    requires multiset(b) == multiset(a) - multiset{out} + multiset{added}
    ensures added in b
    ensures forall x :: x in b ==> x == added || x in a
    ensures forall x :: x in a && x != out ==> x in b
  {
    assert added in multiset(b);
    forall x | x in b
      ensures x == added || x in a
    {
      assert x in multiset(b);
      if x != added {
        assert x in multiset(a);
      }
    }
    forall x | x in a && x != out
      ensures x in b
    {
      assert x in multiset(a);
      assert x in multiset(b);
    }
  }

  /** Members of a list after one element was added. */
  lemma MembersAfterAdd(a: seq<Preset>, b: seq<Preset>, added: Preset)
    requires multiset(b) == multiset(a) + multiset{added}
    ensures forall x :: x in a ==> x in b
    ensures forall x :: x in b ==> x == added || x in a
  {
    forall x | x in a
      ensures x in b
    {
      assert x in multiset(a);
      assert x in multiset(b);
    }
    forall x | x in b
      ensures x == added || x in a
    {
      assert x in multiset(b);
      if x != added {
        assert x in multiset(a);
      }
    }
  }

  /** Members of a list after one element was removed. */
  lemma MembersAfterRemove(a: seq<Preset>, b: seq<Preset>, out: Preset)
    requires multiset(b) == multiset(a) - multiset{out}
    ensures forall x :: x in b ==> x in a
    ensures forall x :: x in a && x != out ==> x in b
  {
    forall x | x in b
      ensures x in a
    {
      assert x in multiset(b);
      assert x in multiset(a);
    }
    forall x | x in a && x != out
      ensures x in b
    {
      assert x in multiset(a);
      assert x in multiset(b);
    }
  }

  lemma SelectKeepsInvariant(st: Store, id: string, key: Collation)
    requires Invariant(st, key)
    ensures Invariant(SetSelectedPreset(st, id).0, key)
  {
    DefaultIsFirst();
  }

  /** An id that resolved still resolves once the custom presets holding
      it are kept. */
  lemma KeepsResolving(a: seq<Preset>, b: seq<Preset>, id: string)
    requires FindPresetById(Store(a, id), id).Some?
    requires HasCustom(Store(a, id), id) ==> HasCustom(Store(b, id), id)
    ensures FindPresetById(Store(b, id), id).Some?
  {
  }

  /** A preset kept in the list keeps its id findable. */
  lemma KeptIdFound(a: seq<Preset>, b: seq<Preset>, id: string)
    requires forall x :: x in a && x.id == id ==> x in b
    ensures HasCustom(Store(a, id), id) ==> HasCustom(Store(b, id), id)
  {
    if HasCustom(Store(a, id), id) {
      var i :| 0 <= i < |a| && a[i].id == id;
      assert a[i] in b;
      var j :| 0 <= j < |b| && b[j] == a[i];
    }
  }

  lemma CreateKeepsInvariant(st: Store, payload: Payload, newId: string, key: Collation)
    requires Invariant(st, key)
    ensures Invariant(CreatePreset(st, payload, newId, key).0, key)
  {
    var (c, p) := CreatePreset(st, payload, newId, key);
    MembersAfterAdd(st.customs, c.customs, p);
    KeptIdFound(st.customs, c.customs, st.selectedId);
    KeepsResolving(st.customs, c.customs, st.selectedId);
  }

  lemma UpdateKeepsInvariant(st: Store, id: string, payload: Payload, key: Collation)
    requires Invariant(st, key)
    ensures Invariant(UpdatePreset(st, id, payload, key).0, key)
  {
    var (u, r) := UpdatePreset(st, id, payload, key);
    if r.Some? {
      var before := FindById(st.customs, id).value;
      MembersAfterReplace(st.customs, u.customs, before, r.value);
      UpdateKeepsSelection(st.customs, u.customs, before, r.value, st.selectedId);
      KeepsResolving(st.customs, u.customs, st.selectedId);
    }
  }

  /** After one preset is swapped for another with the same id, every id
      found before is still found. */
  lemma UpdateKeepsSelection(a: seq<Preset>, b: seq<Preset>, out: Preset, added: Preset, id: string)
    requires added in b && added.id == out.id
    requires forall x :: x in a && x != out ==> x in b
    ensures HasCustom(Store(a, id), id) ==> HasCustom(Store(b, id), id)
  {
    if HasCustom(Store(a, id), id) {
      var i :| 0 <= i < |a| && a[i].id == id;
      var kept := if a[i] == out then added else a[i];
      assert kept in b && kept.id == id;
      var j :| 0 <= j < |b| && b[j] == kept;
    }
  }

  lemma DeleteKeepsInvariant(st: Store, id: string, key: Collation)
    requires Invariant(st, key)
    ensures Invariant(DeletePreset(st, id).0, key)
  {
    DeleteKeepsOrder(st, id, key);
    var (d, ok) := DeletePreset(st, id);
    if ok {
      var removed := FindById(st.customs, id).value;
      MembersAfterRemove(st.customs, d.customs, removed);
      if st.selectedId == id {
        DefaultIsFirst();
      } else {
        KeptIdFound(st.customs, d.customs, st.selectedId);
        KeepsResolving(st.customs, d.customs, st.selectedId);
      }
    }
  }

  /** Selecting an id and reading the selection back agree; when the id
      resolves, the preset read back is the one returned. */
  lemma SelectThenGet(st: Store, id: string)
    ensures GetSelectedPreset(SetSelectedPreset(st, id).0).id == SetSelectedPreset(st, id).1.id
    ensures FindPresetById(st, id).Some? ==>
      GetSelectedPreset(SetSelectedPreset(st, id).0) == SetSelectedPreset(st, id).1
  {
    DefaultIsFirst();
  }

  /** Deleting a freshly created preset restores the previous custom
      presets and selection. */
  lemma CreateThenDelete(st: Store, payload: Payload, newId: string, key: Collation)
    requires !HasCustom(st, newId) && st.selectedId != newId
    ensures DeletePreset(CreatePreset(st, payload, newId, key).0, newId).1
    ensures multiset(DeletePreset(CreatePreset(st, payload, newId, key).0, newId).0.customs) == multiset(st.customs)
    ensures DeletePreset(CreatePreset(st, payload, newId, key).0, newId).0.selectedId == st.selectedId
  {
    var (c, p) := CreatePreset(st, payload, newId, key);
    CreatedIsFound(st.customs, c.customs, p);
  }

  /** After adding a preset whose id was new, looking that id up finds
      the preset added. */
  lemma CreatedIsFound(before: seq<Preset>, after: seq<Preset>, p: Preset)
    requires forall i :: 0 <= i < |before| ==> before[i].id != p.id
    requires multiset(after) == multiset(before) + multiset{p}
    ensures HasCustom(Store(after, p.id), p.id)
    ensures FindById(after, p.id) == Some(p)
  {
    assert p in multiset(after);
    var j :| 0 <= j < |after| && after[j] == p;
    assert HasCustom(Store(after, p.id), p.id);
    var found := FindById(after, p.id).value;
    assert found in multiset(after);
  }
}

=== FILE: settings.dfy ===
/** Default settings of the main process (`src/electron/settings.ts`): a
    base map of string options plus per-platform overrides. */
module ElectronSettings {

  type Settings = map<string, string>

  const DefaultSettingsConfig: Settings := map[
    "notifsFocus" := "all",
    "theme" := "system",
    "autoCheckForUpdates" := "true",
    "transitionPeriodsEnabled" := "false",
    "breakChargingEnabled" := "true",
    "workPeriodDuration" := "25",
    "breakPeriodDuration" := "10",
    "transitionPeriodDuration" := "3",
    "breakChargeExtensionAmount" := "10",
    "breakChargeCooldown" := "0",
    "workTimePerCharge" := "60"]

  const Win32Overrides: Settings := map[]
  const DarwinOverrides: Settings := map["touchBar" := "true"]

  /** `getDefaultSettings(platform)`: a copy of the base map with the
      platform's overrides assigned over it (`Object.assign`). */
  function GetDefaultSettings(platform: string): (r: Settings)
    ensures forall k :: k in DefaultSettingsConfig ==> k in r && r[k] == DefaultSettingsConfig[k]
    ensures platform == "darwin" ==> r == DefaultSettingsConfig["touchBar" := "true"]
    ensures platform != "darwin" ==> r == DefaultSettingsConfig
  {
    var base := DefaultSettingsConfig;
    var withWin := if platform == "win32" then base + Win32Overrides else base;
    var withMac := if platform == "darwin" then withWin + DarwinOverrides else withWin;
    assert "touchBar" !in base;
    withMac
  }

  /** The ledger- and timer-related defaults. */
  lemma ChargeDefaults(platform: string)
    ensures var s := GetDefaultSettings(platform);
      && s["breakChargingEnabled"] == "true"
      && s["breakChargeCooldown"] == "0"
      && s["workTimePerCharge"] == "60"
      && s["breakChargeExtensionAmount"] == "10"
      && s["transitionPeriodsEnabled"] == "false"
  {
  }
}

/** Default settings shared with the renderer (`src/common/settingsDefaults.ts`).
    Its override table is empty for both named platforms. */
module CommonSettings {

  type Settings = map<string, string>

  const DefaultSettingsConfig: Settings := map[
    "notifsFocus" := "all",
    "theme" := "system",
    "discordRichPresence" := "true",
    "transitionPeriodsEnabled" := "false",
    "breakChargingEnabled" := "true",
    "workPeriodDuration" := "25",
    "breakPeriodDuration" := "10",
    "transitionPeriodDuration" := "3",
    "breakChargeExtensionAmount" := "10",
    "breakChargeCooldown" := "0",
    "workTimePerCharge" := "60",
    "autoSoundMode" := "false"]

  const PlatformSpecificDefaults: map<string, Settings> := map["win32" := map[], "darwin" := map[]]

  /** `getDefaultSettings(platform)`: a fresh copy of the base map; the
      override of a listed platform is assigned over it. */
  function GetDefaultSettings(platform: string): (r: Settings)
    ensures r == DefaultSettingsConfig
  {
    var base := DefaultSettingsConfig;
    var withWin := if platform == "win32" then base + PlatformSpecificDefaults["win32"] else base;
    if platform == "darwin" then withWin + PlatformSpecificDefaults["darwin"] else withWin
  }

  /** The values the renderer shows before any setting is stored. */
  lemma RendererDefaults(platform: string)
    ensures var s := GetDefaultSettings(platform);
      && s["discordRichPresence"] == "true"
      && s["autoSoundMode"] == "false"
      && s["workTimePerCharge"] == "60"
  {
  }
}

=== FILE: timer_config.dfy ===
/** The settings map as the focus timer reads it. The timer looks each
    option up with `settings.key || "fallback"` and then calls `parseInt`
    or `parseFloat`; `Config` holds the numbers those reads produce, one
    field per distinct read, so that two reads of one key with different
    fallbacks stay distinguishable. */
module TimerConfig {
  import opened Common
  import opened Decimal
  import ElectronSettings
  import CommonSettings

  type Settings = map<string, string>

  datatype Config = Config(
    workMinutes: real,             // parseFloat(workPeriodDuration)
    breakMinutes: real,            // parseFloat(breakPeriodDuration)
    transitionMinutes: real,       // parseFloat(transitionPeriodDuration)
    breakChargingEnabled: bool,    // breakChargingEnabled === "true"
    transitionPeriodsEnabled: bool,// transitionPeriodsEnabled === "true"
    workTimePerCharge: int,        // parseInt(workTimePerCharge || "60")
    workTimePerChargeExact: real,  // parseFloat(workTimePerCharge || "60")
    spendCooldown: int,            // parseInt(breakChargeCooldown || "0"), when spending
    displayCooldown: int,          // parseInt(breakChargeCooldown || "1"), when reporting
    extensionMinutes: int,         // parseInt(breakChargeExtensionAmount || "5")
    notifsFocus: string)

  /** `settings[key] || fallback`: a missing or empty option reads as the
      fallback. */
  function Lookup(s: Settings, key: string, fallback: string): (v: string)
    ensures key in s && s[key] != "" ==> v == s[key]
    ensures (key !in s || s[key] == "") ==> v == fallback
  {
    if key in s && s[key] != "" then s[key] else fallback
  }

  /** Reading a settings map; `None` where one of the numeric reads would
      be NaN. */
  function ConfigFromSettings(s: Settings): (r: Option<Config>)
    ensures r.None? <==>
      || ParseFloat(Lookup(s, "workPeriodDuration", "")).None?
      || ParseFloat(Lookup(s, "breakPeriodDuration", "")).None?
      || ParseFloat(Lookup(s, "transitionPeriodDuration", "")).None?
      || ParseInt(Lookup(s, "workTimePerCharge", "60")).None?
      || ParseFloat(Lookup(s, "workTimePerCharge", "60")).None?
      || ParseInt(Lookup(s, "breakChargeCooldown", "0")).None?
      || ParseInt(Lookup(s, "breakChargeCooldown", "1")).None?
      || ParseInt(Lookup(s, "breakChargeExtensionAmount", "5")).None?
    ensures r.Some? ==>
      && Some(r.value.workMinutes) == ParseFloat(Lookup(s, "workPeriodDuration", ""))
      && Some(r.value.breakMinutes) == ParseFloat(Lookup(s, "breakPeriodDuration", ""))
      && Some(r.value.transitionMinutes) == ParseFloat(Lookup(s, "transitionPeriodDuration", ""))
      && Some(r.value.workTimePerCharge) == ParseInt(Lookup(s, "workTimePerCharge", "60"))
      && Some(r.value.workTimePerChargeExact) == ParseFloat(Lookup(s, "workTimePerCharge", "60"))
      && Some(r.value.spendCooldown) == ParseInt(Lookup(s, "breakChargeCooldown", "0"))
      && Some(r.value.displayCooldown) == ParseInt(Lookup(s, "breakChargeCooldown", "1"))
      && Some(r.value.extensionMinutes) == ParseInt(Lookup(s, "breakChargeExtensionAmount", "5"))
    ensures r.Some? ==>
      && (r.value.breakChargingEnabled <==> "breakChargingEnabled" in s && s["breakChargingEnabled"] == "true")
      && (r.value.transitionPeriodsEnabled <==> "transitionPeriodsEnabled" in s && s["transitionPeriodsEnabled"] == "true")
      && r.value.notifsFocus == Lookup(s, "notifsFocus", "")
  {
    var work := ParseFloat(Lookup(s, "workPeriodDuration", ""));
    var brk := ParseFloat(Lookup(s, "breakPeriodDuration", ""));
    var transition := ParseFloat(Lookup(s, "transitionPeriodDuration", ""));
    var perCharge := ParseInt(Lookup(s, "workTimePerCharge", "60"));
    var perChargeExact := ParseFloat(Lookup(s, "workTimePerCharge", "60"));
    var spendCooldown := ParseInt(Lookup(s, "breakChargeCooldown", "0"));
    var displayCooldown := ParseInt(Lookup(s, "breakChargeCooldown", "1"));
    var extension := ParseInt(Lookup(s, "breakChargeExtensionAmount", "5"));
    if work.None? || brk.None? || transition.None? || perCharge.None? || perChargeExact.None?
       || spendCooldown.None? || displayCooldown.None? || extension.None?
    then None
    else Some(Config(
      work.value, brk.value, transition.value,
      "breakChargingEnabled" in s && s["breakChargingEnabled"] == "true",
      "transitionPeriodsEnabled" in s && s["transitionPeriodsEnabled"] == "true",
      perCharge.value, perChargeExact.value, spendCooldown.value, displayCooldown.value,
      extension.value, Lookup(s, "notifsFocus", "")))
  }

  /** With no cooldown option stored, spending treats the cooldown as 0
      while reporting treats it as 1: the two fallbacks disagree. */
  lemma CooldownFallbacksDisagree(s: Settings)
    requires "breakChargeCooldown" !in s
    ensures ConfigFromSettings(s).Some? ==> ConfigFromSettings(s).value.spendCooldown == 0
    ensures ConfigFromSettings(s).Some? ==> ConfigFromSettings(s).value.displayCooldown == 1
  {
    ParsersReadNatText(0);
    ParsersReadNatText(1);
  }

  /** Options that were never stored read as the source's fallbacks:
      60 minutes per charge, a 5-minute extension, charging and
      transitions off (only the exact text "true" switches them on), and
      no focus notification level. */
  lemma MissingOptionsUseFallbacks(s: Settings)
    requires "workTimePerCharge" !in s && "breakChargeExtensionAmount" !in s
    requires "breakChargingEnabled" !in s && "transitionPeriodsEnabled" !in s && "notifsFocus" !in s
    ensures ConfigFromSettings(s).Some? ==>
      var c := ConfigFromSettings(s).value;
      && c.workTimePerCharge == 60 && c.workTimePerChargeExact == 60.0 && c.extensionMinutes == 5
      && !c.breakChargingEnabled && !c.transitionPeriodsEnabled && c.notifsFocus == ""
  {
    assert Lookup(s, "workTimePerCharge", "60") == "60";
    assert Lookup(s, "breakChargeExtensionAmount", "5") == "5";
    ReadLiterals();
    assert NatToString(5) == "5";
    ParsersReadNatText(5);
  }

  /** With the option stored, both reads agree. */
  lemma CooldownReadsAgreeWhenStored(s: Settings)
    requires "breakChargeCooldown" in s && s["breakChargeCooldown"] != ""
    ensures ConfigFromSettings(s).Some? ==>
      ConfigFromSettings(s).value.spendCooldown == ConfigFromSettings(s).value.displayCooldown
  {
  }

  /** On plain sign-digits-fraction text, the threshold read with `parseInt`
      is the truncation of the one read with `parseFloat`. (On "1e2" or
      "0x3C" JavaScript's two reads disagree; the model does not parse
      either form.) */
  lemma ThresholdReadsAgree(s: Settings)
    requires PlainNumber(Lookup(s, "workTimePerCharge", "60"))
    requires ConfigFromSettings(s).Some?
    ensures Trunc(ConfigFromSettings(s).value.workTimePerChargeExact) == ConfigFromSettings(s).value.workTimePerCharge
  {
    ParseIntTruncatesParseFloat(Lookup(s, "workTimePerCharge", "60"));
  }

  /** The configuration the timer runs with out of the box, on any platform. */
  lemma DefaultConfig(platform: string)
    ensures ConfigFromSettings(ElectronSettings.GetDefaultSettings(platform))
      == Some(Config(25.0, 10.0, 3.0, true, false, 60, 60.0, 0, 0, 10, "all"))
  {
    var s := ElectronSettings.GetDefaultSettings(platform);
    DefaultLookups(platform);
    ConfigOfDefaultTexts(s);
  }

  lemma DefaultLookups(platform: string)
    ensures var s := ElectronSettings.GetDefaultSettings(platform);
      && Lookup(s, "workPeriodDuration", "") == "25"
      && Lookup(s, "breakPeriodDuration", "") == "10"
      && Lookup(s, "transitionPeriodDuration", "") == "3"
      && Lookup(s, "workTimePerCharge", "60") == "60"
      && Lookup(s, "breakChargeCooldown", "0") == "0"
      && Lookup(s, "breakChargeCooldown", "1") == "0"
      && Lookup(s, "breakChargeExtensionAmount", "5") == "10"
      && Lookup(s, "notifsFocus", "") == "all"
      && "breakChargingEnabled" in s && s["breakChargingEnabled"] == "true"
      && "transitionPeriodsEnabled" in s && s["transitionPeriodsEnabled"] == "false"
  {
    BaseTexts();
  }

  /** The base table's texts for the options the timer reads. */
  lemma BaseTexts()
    ensures var b := ElectronSettings.DefaultSettingsConfig;
      && "workPeriodDuration" in b && b["workPeriodDuration"] == "25"
      && "breakPeriodDuration" in b && b["breakPeriodDuration"] == "10"
      && "transitionPeriodDuration" in b && b["transitionPeriodDuration"] == "3"
      && "workTimePerCharge" in b && b["workTimePerCharge"] == "60"
      && "breakChargeCooldown" in b && b["breakChargeCooldown"] == "0"
      && "breakChargeExtensionAmount" in b && b["breakChargeExtensionAmount"] == "10"
      && "notifsFocus" in b && b["notifsFocus"] == "all"
      && "breakChargingEnabled" in b && b["breakChargingEnabled"] == "true"
      && "transitionPeriodsEnabled" in b && b["transitionPeriodsEnabled"] == "false"
  {
  }

  lemma ConfigOfDefaultTexts(s: Settings)
    requires Lookup(s, "workPeriodDuration", "") == "25"
    requires Lookup(s, "breakPeriodDuration", "") == "10"
    requires Lookup(s, "transitionPeriodDuration", "") == "3"
    requires Lookup(s, "workTimePerCharge", "60") == "60"
    requires Lookup(s, "breakChargeCooldown", "0") == "0"
    requires Lookup(s, "breakChargeCooldown", "1") == "0"
    requires Lookup(s, "breakChargeExtensionAmount", "5") == "10"
    requires Lookup(s, "notifsFocus", "") == "all"
    requires "breakChargingEnabled" in s && s["breakChargingEnabled"] == "true"
    requires "transitionPeriodsEnabled" in s && s["transitionPeriodsEnabled"] == "false"
    ensures ConfigFromSettings(s) == Some(Config(25.0, 10.0, 3.0, true, false, 60, 60.0, 0, 0, 10, "all"))
  {
    ReadLiterals();
  }

  /** The numeric texts of the default table, read by both parsers. */
  lemma ReadLiterals()
    ensures ParseFloat("25") == Some(25.0) && ParseFloat("10") == Some(10.0) && ParseFloat("3") == Some(3.0)
    ensures ParseFloat("60") == Some(60.0) && ParseInt("60") == Some(60)
    ensures ParseInt("0") == Some(0) && ParseInt("10") == Some(10)
  {
    assert NatToString(2) == "2" && NatToString(25) == "25";
    assert NatToString(1) == "1" && NatToString(10) == "10";
    assert NatToString(6) == "6" && NatToString(60) == "60";
    assert NatToString(3) == "3" && NatToString(0) == "0";
    ParsersReadNatText(25);
    ParsersReadNatText(10);
    ParsersReadNatText(3);
    ParsersReadNatText(60);
    ParsersReadNatText(0);
  }

  /** The options the timer reads carry the same defaults in the main
      process's table and in the shared table. */
  lemma TimerDefaultsAgree(platform: string)
    ensures forall k :: k in TimerKeys ==>
      k in ElectronSettings.GetDefaultSettings(platform) && k in CommonSettings.GetDefaultSettings(platform)
      && ElectronSettings.GetDefaultSettings(platform)[k] == CommonSettings.GetDefaultSettings(platform)[k]
  {
  }

  const TimerKeys: set<string> := {
    "notifsFocus", "transitionPeriodsEnabled", "breakChargingEnabled", "workPeriodDuration",
    "breakPeriodDuration", "transitionPeriodDuration", "breakChargeExtensionAmount",
    "breakChargeCooldown", "workTimePerCharge"}
}
